=== FILE: README.md ===
# obsbot in Dafny

obsbot collects incoming messages into an Obsidian vault. An IMAP worker fetches unseen
mail, keeps the messages whose sender is on an e-mail whitelist, and stores each one as a
Markdown note. Attached files go into an attachments sub-directory, and the note embeds
them with `![[name]]` links. A Telegram front end feeds the same note builder. The
service is configured entirely from environment variables.

This project models the core of that service as pure functions and proves properties
of them:

- **Text** (`text.dfy`) holds the Python string primitives the code relies on:
  `str.strip`, `str.lower`, `str.split` with one-character separators, `sep.join`,
  `re.sub(r"\s+", ...)`, filters and slices, and decimal rendering.
- **Names** (`names.dfy`) models `_slugify`, `_sanitize_component`, `_clean_preview`
  and the text of `str(uuid.uuid4())`.
- **Forward** (`forward.dfy`) models `str.splitlines`, the forwarded-message marker
  regex and `_strip_forward_headers`.
- **Clock** (`clock.dfy`) models the `strftime` renderings of the note date and of the
  file-name timestamp.
- **Note** (`note.dfy`) models `Storage.__init__` and `save_markdown_message`.
  - The builder is a pure function. It returns the note path, the note's lines, and the
    ordered list of file writes it performs.
  - A small file-system model, `Apply`, replays those writes.
  - Each source of nondeterminism is a parameter: the two clock readings, `html2text`
    and the stream of uuid values.
- **Config** (`config.py` helpers) models `_split_list`, `_to_bool`, Python's `int()`
  on text, and `load_settings` over an environment map.
- **Mail** (`main.py`) models `parse_email_message` over an already-parsed MIME tree.
  - It is written twice, once as the loop the source runs and once as a reference
    reading, and the two are proved equal.
  - It also models the extraction of the address from `From`, `is_email_whitelisted`,
    and the save call the worker makes for whitelisted senders only.

## Model

| member | source | states |
|---|---|---|
| Text.StripProps | app/config.py:9 | `strip()` removes exactly the leading and trailing white space: the result is a contiguous piece of the input with no space at either end, it is empty iff the input is all white space, and text without white space is unchanged |
| Text.StripLower | app/config.py:15 | stripping and lower-casing commute, so `value.strip().lower()` does not depend on the order of the two calls |
| Text.LowerStrIdempotent | app/config.py:48 | lower-casing twice is lower-casing once |
| Text.JoinSplit | app/config.py:9 | joining the pieces of `value.split(",")` with commas gives the value back |
| Text.SplitJoin | app/config.py:9 | splitting a comma-join of comma-free pieces gives the pieces back |
| Text.SplitPieces | app/config.py:9 | no piece of a split contains the separator |
| Text.SplitLastAfter | app/main.py:97 | the last piece of `s.split("<")` is the text after the last `<` |
| Text.Squash | app/storage.py:28 | `re.sub(r"\s+", " ", v).strip()` leaves no white space at either end, no two neighbouring spaces, and only plain spaces |
| Text.FilterSquash | app/storage.py:28 | collapsing white space keeps every other character, in order |
| Text.SquashFixedPoints | app/storage.py:28 | a text is left unchanged by the collapse exactly when it is already in that normal form |
| Text.SquashGap | app/storage.py:28 | a run of white space between two space-free words becomes exactly one space |
| Text.SquashBlank | app/storage.py:28 | all-white-space text collapses to "" |
| Text.SquashInner | app/storage.py:28 | the collapsed and stripped text holds a space exactly when the input has white space between two other characters |
| Text.StripPadded | app/config.py:15 | padding a text with white space on either side does not change what `strip()` gives |
| Text.RStripOf | app/storage.py:33 | `rstrip()` gives the prefix that leaves only white space behind and does not end in white space, and no other text is such a prefix |
| Text.DecRoundTrip | app/storage.py:113 | the decimal rendering of a number reads back as that number |
| Text.PadZero | app/storage.py:113 | `:03d` renders a number below 1000 as three digits that read back as it |
| Names.UuidText | app/storage.py:22 | `str(uuid)` is 36 slug characters: hyphens at positions 8, 13, 18 and 23, hex digits everywhere else, and those hex digits are the uuid's 32 digits in order |
| Names.Slugify | app/storage.py:18-22 | the slug has 1 to 80 characters, all from `[A-Za-z0-9-_.]`; it is either the uuid text or keeps a prefix of the input's letters, digits, `_` and `.` in order; it keeps all of them when the input has at most 80 characters and one of them; input without slug characters or white space yields the uuid text |
| Names.SlugBodyFacts | app/storage.py:19-21 | the three substitutions keep exactly the input's word characters, never lengthen it, and leave only slug characters |
| Names.SlugifyIdempotent | app/storage.py:18-22 | slugifying a slug gives the same slug, whatever uuid the second call draws |
| Names.SlugifyFixes | app/storage.py:18-22 | a text of 1 to 80 slug characters is its own slug |
| Names.SlugifyToken | app/storage.py:22 | the uuid matters only when nothing survives the substitutions; otherwise the slug does not depend on it |
| Names.CopySuffixSlug | app/storage.py:18-22 | `x (n)e` and `x ne` give the same slug `x-ne` for slug-character pieces, so `report (1).pdf` and `report 1.pdf` collide |
| Names.SanitizeComponent | app/storage.py:25-34 | the result is never empty and has no character from `\/:*?"<>|`; its only white space is the plain space; it respects the length bound; it is `untitled` when the cleaned value is empty after the cut; otherwise it is the cleaned value itself when that fits in `max_len`, and the cleaned value's first `max_len` characters less their trailing white space when it does not; all-blank or forbidden-only input gives `untitled`; it keeps a prefix of the input's other non-space characters, all of them when the input fits |
| Names.SanitizeKeepsContent | app/storage.py:25-34 | when one of the cleaned value's first `max_len` characters is neither space nor forbidden, the fallback is not taken: the result is a prefix of the cleaned value holding such a character, and its such characters are a prefix of the input's |
| Names.CutEmpty | app/storage.py:31-34 | the cut value is empty, and the fallback taken, exactly when the cleaned value is empty or is cut at a point before which it holds only spaces |
| Names.SanitizeBodyEmpty | app/storage.py:26-30 | the cleaned value is empty exactly when the input has no character that is neither space nor forbidden and no white space between two forbidden characters |
| Names.NoContentBody | app/storage.py:26-30 | for input of spaces and forbidden characters only, the cleaned value is spaces, and empty exactly when no white space lies between two forbidden characters |
| Names.SanitizeNoContentResult | app/storage.py:25-34 | input of spaces and forbidden characters only gives `untitled` exactly when no white space lies between two forbidden characters or the remaining spaces are cut away; otherwise it gives spaces |
| Names.EdgeSpaceFallsBack | app/storage.py:25-34 | `" :"` gives `untitled`: the space is stripped before the colon is removed |
| Names.SanitizeBodyNoSpace | app/storage.py:26-30 | for input without white space the cleaned value is the input with the forbidden characters removed |
| Names.ForbiddenThenWord | app/storage.py:25-34 | forbidden characters in front of a word that fits in `max_len` are dropped and the word is the result, however many of them there are |
| Names.ColonsThenWord | app/storage.py:25-34 | ten colons and `a` with `max_len` 8 give `"a"` |
| Names.CutKeepsPrefix | app/storage.py:32-33 | `"helloworld"` with `max_len` 5 gives `"hello"` |
| Names.TrailingSpaceKept | app/storage.py:25-34 | `"a :"` gives `"a "`: a value that fits is not right-stripped after the colon is removed |
| Names.SanitizeBody | app/storage.py:27-30 | the replacements and removals keep exactly the input's characters that are neither space nor forbidden |
| Names.CutTitle | app/storage.py:32-33 | a value that fits is kept whole; a longer one keeps exactly its first `max_len` characters (Python slicing) less their trailing white space; the result never holds more content characters than the value |
| Names.SanitizeMayLeaveBlank | app/storage.py:25-34 | because stripping happens before the forbidden characters are removed, `": :"` sanitizes to a single space rather than to `untitled` |
| Names.StripTags | app/storage.py:39 | after tag removal no `<…>` tag is left and the text is no longer; text without `<` is unchanged; no `>` appears that was not in the input |
| Names.CleanPreview | app/storage.py:37-45 | the preview is in white-space normal form and no longer than the input |
| Names.CleanPreviewIsSquashed | app/storage.py:44 | a second collapse leaves the preview unchanged |
| Forward.SplitLines | app/storage.py:50 | `splitlines()` gives lines free of line breaks, and no lines exactly for the empty text |
| Forward.JoinSplitLines | app/storage.py:50 | for text whose only breaks are `\n` and which does not end in one, joining the lines with `\n` gives the text back |
| Forward.SplitLinesJoin | app/storage.py:50 | splitting a `\n`-join of break-free lines whose last line is non-empty gives the lines back |
| Forward.MarkerSpec | app/storage.py:53 | the marker test holds exactly when the stripped line is at least 6 dashes or spaces, then one of the two phrases in any letter case, then at least 2 dashes or spaces |
| Forward.GmailMarker | app/storage.py:53-56 | Gmail's `---------- Forwarded message ---------` line is a marker line |
| Forward.YandexMarker | app/storage.py:53-56 | Yandex's Russian forwarded-message line is a marker line |
| Forward.MarkerExample | app/storage.py:53-56 | any such line with runs of dashes and spaces around either phrase is a marker line |
| Forward.FirstMarker | app/storage.py:54-58 | the index found is the first marker line, or the line count when there is none |
| Forward.BodyStart | app/storage.py:61-65 | the kept body starts after the marker, past the maximal run of filled header lines (it ends at a blank line or at the end) and then a run of blank lines, at a non-blank line or at the end |
| Forward.StripForwardHeadersCases | app/storage.py:48-66 | without a marker the text is returned unchanged; with one, the lines from the body start are rejoined |
| Forward.HeaderBlockDropped | app/storage.py:48-66 | a marker line, any filled header lines, one blank line and a body line leave exactly the body line |
| Forward.KeptStartsFilled | app/storage.py:61-66 | after a marker, the kept text starts at a non-blank line, or is empty |
| Forward.KeptIsSuffix | app/storage.py:66 | for `\n`-separated text, what is kept is a suffix of the original text |
| Forward.LStripNewlines | app/storage.py:66 | `lstrip("\n")` gives a suffix that does not begin with a newline |
| Clock.DateString | app/storage.py:158 | `%Y-%m-%d` has 10 characters for four-digit years and holds only digits and separators |
| Clock.DateFields | app/storage.py:158 | the date's fields read back as the year, month and day |
| Clock.TimeFields | app/storage.py:113 | `%H-%M-%S` plus `.mmm` read back as the hour, minute, second and millisecond |
| Clock.Timestamp | app/storage.py:113 | the file-name timestamp is 23 characters for four-digit years and starts with the date |
| Clock.TimestampInjective | app/storage.py:113 | two timestamps are equal exactly when the readings agree to the millisecond |
| Note.NewStorage | app/storage.py:70-72 | the attachments directory is the sub-directory joined to the base directory, and its base name is that sub-directory |
| Note.JoinBaseName | app/storage.py:72 | `os.path.join(a, b)` with a slash-free `b` has base name `b` |
| Note.RawBody | app/storage.py:98-104 | a non-empty text body is used; otherwise the html converted by `html2text`, or the html itself when conversion fails; otherwise "" |
| Note.SafeSubject | app/storage.py:108 | the subject part of a mail note name is non-empty, free of forbidden characters, and at most 100 characters long |
| Note.TextPreview | app/storage.py:109-111 | the preview part is non-empty, free of forbidden characters, at most 40 characters, and `untitled` when the cleaned preview is empty |
| Note.TelegramTitle | app/storage.py:115-149 | the Telegram title is a good name part |
| Note.TelegramTitlePriority | app/storage.py:115-148 | the title is the first present candidate in the source's order (explicit title, text preview, label, first attachment name), and "Сообщение" when none is present |
| Note.NoteNaming | app/storage.py:115-155 | the note's base name is `title - stamp.md` for Telegram and `subject - preview - stamp.md` otherwise |
| Note.NoteInBaseDir | app/storage.py:150-155 | the note is written in the base directory under the computed file name |
| Note.TokensFresh | app/storage.py:185-194 | within one list of links, each `uuid4()` call draws a later value than the calls before it |
| Note.StoredDrawsAfterPreSaved | app/storage.py:183-194 | every `uuid4()` call for a byte attachment draws a later value than every call for an unnamed pre-saved file, so no uuid serves two links of one note |
| Note.SafeName | app/storage.py:194 | a stored attachment name is 1 to 80 slug characters |
| Note.SameNameSameFile | app/storage.py:193-197 | two byte attachments with the same name that slugifies to something get the same stored name |
| Note.SaveMarkdownMessage | app/storage.py:83-211 | there is one write per byte attachment, then the note, whose content is its lines joined by newlines |
| Note.AttachmentInDir | app/storage.py:195 | every attachment lands in the attachments directory under its stored name |
| Note.NoteApart | app/storage.py:195-207 | the note is never written to an attachment's path |
| Note.ApplyLast | app/storage.py:196-208 | a write that no later write overwrites decides the file's content |
| Note.ApplyUntouched | app/storage.py:196-208 | a file no write touches keeps its content |
| Note.NoteWrittenLast | app/storage.py:207-208 | after the builder's writes the note path holds the joined note lines |
| Note.LastAttachmentKept | app/storage.py:193-197 | the last byte attachment's content survives the builder's writes |
| Note.SameSlugSamePath | app/storage.py:194-195 | two byte attachments whose names slugify to the same text under a given uuid are written to the same path, so the later overwrites the earlier |
| Note.SameMillisecondOverwrite | app/storage.py:113-150 | two Telegram notes with the same explicit title saved within one millisecond get the same path, and the second replaces the first |
| Note.LinesLayout | app/storage.py:160-205 | the note lines are `---`, `tags:`, the Telegram or e-mail tag, `Зачем_изучать?:`, the date line, `---`, `## Сообщение`, the body and "", then the attachment heading exactly when there are attachments, a "" after the embeds, and the closing `---`, `## Инпуты` and checkbox lines |
| Note.NoteLayout | app/storage.py:160-205 | the builder's output has that full layout, and 12 lines, or 14 plus one per link when there are attachments |
| Note.EmbedsFollowWrites | app/storage.py:192-199 | the embed line of the i-th byte attachment names the file the i-th write creates, and that write holds its bytes |
| Note.EmbedsOfPreSaved | app/storage.py:183-190 | the j-th pre-saved file is embedded under its saved name, or under a fresh uuid when that name is empty |
| Note.PreSavedSuppressesNames | app/storage.py:137-190 | when pre-saved pairs are given, the list of pre-saved names has no effect on the result |
| Config.GetEnv | app/config.py:58 | a variable has a value exactly when it is set, and the value is the one the environment holds |
| Config.SplitList | app/config.py:6-9 | an unset or empty value gives no items; every item is non-empty, comma-free and has no white space at either end |
| Config.SplitListJoin | app/config.py:6-9 | reading a comma-join gives the pieces stripped, with the blank ones dropped |
| Config.SplitListRoundTrip | app/config.py:6-9 | a list of clean items survives a comma-join followed by a read |
| Config.StripItemsClean | app/config.py:9 | stripping and dropping blanks leaves a list of clean items as it is |
| Config.ToBool | app/config.py:12-14 | an unset value gives the default |
| Config.ToBoolBlank | app/config.py:15 | a set but blank value is false, whatever the default |
| Config.ToBoolCaseInsensitive | app/config.py:15 | values that differ only in letter case read the same |
| Config.ReadsAs | app/config.py:15 | a trimmed lower-case value is true exactly when it is one of `1`, `true`, `yes`, `on` |
| Config.ToBoolPadded | app/config.py:15 | white space around a flag value is ignored |
| Config.PaddedOnReadsTrue | app/config.py:15 | `" on "` turns a flag on even when the default is off |
| Config.ParseIntBlank | app/config.py:42 | `int()` rejects blank text |
| Config.ParseIntShow | app/config.py:42 | `int(str(n)) == n` for every integer of at most 4300 digits, the ones `str()` converts |
| Config.ParseIntRejects | app/config.py:42 | a character other than a digit, `_` or a leading sign makes `int()` fail |
| Config.SeparatorThenDigits | app/config.py:42 | digits after U+001F strip to the digits with `str.strip()`, but `int()` rejects them: it skips only ASCII space, tab, line feed, vertical tab, form feed and carriage return, and non-ASCII white space |
| Config.UnitSeparatorRejected | app/config.py:42 | `"\x1f8080"` strips to `"8080"` but `int()` rejects it |
| Config.UnitSeparatorPortFails | app/config.py:42 | `HTTP_PORT` set to `"\x1f8080"` makes loading fail |
| Config.ParseIntTooManyDigits | app/config.py:42 | a well-formed literal of more than 4300 digits is rejected |
| Config.TgIdsMembers | app/config.py:50-56 | an id is whitelisted exactly when some item reads as it; unreadable items are skipped |
| Config.TgIdsShown | app/config.py:50-56 | a listed id in decimal form, of at most 4300 digits, is whitelisted |
| Config.NotifyChat | app/config.py:59-60 | an unset chat id gives none; a chat id that is read is the value `int()` gives |
| Config.NotifyChatBlank | app/config.py:60 | the chat id is none exactly when the variable is unset or blank |
| Config.LoadSettingsFails | app/config.py:41-85 | loading fails exactly when one of `HTTP_PORT`, a non-blank `TELEGRAM_NOTIFY_CHAT_ID`, `IMAP_PORT` or `IMAP_POLL_INTERVAL` is set to text `int()` rejects |
| Config.DefaultNumbers | app/config.py:42-67 | reading a numeric default as a number is the same as `int()` of its default text |
| Config.LoadDefaults | app/config.py:41-85 | in the empty environment every field takes its default: 8080, `/folder`, `attachments`, `Europe/Moscow`, empty whitelists, no token, chat or IMAP credentials, 993, SSL on, 60 |
| Config.TgIdsOnly | app/config.py:50-56 | changing `WHITELIST_TG_IDS` never makes loading fail or succeed and changes only the id whitelist |
| Config.SettingsNormalised | app/config.py:44-49 | e-mails are clean lower-case items; user names are lower-case without a leading `@`; the time zone is set and trimmed; the storage directory has no trailing `/` or `\`; the sub-directory is trimmed |
| Config.BareAtIsEmptyName | app/config.py:49 | a listed user name of `@` alone whitelists the empty name |
| Mail.AttachmentOf | app/main.py:53-55 | an attachment part is stored under its file name, or `attachment` when it has none, with its payload or no bytes |
| Mail.AttachmentsInOrder | app/main.py:49-55 | there is one attachment per attachment part, and the k-th attachment comes from the k-th attachment part |
| Mail.FirstOf | app/main.py:56-61 | a body of a given type is found exactly when some non-attachment part has that type |
| Mail.FirstOfAt | app/main.py:56-61 | the body of a type is the text of the first part carrying it; later parts do not replace it |
| Mail.BodyOf | app/main.py:71 | the body is the plain text when non-empty, else the html when non-empty, else "" |
| Mail.PlainTextPreferred | app/main.py:56-71 | a non-empty first plain-text part is the body, whatever html parts the message has |
| Mail.SingleHasNoAttachments | app/main.py:62-69 | a single-part message has no attachments; its body is its text when it is plain text or html, else "" |
| Mail.Parse | app/main.py:41-71 | the sender is the `From` header or "", and the subject is passed through |
| Mail.WalkParts | app/main.py:48-61 | the loop over the walk collects exactly the reference reading's attachments and first plain-text and html bodies |
| Mail.ParseEmailMessage | app/main.py:41-71 | the function as written returns what the reference reading gives |
| Mail.ExtractAddress | app/main.py:95-97 | with both `<` and `>` present the result contains neither; otherwise the header is kept as it is |
| Mail.ExtractAddressAfterLast | app/main.py:95-97 | for a header `x<y` whose `y` has no `<` but which has a `>`, the address is the part of `y` before its first `>`, stripped |
| Mail.ExtractAddressOf | app/main.py:95-97 | `Display <addr>` yields `addr` stripped, whatever the display name holds |
| Mail.ExtractAddressBare | app/main.py:95-97 | a header without `<` is used as the address unchanged |
| Mail.IsEmailWhitelisted | app/main.py:35-38 | a missing or empty sender is never whitelisted |
| Mail.WhitelistIgnoresCase | app/main.py:35-38 | against the loaded whitelist, an address passes exactly when it is non-empty and equals a listed item ignoring case |
| Mail.MailMessage | app/main.py:100-106 | the saved message has source `email`, the extracted address and parsed subject, the parsed body as text body, no html body, and the parsed attachments |
| Mail.ProcessMailSaves | app/main.py:93-109 | a message is saved exactly when its sender's address is whitelisted, and then with one write per attachment plus the note |
| Mail.MailNoteLaidOut | app/main.py:100-109 | a saved e-mail note carries the e-mail tag, the body without its forward banner, and an attachment section exactly when the message had attachment parts |
| Mail.SavedFromListed | app/main.py:93-109 | given a whitelist built from some items, mail from `Name <addr>` is saved exactly when `addr` is non-empty and equals one of the items ignoring case |
| Mail.SavedWhenListed | app/main.py:93-109 | with settings from the environment, mail from `Name <addr>` is saved exactly when `addr` is listed in `WHITELIST_EMAILS` in any letter case |

## Left out

- I/O is not modelled. Directory creation, file writes that raise, logging, the IMAP
  client, the `\Seen` flag, FastAPI, uvicorn and the Telegram bot and notifications are
  all outside the model. The note builder always returns a result.
- `html2text` is a parameter that may fail. The two `datetime.now` readings and the
  `uuid4()` values are parameters too. The `timezone` argument of `Storage` is not
  stored, because the clock readings are taken as already being in that zone.
- MIME parsing and charset decoding are not modelled. A message comes already split into
  its walk of parts, and each part carries the text its payload decodes to.
- `Storage._unique_filename` is never called, so it is not modelled.
- The Telegram album coordinator and the handler code of `main.py` are not modelled.
  They reach `save_markdown_message` through the same builder.
- `str()` of non-string `extra_meta` values is not modelled: the two keys read are
  optional strings.
- `sender` is accepted by `save_markdown_message` and never used. The model carries it
  but nothing depends on it.
- Text.LowerStr: `str.lower` is modelled for ASCII and basic Cyrillic capitals only.
  Other cased letters are left as they are.
- Config.ParseIntShow: `int()` is modelled for ASCII digits, single `_` separators, a
  leading sign and the white space `int()` skips around the literal. Other Unicode
  decimal digits, which CPython accepts, are not modelled. The digit limit is the
  interpreter's default of 4300; a limit set through `PYTHONINTMAXSTRDIGITS` or
  `-X int_max_str_digits` is not modelled. `str(n)` is stated only within that limit,
  because `str()` raises beyond it.
- Config.DefaultNumbers: the numeric defaults are read directly as numbers. This lemma
  proves that this equals `int()` of the default text.
- Clock.DateString: `%Y` is rendered without padding for years below 1000, as glibc does.
  The length claims hold only for four-digit years.
- Names.DropHtmlWords: the contract states only that the result is no longer than the
  input and that text without ASCII letters is unchanged. Removing each listed word is
  not stated.
- Names.DropHtmlWords: the `(?i)` matching of `re` also pairs some non-ASCII letters with
  ASCII ones: `ſ` with `s`, the Kelvin sign with `k`, and `ı` and `İ` with `i`. This
  holds both in `[A-Za-z]` and in the listed words (storage.py:42). The model matches
  ASCII letters case-insensitively only, so `"ſpan"` is kept, though Python removes it.
- Forward.MarkerSpec: the same `(?i)` pairs, and the Cyrillic variant letters `re` folds
  together (such as `ᲂ` with `о`), are not matched in the marker phrases
  (storage.py:53). The model compares after `Text.LowerStr`.
- Names.CleanPreview: the contract states only the white-space normal form and the
  length bound, not which characters survive.
- Note.TelegramTitle: the contract states only that the title is a good name part. The
  choice among candidates is in Note.TelegramTitlePriority.
- Mail.IsEmailWhitelisted: the contract states only the empty-sender case. Membership is
  in Mail.WhitelistIgnoresCase.

=== FILE: clock.dfy ===
/** The two clock readings of the storage layer rendered as text: the note timestamp
    `dt.strftime("%Y-%m-%d %H-%M-%S") + f".{dt.microsecond // 1000:03d}"` and the date
    `strftime("%Y-%m-%d")`. The clock itself is not modelled: callers pass the local
    date and time of the configured time zone. */
module Clock {

  import opened Text

  /** A `datetime` reduced to its fields. */
  datatype DateTime = DateTime(year: nat, month: nat, day: nat, hour: nat, minute: nat, second: nat, microsecond: nat)
  {
    /** The ranges `datetime` accepts. */
    predicate Valid() {
      && 1 <= year <= 9999
      && 1 <= month <= 12
      && 1 <= day <= DaysInMonth(year, month)
      && hour < 24 && minute < 60 && second < 60
      && microsecond < 1000000
    }

    /** The millisecond the timestamp shows. */
    function Millis(): nat {
      microsecond / 1000
    }
  }

  predicate IsLeapYear(y: nat) {
    y % 4 == 0 && (y % 100 != 0 || y % 400 == 0)
  }

  function DaysInMonth(y: nat, m: nat): nat {
    if m == 2 then (if IsLeapYear(y) then 29 else 28)
    else if m == 4 || m == 6 || m == 9 || m == 11 then 30
    else 31
  }

  /** A two-digit field (`%m`, `%d`, `%H`, `%M`, `%S`). */
  function Pad2(n: nat): (r: string)
    requires n < 100
    ensures |r| == 2 && AllDigits(r) && DigitsValue(r) == n
  {
    PadZero(n, 2)
  }

  /** `strftime("%Y-%m-%d")`. `%Y` is the year without padding, as the C library
      prints it; years from 1000 on have four digits. */
  function DateString(dt: DateTime): (r: string)
    requires dt.Valid()
    ensures dt.year >= 1000 ==> |r| == 10
    ensures AllOf(r, IsStampChar)
  {
    YearWidth(dt);
    Dec(dt.year) + "-" + Pad2(dt.month) + "-" + Pad2(dt.day)
  }

  lemma {:induction false} YearWidth(dt: DateTime)
    requires dt.Valid()
    ensures dt.year >= 1000 ==> |Dec(dt.year)| == 4
  {
    if dt.year >= 1000 {
      assert Pow10(3) == 1000 && Pow10(4) == 10000;
      DecLength(dt.year, 4);
    }
  }

  /** `strftime("%H-%M-%S")` followed by the milliseconds with three digits. */
  function TimeString(dt: DateTime): (r: string)
    requires dt.Valid()
    ensures |r| == 12
    ensures AllOf(r, IsStampChar)
  {
    Pad2(dt.hour) + "-" + Pad2(dt.minute) + "-" + Pad2(dt.second) + "." + PadZero(dt.Millis(), 3)
  }

  /** The characters a timestamp is made of. */
  predicate IsStampChar(c: char) {
    IsDigit(c) || c == '-' || c == ' ' || c == '.'
  }

  /** The note timestamp: the date, a space and the time to the millisecond. It is made
      of digits, `-`, one space and `.` only. */
  function Timestamp(dt: DateTime): (r: string)
    requires dt.Valid()
    ensures dt.year >= 1000 ==> |r| == 23
    ensures |DateString(dt)| < |r| && r[..|DateString(dt)|] == DateString(dt)
    ensures AllOf(r, IsStampChar)
  {
    var d := DateString(dt);
    var r := d + " " + TimeString(dt);
    assert r[..|d|] == d;
    StampChars(d, TimeString(dt));
    r
  }

  lemma {:induction false} StampChars(d: string, t: string)
    requires AllOf(d, IsStampChar) && AllOf(t, IsStampChar)
    ensures AllOf(d + " " + t, IsStampChar)
  {
    AllOfConcat(d, " ", IsStampChar);
    AllOfConcat(d + " ", t, IsStampChar);
  }

  /** The digits of a field and the character after it. */
  lemma {:induction false} FieldAt(s: string, k: nat, w: nat, field: string, sep: char, rest: string)
    requires k <= |s| && s[k..] == field + [sep] + rest
    requires |field| == w
    ensures k + w < |s|
    ensures s[k..k + w] == field && s[k + w] == sep && s[k + w + 1..] == rest
  {
    assert s[k..][..w] == field;
    assert s[k..][w] == sep;
    assert s[k..][w + 1..] == rest;
  }

  /** The date can be read back: the year from the first four characters, the month
      and the day from the two-digit fields after each `-`. */
  lemma {:induction false} DateFields(dt: DateTime)
    requires dt.Valid() && dt.year >= 1000
    ensures var d := DateString(dt);
            && AllDigits(d[0..4]) && DigitsValue(d[0..4]) == dt.year
            && d[4] == '-' && d[7] == '-'
            && AllDigits(d[5..7]) && DigitsValue(d[5..7]) == dt.month
            && AllDigits(d[8..10]) && DigitsValue(d[8..10]) == dt.day
  {
    var d := DateString(dt);
    var y := Dec(dt.year);
    YearWidth(dt);
    DecRoundTrip(dt.year);
    assert d[0..] == y + ['-'] + (Pad2(dt.month) + "-" + Pad2(dt.day));
    FieldAt(d, 0, 4, y, '-', Pad2(dt.month) + "-" + Pad2(dt.day));
    FieldAt(d, 5, 2, Pad2(dt.month), '-', Pad2(dt.day));
    assert d[8..10] == Pad2(dt.day);
  }

  /** The time can be read back the same way, to the millisecond. */
  lemma {:induction false} TimeFields(dt: DateTime)
    requires dt.Valid()
    ensures var t := TimeString(dt);
            && t[2] == '-' && t[5] == '-' && t[8] == '.'
            && AllDigits(t[0..2]) && DigitsValue(t[0..2]) == dt.hour
            && AllDigits(t[3..5]) && DigitsValue(t[3..5]) == dt.minute
            && AllDigits(t[6..8]) && DigitsValue(t[6..8]) == dt.second
            && AllDigits(t[9..12]) && DigitsValue(t[9..12]) == dt.Millis()
  {
    var t := TimeString(dt);
    var ms := PadZero(dt.Millis(), 3);
    var tail := Pad2(dt.second) + "." + ms;
    assert t[0..] == Pad2(dt.hour) + ['-'] + (Pad2(dt.minute) + "-" + tail);
    FieldAt(t, 0, 2, Pad2(dt.hour), '-', Pad2(dt.minute) + "-" + tail);
    FieldAt(t, 3, 2, Pad2(dt.minute), '-', tail);
    FieldAt(t, 6, 2, Pad2(dt.second), '.', ms);
    assert t[9..12] == ms;
  }

  /** Two readings give the same timestamp exactly when they agree on every field down
      to the millisecond: readings within one millisecond cannot be told apart. */
  lemma {:induction false} TimestampInjective(a: DateTime, b: DateTime)
    requires a.Valid() && b.Valid() && a.year >= 1000 && b.year >= 1000
    ensures Timestamp(a) == Timestamp(b) <==>
              (a.year, a.month, a.day, a.hour, a.minute, a.second, a.Millis()) ==
              (b.year, b.month, b.day, b.hour, b.minute, b.second, b.Millis())
  {
    var ta, tb := Timestamp(a), Timestamp(b);
    if ta == tb {
      assert DateString(a) == ta[..10] == tb[..10] == DateString(b);
      assert TimeString(a) == ta[11..] == tb[11..] == TimeString(b);
      DateFields(a);
      DateFields(b);
      TimeFields(a);
      TimeFields(b);
    }
  }
}

=== FILE: config.dfy ===
/** `app/config.py`: the helpers that read list and flag variables, Python's `int()` on
    a string, and `load_settings`, which turns the process environment into `Settings`.
    The environment is passed in as a map from variable names to values. */
module Config {

  import opened Wrappers
  import opened Text

  type Env = map<string, string>

  /** `os.getenv(key)`. */
  function GetEnv(env: Env, key: string): (r: Option<string>)
    ensures r.Some? <==> key in env
    ensures key in env ==> r == Some(env[key])
  {
    if key in env then Some(env[key]) else None
  }

  /** `os.getenv(key, default)`. */
  function GetEnvOr(env: Env, key: string, default: string): string {
    GetEnv(env, key).GetOr(default)
  }

  // ---------------------------------------------------------------- _split_list

  /** `_split_list`: a comma-separated value becomes its items, each stripped of
      surrounding white space, blank items dropped; `None` and "" give no items. */
  function SplitList(value: Option<string>): (r: seq<string>)
    ensures forall i :: 0 <= i < |r| ==> CleanItem(r[i])
    ensures !Truthy(value) ==> r == []
  {
    if !Truthy(value) then []
    else
      SplitPieces(value.value, ',');
      StripItems(Split(value.value, ','))
  }

  /** What a list item can look like once read: not blank, no comma, no white space at
      either end. */
  predicate CleanItem(x: string) {
    x != "" && ',' !in x && Stripped(x)
  }

  /** Each piece stripped, the blank ones dropped, in order. */
  function StripItems(pieces: seq<string>): (r: seq<string>)
    requires forall i :: 0 <= i < |pieces| ==> ',' !in pieces[i]
    ensures |r| <= |pieces|
    ensures forall i :: 0 <= i < |r| ==> CleanItem(r[i])
    decreases |pieces|
  {
    if |pieces| == 0 then []
    else
      var s := Strip(pieces[0]);
      StrippedStrip(pieces[0]);
      StripWithout(pieces[0], ',');
      (if s != "" then [s] else []) + StripItems(pieces[1..])
  }

  /** Reading a comma-joined list of comma-free pieces gives the pieces stripped, with
      the blank ones dropped: white space around the commas does not matter. */
  lemma {:induction false} SplitListJoin(pieces: seq<string>)
    requires |pieces| >= 1
    requires forall i :: 0 <= i < |pieces| ==> ',' !in pieces[i]
    ensures SplitList(Some(Join(pieces, ","))) == StripItems(pieces)
  {
    if |pieces| == 1 && pieces[0] == "" {
      StrippedFixed("");
      assert StripItems(pieces) == [] + StripItems(pieces[1..]);
    } else {
      if |pieces| >= 2 {
        JoinCons(pieces[0], pieces[1..], ",");
        assert pieces == [pieces[0]] + pieces[1..];
      }
      SplitJoin(pieces, ',');
    }
  }

  /** Clean items pass through stripping and blank-dropping unchanged. */
  lemma {:induction false} StripItemsClean(items: seq<string>)
    requires forall i :: 0 <= i < |items| ==> CleanItem(items[i])
    ensures forall i :: 0 <= i < |items| ==> ',' !in items[i]
    ensures StripItems(items) == items
    decreases |items|
  {
    if |items| > 0 {
      StrippedFixed(items[0]);
      StripItemsClean(items[1..]);
      HeadTail(items);
    }
  }

  /** Writing clean items with commas and reading them back gives the items. */
  lemma {:induction false} SplitListRoundTrip(items: seq<string>)
    requires forall i :: 0 <= i < |items| ==> CleanItem(items[i])
    ensures SplitList(Some(Join(items, ","))) == items
  {
    if |items| == 0 {
      assert Join(items, ",") == "";
    } else {
      StripItemsClean(items);
      SplitListJoin(items);
    }
  }

  // ---------------------------------------------------------------- _to_bool

  /** The words that mean "on", compared after strip and lower-case. */
  const TrueWords: set<string> := {"1", "true", "yes", "on"}

  predicate IsOnWord(t: string) {
    LowerStr(t) in TrueWords
  }

  /** `_to_bool`: an unset variable gives the default; a set one is on exactly when it
      reads as one of `TrueWords`, ignoring case and surrounding white space. */
  function ToBool(value: Option<string>, default: bool): (r: bool)
    ensures value.None? ==> r == default
  {
    match value
    case None => default
    case Some(v) => IsOnWord(Strip(v))
  }

  /** A set but blank value is "off", even when the default is "on". */
  lemma {:induction false} ToBoolBlank(v: string, default: bool)
    requires AllOf(v, IsSpace)
    ensures !ToBool(Some(v), default)
  {
    StripProps(v);
    assert LowerStr("") == "";
  }

  /** Once the variable is set the default plays no part, and two values that differ
      only in letter case read the same. */
  lemma {:induction false} ToBoolCaseInsensitive(a: string, b: string, d1: bool, d2: bool)
    requires LowerStr(a) == LowerStr(b)
    ensures ToBool(Some(a), d1) == ToBool(Some(b), d2)
  {
    StripLower(a);
    StripLower(b);
  }

  /** White space around the value is ignored. */
  lemma {:induction false} ToBoolPadded(left: string, v: string, right: string, d: bool)
    requires AllOf(left, IsSpace) && AllOf(right, IsSpace)
    ensures ToBool(Some(left + v + right), d) == ToBool(Some(v), d)
  {
    StripPadded(left, v, right);
  }

  /** `" on "` turns a flag on whatever the default. */
  lemma {:induction false} PaddedOnReadsTrue()
    ensures ToBool(Some(" on "), false)
  {
    assert " on " == " " + "on" + " ";
    ToBoolPadded(" ", "on", " ", false);
    ReadsAs("on", false);
  }

  /** A stripped value without capitals reads as itself. */
  lemma {:induction false} ReadsAs(w: string, d: bool)
    requires Stripped(w) && NoneOf(w, IsUpper)
    ensures ToBool(Some(w), d) <==> w in TrueWords
  {
    StrippedFixed(w);
    LowerFixed(w);
  }

  // ---------------------------------------------------------------- int()

  predicate IsSign(c: char) {
    c == '+' || c == '-'
  }

  /** The digits of an `int()` literal: groups of decimal digits joined by single
      underscores. */
  predicate DigitGroups(body: string) {
    forall g :: g in Split(body, '_') ==> g != "" && AllDigits(g)
  }

  /** `int(s)` on a string in base 10: the white space `int()` skips around the literal
      is ignored. */
  function ParseInt(s: string): Result<int> {
    ReadLiteral(IntStrip(s))
  }

  /** The white space `int()` skips around a literal. CPython first turns every non-ASCII
      white-space character into a space but leaves ASCII characters as they are, and
      then skips only space, tab, line feed, vertical tab, form feed and carriage return.
      The separators U+001C to U+001F, which `str.strip()` removes, are therefore not
      skipped. */
  predicate IsIntSpace(c: char) {
    IsSpace(c) && !('\U{1C}' <= c <= '\U{1F}')
  }

  /** The text `int()` reads as a literal: without the white space it skips at either
      end. */
  function IntStrip(s: string): string {
    TrimEnd(SkipRun(s, IsIntSpace), IsIntSpace)
  }

  /** The default limit on the number of digits `int()` converts from text and `str()`
      converts to text (`sys.int_info.default_max_str_digits`). */
  const MaxStrDigits: nat := 4300

  /** A stripped literal: one leading sign is allowed, and the digits may be grouped
      with single underscores. Anything else, and a literal of more than `MaxStrDigits`
      digits, is a `ValueError`; the failure carries a reason of its own rather than
      Python's message text. */
  function ReadLiteral(t: string): Result<int> {
    var body := Unsigned(t);
    if !DigitGroups(body) then
      Failure("not an int literal")
    else if |Digits(body)| > MaxStrDigits then
      Failure("too many digits")
    else
      var v: int := DigitsValue(Digits(body));
      Success(if |t| > 0 && t[0] == '-' then -v else v)
  }

  /** The literal without its sign. */
  function Unsigned(t: string): (r: string)
    ensures |r| <= |t| && r == t[|t| - |r|..]
    ensures |r| == |t| || (|r| == |t| - 1 && IsSign(t[0]))
  {
    if |t| > 0 && IsSign(t[0]) then t[1..] else t
  }

  /** The digits of the literal, underscores left out. */
  function Digits(body: string): (r: string)
    ensures AllDigits(r)
  {
    Filter(body, IsDigit)
  }

  /** Blank text is not a number. */
  lemma {:induction false} ParseIntBlank(s: string)
    requires AllOf(s, IsSpace)
    ensures ParseInt(s).Failure?
  {
    var t := IntStrip(s);
    IntStripAll(s, IsSpace);
    if t == "" {
      assert Split("", '_') == [""];
    } else {
      ParseIntRejects(s, 0);
    }
  }

  /** What `IntStrip` keeps is a piece of the text, so it keeps any property all of the
      text's characters have. */
  lemma {:induction false} IntStripAll(s: string, q: char -> bool)
    requires AllOf(s, q)
    ensures AllOf(IntStrip(s), q)
  {
    var u := SkipRun(s, IsIntSpace);
    var t := IntStrip(s);
    forall x | 0 <= x < |t| ensures q(t[x]) {
      assert t[x] == u[x] == s[|s| - |u| + x];
    }
  }

  /** Text without skipped white space at either end is read as it is. */
  lemma {:induction false} IntStripFixed(t: string)
    requires |t| > 0 ==> !IsIntSpace(t[0]) && !IsIntSpace(t[|t| - 1])
    ensures IntStrip(t) == t
  {
    assert SkipRun(t, IsIntSpace) == t;
  }

  /** `int()` does not skip the separator U+001F that `str.strip()` removes: digits
      after it strip to the digits but are not a number. */
  lemma {:induction false} SeparatorThenDigits(w: string)
    requires w != "" && AllDigits(w)
    ensures Strip(['\U{1F}'] + w) == w
    ensures ParseInt(['\U{1F}'] + w).Failure?
  {
    SeparatorStrip(w);
    SeparatorParse(w);
  }

  lemma {:induction false} SeparatorStrip(w: string)
    requires w != "" && AllDigits(w)
    ensures Strip(['\U{1F}'] + w) == w
  {
    var s := ['\U{1F}'] + w;
    ConcatTail(['\U{1F}'], w);
    assert IsSpace(s[0]);
    assert !IsSpace(w[0]) && !IsSpace(w[|w| - 1]) by {
      assert IsDigit(w[0]) && IsDigit(w[|w| - 1]);
    }
    assert SkipRun(w, IsSpace) == w;
    assert LStrip(s) == w;
  }


  lemma {:induction false} SeparatorParse(w: string)
    requires w != "" && AllDigits(w)
    ensures ParseInt(['\U{1F}'] + w).Failure?
  {
    var s := ['\U{1F}'] + w;
    assert s[0] == '\U{1F}' && s[|s| - 1] == w[|w| - 1];
    assert !IsIntSpace(s[0]) && !IsIntSpace(s[|s| - 1]);
    IntStripFixed(s);
    ParseIntRejects(s, 0);
  }


  /** `"\x1f8080"` strips to `"8080"` but is not a number. */
  lemma {:induction false} UnitSeparatorRejected()
    ensures Strip("\U{1F}8080") == "8080"
    ensures ParseInt("\U{1F}8080").Failure?
  {
    var s := "\U{1F}8080";
    var w := s[1..];
    assert w == "8080";
    assert AllDigits(w) by {
      forall x | 0 <= x < |w| ensures IsDigit(w[x]) {
        assert w[x] == s[x + 1];
      }
    }
    ConsTail(s);
    assert s[0] == '\U{1F}';
    SeparatorThenDigits(w);
  }




  /** `HTTP_PORT` set to `"\x1f8080"` makes loading fail. */
  lemma {:induction false} UnitSeparatorPortFails(env: Env)
    requires env == map["HTTP_PORT" := "\U{1F}8080"]
    ensures LoadSettings(env).Failure?
  {
    UnitSeparatorRejected();
    LoadSettingsFails(env);
  }

  /** A literal of more digits than the limit is rejected, however well formed. */
  lemma {:induction false} ParseIntTooManyDigits(k: nat)
    requires k > MaxStrDigits
    ensures ParseInt(seq(k, _ => '1')).Failure?
  {
    var t: string := seq(k, _ => '1');
    assert t[0] == '1' && t[k - 1] == '1';
    IntStripFixed(t);
    assert Unsigned(t) == t;
    assert AllDigits(t);
    OneGroup(t);
    assert Digits(t) == t by {
      assert AllOf(t, IsDigit);
    }
  }

  /** An integer whose decimal form has at most `MaxStrDigits` digits: what `str()` and
      `int()` convert. */
  predicate WithinDigitLimit(n: int) {
    |Dec(if n < 0 then -n else n)| <= MaxStrDigits
  }

  /** Every integer of magnitude below 10^4300 is within the limit. */
  lemma {:induction false} DigitLimitBound(n: int)
    requires (if n < 0 then -n else n) < Pow10(MaxStrDigits)
    ensures WithinDigitLimit(n)
  {
    DecWidth(if n < 0 then -n else n, MaxStrDigits);
  }

  /** `str(n)`: the decimal digits, after a minus sign when `n` is negative. `str()`
      raises for an `n` beyond `WithinDigitLimit`, so what is stated about `Show` is
      stated within it. */
  function Show(n: int): (r: string)
    ensures |r| >= 1
  {
    if n < 0 then "-" + Dec(-n) else Dec(n)
  }

  /** `int(str(n)) == n` for every `n` that `str()` converts. */
  lemma {:induction false} ParseIntShow(n: int)
    requires WithinDigitLimit(n)
    ensures ParseInt(Show(n)) == Success(n)
  {
    var t := Show(n);
    assert Stripped(t);
    IntStripFixed(t);
    ReadShow(n);
  }

  lemma {:induction false} ReadShow(n: int)
    requires WithinDigitLimit(n)
    ensures ReadLiteral(Show(n)) == Success(n)
  {
    var d: nat := if n < 0 then -n else n;
    var digits := Dec(d);
    var t := Show(n);
    assert Unsigned(t) == digits;
    OneGroup(digits);
    assert Digits(digits) == digits by {
      assert AllOf(digits, IsDigit);
    }
    DecRoundTrip(d);
    ReadLiteralOf(t, digits, d);
  }

  /** Digits without underscores are a single group. */
  lemma {:induction false} OneGroup(digits: string)
    requires digits != "" && AllDigits(digits)
    ensures DigitGroups(digits)
  {
    assert IndexOf(digits, '_') == |digits|;
    assert Split(digits, '_') == [digits];
  }

  /** One reading of a literal, step by step. */
  lemma {:induction false} ReadLiteralOf(t: string, body: string, v: int)
    requires Unsigned(t) == body && DigitGroups(body) && DigitsValue(Digits(body)) == v
    requires |Digits(body)| <= MaxStrDigits
    ensures ReadLiteral(t) == Success(if |t| > 0 && t[0] == '-' then -v else v)
  {
  }

  /** A literal with a character that is not a digit, an underscore or a leading sign
      does not parse. */
  lemma {:induction false} ParseIntRejects(s: string, i: nat)
    requires i < |IntStrip(s)|
    requires var c := IntStrip(s)[i]; !IsDigit(c) && c != '_' && !(i == 0 && IsSign(c))
    ensures ParseInt(s).Failure?
  {
    var t := IntStrip(s);
    var body := Unsigned(t);
    var k := |t| - |body|;
    Shifted(t, k, i);
    NotDigitGroups(body, i - k);
  }

  lemma {:induction false} Shifted(t: string, k: nat, i: nat)
    requires k <= i < |t|
    ensures t[k..][i - k] == t[i]
  {
  }

  lemma {:induction false} NotDigitGroups(body: string, i: nat)
    requires i < |body| && !IsDigit(body[i]) && body[i] != '_'
    ensures !DigitGroups(body)
  {
    var g, j := SplitCovers(body, '_', i);
    assert !IsDigit(g[j]);
  }

  // ---------------------------------------------------------------- load_settings

  datatype Settings = Settings(
    httpPort: int,
    storageDir: string,
    attachmentsSubdir: string,
    timezone: string,
    whitelistEmails: set<string>,
    whitelistTgUsernames: set<string>,
    whitelistTgIds: set<int>,
    telegramBotToken: Option<string>,
    telegramNotifyChatId: Option<int>,
    imapHost: Option<string>,
    imapPort: int,
    imapUser: Option<string>,
    imapPassword: Option<string>,
    imapSsl: bool,
    imapPollInterval: int)

  const DefaultTimezone := "Europe/Moscow"

  predicate IsPathSep(c: char) {
    c == '/' || c == '\\'
  }

  predicate IsAt(c: char) {
    c == '@'
  }

  /** The e-mail whitelist: the items lower-cased. */
  function Emails(items: seq<string>): set<string> {
    set e | e in items :: LowerStr(e)
  }

  /** The Telegram user-name whitelist: the items lower-cased, leading `@`s removed. */
  function Usernames(items: seq<string>): set<string> {
    set u | u in items :: SkipRun(LowerStr(u), IsAt)
  }

  /** The Telegram id whitelist: the items that parse as integers; the others are
      skipped. */
  function TgIds(items: seq<string>): set<int> {
    set x | x in items && ParseInt(x).Success? :: ParseInt(x).value
  }

  /** An id is whitelisted exactly when some item reads as it; an item `int()` rejects
      adds nothing and does not stop the others. */
  lemma {:induction false} TgIdsMembers(items: seq<string>, v: int)
    ensures v in TgIds(items) <==> exists x :: x in items && ParseInt(x) == Success(v)
  {
    if exists x :: x in items && ParseInt(x) == Success(v) {
      var x :| x in items && ParseInt(x) == Success(v);
      assert ParseInt(x).value == v;
    }
  }

  /** A listed id written the way `str()` writes integers is whitelisted. */
  lemma {:induction false} TgIdsShown(items: seq<string>, n: int)
    requires Show(n) in items && WithinDigitLimit(n)
    ensures n in TgIds(items)
  {
    ParseIntShow(n);
    TgIdsMembers(items, n);
  }

  /** The chat for notices: none when the variable is unset or blank, otherwise its
      value read by `int()`, whose failure is the failure of loading. */
  function NotifyChat(raw: Option<string>): (r: Result<Option<int>>)
    ensures raw.None? ==> r == Success(None)
    ensures raw.Some? && r.Success? && r.value.Some? ==> ParseInt(raw.value) == Success(r.value.value)
  {
    if Truthy(raw) && Strip(raw.value) != "" then
      match ParseInt(raw.value)
      case Success(v) => Success(Some(v))
      case Failure(e) => Failure(e)
    else Success(None)
  }

  /** Only a set value with something other than white space is read. */
  lemma {:induction false} NotifyChatBlank(raw: Option<string>)
    ensures NotifyChat(raw) == Success(None) <==> !Truthy(raw) || AllOf(raw.value, IsSpace)
  {
    if raw.Some? {
      StripProps(raw.value);
    }
  }

  /** The four numbers `load_settings` reads with `int()`, in the order it reads them. */
  datatype Numbers = Numbers(httpPort: int, notifyChat: Option<int>, imapPort: int, pollInterval: int)

  /** `int(os.getenv(key, default))` with a numeric default: the default itself when
      the variable is unset (`DefaultNumbers` shows that `int()` reads the default text
      back as that number). */
  function ReadNumber(raw: Option<string>, default: int): Result<int> {
    match raw
    case None => Success(default)
    case Some(v) => ParseInt(v)
  }

  /** The numbers, or the first failure among them. */
  function ReadNumbers(env: Env): Result<Numbers> {
    NumbersFrom(GetEnv(env, "HTTP_PORT"), GetEnv(env, "TELEGRAM_NOTIFY_CHAT_ID"),
                GetEnv(env, "IMAP_PORT"), GetEnv(env, "IMAP_POLL_INTERVAL"))
  }

  function NumbersFrom(rawHttpPort: Option<string>, rawNotify: Option<string>,
                       rawImapPort: Option<string>, rawPoll: Option<string>): Result<Numbers> {
    var httpPort := ReadNumber(rawHttpPort, 8080);
    var notify := NotifyChat(rawNotify);
    var imapPort := ReadNumber(rawImapPort, 993);
    var poll := ReadNumber(rawPoll, 60);
    if httpPort.Failure? then Failure(httpPort.reason)
    else if notify.Failure? then Failure(notify.reason)
    else if imapPort.Failure? then Failure(imapPort.reason)
    else if poll.Failure? then Failure(poll.reason)
    else Success(Numbers(httpPort.value, notify.value, imapPort.value, poll.value))
  }

  /** `load_settings`: a failure of `int()` is the failure of loading; otherwise the
      settings with every field normalised. */
  function LoadSettings(env: Env): Result<Settings> {
    match ReadNumbers(env)
    case Failure(e) => Failure(e)
    case Success(n) => Success(Assemble(env, n))
  }

  /** The time zone: stripped, and the default when nothing is left. */
  function Timezone(raw: string): string {
    var tz := Strip(raw);
    if tz == "" then DefaultTimezone else tz
  }

  function Assemble(env: Env, n: Numbers): Settings {
    Settings(
      httpPort := n.httpPort,
      storageDir := TrimEnd(GetEnvOr(env, "STORAGE_DIR", "/folder"), IsPathSep),
      attachmentsSubdir := Strip(GetEnvOr(env, "ATTACHMENTS_SUBDIR", "attachments")),
      timezone := Timezone(GetEnvOr(env, "TIMEZONE", DefaultTimezone)),
      whitelistEmails := Emails(SplitList(GetEnv(env, "WHITELIST_EMAILS"))),
      whitelistTgUsernames := Usernames(SplitList(GetEnv(env, "WHITELIST_TG_USERNAMES"))),
      whitelistTgIds := TgIds(SplitList(GetEnv(env, "WHITELIST_TG_IDS"))),
      telegramBotToken := GetEnv(env, "TELEGRAM_BOT_TOKEN"),
      telegramNotifyChatId := n.notifyChat,
      imapHost := GetEnv(env, "IMAP_HOST"),
      imapPort := n.imapPort,
      imapUser := GetEnv(env, "IMAP_USER"),
      imapPassword := GetEnv(env, "IMAP_PASSWORD"),
      imapSsl := ToBool(Some(GetEnvOr(env, "IMAP_SSL", "true")), true),
      imapPollInterval := n.pollInterval)
  }

  /** Loading fails exactly when one of the four numeric variables is set to something
      `int()` rejects; no other variable, the id whitelist included, can make it fail. */
  lemma {:induction false} LoadSettingsFails(env: Env)
    ensures LoadSettings(env).Failure? <==>
              || ("HTTP_PORT" in env && ParseInt(env["HTTP_PORT"]).Failure?)
              || ("TELEGRAM_NOTIFY_CHAT_ID" in env && !AllOf(env["TELEGRAM_NOTIFY_CHAT_ID"], IsSpace)
                  && ParseInt(env["TELEGRAM_NOTIFY_CHAT_ID"]).Failure?)
              || ("IMAP_PORT" in env && ParseInt(env["IMAP_PORT"]).Failure?)
              || ("IMAP_POLL_INTERVAL" in env && ParseInt(env["IMAP_POLL_INTERVAL"]).Failure?)
  {
    NotifyChatBlank(GetEnv(env, "TELEGRAM_NOTIFY_CHAT_ID"));
  }

  /** Reading an unset number gives what `int()` gives on the default text. */
  lemma {:induction false} DefaultNumbers(env: Env)
    ensures ReadNumber(GetEnv(env, "HTTP_PORT"), 8080) == ParseInt(GetEnvOr(env, "HTTP_PORT", "8080"))
    ensures ReadNumber(GetEnv(env, "IMAP_PORT"), 993) == ParseInt(GetEnvOr(env, "IMAP_PORT", "993"))
    ensures ReadNumber(GetEnv(env, "IMAP_POLL_INTERVAL"), 60) == ParseInt(GetEnvOr(env, "IMAP_POLL_INTERVAL", "60"))
  {
    DecDefaults();
    DefaultNumber(env, "HTTP_PORT", 8080);
    DefaultNumber(env, "IMAP_PORT", 993);
    DefaultNumber(env, "IMAP_POLL_INTERVAL", 60);
  }

  lemma {:induction false} DefaultNumber(env: Env, key: string, n: int)
    requires WithinDigitLimit(n)
    ensures ReadNumber(GetEnv(env, key), n) == ParseInt(GetEnvOr(env, key, Show(n)))
  {
    ParseIntShow(n);
  }

  lemma {:induction false} DecDefaults()
    ensures Dec(8080) == "8080" && Dec(993) == "993" && Dec(60) == "60"
  {
    assert Dec(8) == "8" && Dec(80) == "80" && Dec(808) == "808";
    assert Dec(9) == "9" && Dec(99) == "99";
    assert Dec(6) == "6";
  }

  /** In the empty environment every field takes its default. */
  lemma {:induction false} LoadDefaults(env: Env)
    requires env == map[]
    ensures LoadSettings(env) == Success(Settings(
              8080, "/folder", "attachments", "Europe/Moscow", {}, {}, {},
              None, None, None, 993, None, None, true, 60))
  {
    var n := Numbers(8080, None, 993, 60);
    assert ReadNumbers(env) == Success(n);
    AssembleDefaults(env, n);
  }

  lemma {:induction false} AssembleDefaults(env: Env, n: Numbers)
    requires env == map[]
    ensures Assemble(env, n) == Settings(
              n.httpPort, "/folder", "attachments", "Europe/Moscow", {}, {}, {},
              None, n.notifyChat, None, n.imapPort, None, None, true, n.pollInterval)
  {
    assert forall k :: GetEnv(env, k) == None;
    EmptyWhitelists();
    DefaultStorageDir();
    DefaultSubdir();
    DefaultZone();
    ReadsAs("true", true);
  }

  lemma {:induction false} EmptyWhitelists()
    ensures Emails(SplitList(None)) == {} && Usernames(SplitList(None)) == {} && TgIds(SplitList(None)) == {}
  {
  }

  lemma {:induction false} DefaultStorageDir()
    ensures TrimEnd("/folder", IsPathSep) == "/folder"
  {
  }

  lemma {:induction false} DefaultSubdir()
    ensures Strip("attachments") == "attachments"
  {
    StrippedFixed("attachments");
  }

  lemma {:induction false} DefaultZone()
    ensures Timezone(DefaultTimezone) == DefaultTimezone
  {
    StrippedFixed(DefaultTimezone);
  }

  /** Changing the id whitelist changes that field only. */
  lemma {:induction false} TgIdsOnly(env: Env, x: string)
    ensures var r := LoadSettings(env);
            var r' := LoadSettings(env["WHITELIST_TG_IDS" := x]);
            && r'.Success? == r.Success?
            && (r.Success? ==> r'.value == r.value.(whitelistTgIds := TgIds(SplitList(Some(x)))))
  {
    NumbersIgnoreTgIds(env, x);
    if ReadNumbers(env).Success? {
      AssembleTgIds(env, x, ReadNumbers(env).value);
    }
  }

  lemma {:induction false} NumbersIgnoreTgIds(env: Env, x: string)
    ensures ReadNumbers(env["WHITELIST_TG_IDS" := x]) == ReadNumbers(env)
  {
    OtherKey(env, x, "HTTP_PORT");
    OtherKey(env, x, "TELEGRAM_NOTIFY_CHAT_ID");
    OtherKey(env, x, "IMAP_PORT");
    OtherKey(env, x, "IMAP_POLL_INTERVAL");
  }

  lemma {:induction false} AssembleTgIds(env: Env, x: string, n: Numbers)
    ensures Assemble(env["WHITELIST_TG_IDS" := x], n) == Assemble(env, n).(whitelistTgIds := TgIds(SplitList(Some(x))))
  {
    OtherKey(env, x, "STORAGE_DIR");
    OtherKey(env, x, "ATTACHMENTS_SUBDIR");
    OtherKey(env, x, "TIMEZONE");
    OtherKey(env, x, "WHITELIST_EMAILS");
    OtherKey(env, x, "WHITELIST_TG_USERNAMES");
    OtherKey(env, x, "TELEGRAM_BOT_TOKEN");
    OtherKey(env, x, "IMAP_HOST");
    OtherKey(env, x, "IMAP_USER");
    OtherKey(env, x, "IMAP_PASSWORD");
    OtherKey(env, x, "IMAP_SSL");
  }

  lemma {:induction false} OtherKey(env: Env, x: string, k: string)
    requires k != "WHITELIST_TG_IDS"
    ensures GetEnv(env["WHITELIST_TG_IDS" := x], k) == GetEnv(env, k)
  {
  }

  /** What loading guarantees about the normalised fields: e-mails are lower-case clean
      items, user names are lower-case without a leading `@`, the time zone is never
      blank, the storage directory has no trailing separator and the attachments
      sub-directory no surrounding white space. */
  lemma {:induction false} SettingsNormalised(env: Env)
    requires LoadSettings(env).Success?
    ensures Normalised(LoadSettings(env).value)
  {
    AssembleNormalised(env, ReadNumbers(env).value);
  }

  /** What `load_settings` guarantees about the shape of every text field it derives:
      e-mails are clean lower-case items, user names are lower-case without a leading `@`,
      the time zone is set and trimmed, the storage directory has no trailing separator
      and the attachments directory name is trimmed. */
  predicate Normalised(st: Settings) {
    && (forall e :: e in st.whitelistEmails ==> CleanItem(e) && LowerStr(e) == e)
    && (forall u :: u in st.whitelistTgUsernames ==> LowerStr(u) == u && (|u| > 0 ==> u[0] != '@'))
    && st.timezone != "" && Stripped(st.timezone)
    && (|st.storageDir| > 0 ==> !IsPathSep(st.storageDir[|st.storageDir| - 1]))
    && Stripped(st.attachmentsSubdir)
  }

  lemma {:induction false} AssembleNormalised(env: Env, n: Numbers)
    ensures Normalised(Assemble(env, n))
  {
    var st := Assemble(env, n);
    EmailsClean(SplitList(GetEnv(env, "WHITELIST_EMAILS")));
    assert forall e :: e in st.whitelistEmails ==> CleanItem(e) && LowerStr(e) == e;
    UsernamesLower(SplitList(GetEnv(env, "WHITELIST_TG_USERNAMES")));
    assert forall u :: u in st.whitelistTgUsernames ==> LowerStr(u) == u && (|u| > 0 ==> u[0] != '@');
    TimezoneSet(GetEnvOr(env, "TIMEZONE", DefaultTimezone));
    StrippedStrip(GetEnvOr(env, "ATTACHMENTS_SUBDIR", "attachments"));
  }

  /** The e-mail whitelist is the lower-cased items of `WHITELIST_EMAILS`. */
  lemma {:induction false} LoadedEmails(env: Env)
    requires LoadSettings(env).Success?
    ensures LoadSettings(env).value.whitelistEmails == Emails(SplitList(GetEnv(env, "WHITELIST_EMAILS")))
  {
  }

  /** Every whitelisted e-mail is a lower-case clean item. */
  lemma {:induction false} EmailsClean(items: seq<string>)
    requires forall i :: 0 <= i < |items| ==> CleanItem(items[i])
    ensures forall e :: e in Emails(items) ==> CleanItem(e) && LowerStr(e) == e
  {
    forall e | e in Emails(items) ensures CleanItem(e) && LowerStr(e) == e {
      var x :| x in items && e == LowerStr(x);
      LowerClean(x);
      LowerStrIdempotent(x);
    }
  }

  /** Every whitelisted user name is lower-case and does not start with `@`. */
  lemma {:induction false} UsernamesLower(items: seq<string>)
    ensures forall u :: u in Usernames(items) ==> LowerStr(u) == u && (|u| > 0 ==> u[0] != '@')
  {
    forall u | u in Usernames(items) ensures LowerStr(u) == u && (|u| > 0 ==> u[0] != '@') {
      var x :| x in items && u == SkipRun(LowerStr(x), IsAt);
      UsernameLower(x);
    }
  }

  lemma {:induction false} UsernameLower(x: string)
    ensures var u := SkipRun(LowerStr(x), IsAt);
            LowerStr(u) == u && (|u| > 0 ==> u[0] != '@')
  {
    LowerStrIdempotent(x);
    LowerSuffix(LowerStr(x), SkipRun(LowerStr(x), IsAt));
  }

  /** The time zone is never blank and has no white space at either end. */
  lemma {:induction false} TimezoneSet(raw: string)
    ensures Timezone(raw) != "" && Stripped(Timezone(raw))
  {
    StripProps(raw);
    assert Stripped(DefaultTimezone);
  }

  /** Lower-casing a clean item leaves it clean. */
  lemma {:induction false} LowerClean(x: string)
    requires CleanItem(x)
    ensures CleanItem(LowerStr(x))
  {
    var l := LowerStr(x);
    forall i | 0 <= i < |l| ensures l[i] != ',' {
      assert x[i] != ',';
    }
  }

  /** A piece cut from the end of a lower-case string is lower-case. */
  lemma {:induction false} LowerSuffix(l: string, u: string)
    requires LowerStr(l) == l && |u| <= |l| && u == l[|l| - |u|..]
    ensures LowerStr(u) == u
  {
    forall i | 0 <= i < |u| ensures Lower(u[i]) == u[i] {
      assert u[i] == l[|l| - |u| + i];
      assert LowerStr(l)[|l| - |u| + i] == Lower(l[|l| - |u| + i]);
    }
  }

  /** A user name of `@` alone becomes the empty name in the whitelist. */
  lemma {:induction false} BareAtIsEmptyName(items: seq<string>)
    requires "@" in items
    ensures "" in Usernames(items)
  {
    assert LowerStr("@") == "@";
    assert SkipRun("@", IsAt) == "";
  }
}

=== FILE: forward.dfy ===
/** `_strip_forward_headers`: removing the header block of a forwarded e-mail (the
    marker line of Yandex or Gmail, the header lines after it and the blank lines that
    follow) and keeping the forwarded text. Lines are those of Python's
    `str.splitlines()`. */
module Forward {

  import opened Text

  /** The line boundaries of `str.splitlines()`. */
  predicate IsLineBreak(c: char) {
    || c == '\n' || c == '\r' || c == '\U{0B}' || c == '\U{0C}'
    || ('\U{1C}' <= c <= '\U{1E}')
    || c == '\U{85}' || c == '\U{2028}' || c == '\U{2029}'
  }

  /** Index of the first line boundary in `s`, or `|s|` when there is none. */
  function NextBreak(s: string): (k: nat)
    ensures k <= |s|
    ensures forall j :: 0 <= j < k ==> !IsLineBreak(s[j])
    ensures k < |s| ==> IsLineBreak(s[k])
    decreases |s|
  {
    if |s| == 0 then 0 else if IsLineBreak(s[0]) then 0 else 1 + NextBreak(s[1..])
  }

  /** Length of the boundary at `k`: `\r\n` is one boundary of two characters. */
  function BreakWidth(s: string, k: nat): (w: nat)
    requires k < |s|
    ensures 1 <= w <= |s| - k
  {
    if s[k] == '\r' && k + 1 < |s| && s[k + 1] == '\n' then 2 else 1
  }

  /** `str.splitlines()`: the lines without their boundaries; a final boundary opens no
      empty last line, and the empty text has no lines. */
  function SplitLines(s: string): (r: seq<string>)
    ensures forall i :: 0 <= i < |r| ==> NoneOf(r[i], IsLineBreak)
    ensures r == [] <==> s == []
    decreases |s|
  {
    if |s| == 0 then []
    else
      var k := NextBreak(s);
      if k == |s| then [s]
      else [s[..k]] + SplitLines(s[k + BreakWidth(s, k)..])
  }

  /** Joining the lines of a text whose only boundary is `\n`, and which does not end
      with one, gives the text back. */
  lemma {:induction false} JoinSplitLines(s: string)
    requires forall i :: 0 <= i < |s| ==> IsLineBreak(s[i]) ==> s[i] == '\n'
    requires |s| > 0 ==> s[|s| - 1] != '\n'
    ensures Join(SplitLines(s), "\n") == s
    decreases |s|
  {
    if |s| > 0 {
      var k := NextBreak(s);
      if k < |s| {
        var rest := s[k + 1..];
        assert BreakWidth(s, k) == 1;
        assert |rest| > 0;
        JoinSplitLines(rest);
        var lines := SplitLines(s);
        assert lines == [s[..k]] + SplitLines(rest);
        assert lines[1..] == SplitLines(rest);
        assert Join(lines, "\n") == s[..k] + "\n" + rest;
        assert s == s[..k] + "\n" + rest;
      }
    }
  }

  /** Splitting lines joined by `\n` gives them back, when none holds a boundary and the
      last is not empty. */
  lemma {:induction false} SplitLinesJoin(parts: seq<string>)
    requires |parts| >= 1 && parts[|parts| - 1] != ""
    requires forall i :: 0 <= i < |parts| ==> NoneOf(parts[i], IsLineBreak)
    ensures SplitLines(Join(parts, "\n")) == parts
    decreases |parts|
  {
    var s := Join(parts, "\n");
    var p0 := parts[0];
    if |parts| == 1 {
      assert s == p0;
      FirstBreak(s, |s|);
    } else {
      var rest := Join(parts[1..], "\n");
      assert s == p0 + "\n" + rest;
      FirstBreak(s, |p0|);
      assert s[..|p0|] == p0;
      assert BreakWidth(s, |p0|) == 1;
      assert s[|p0| + 1..] == rest;
      SplitLinesJoin(parts[1..]);
      assert rest != [] by {
        JoinNonEmpty(parts[1..]);
      }
    }
  }

  lemma {:induction false} FirstBreak(s: string, k: nat)
    requires k <= |s|
    requires NoneOf(s[..k], IsLineBreak)
    requires k < |s| ==> IsLineBreak(s[k])
    ensures NextBreak(s) == k
  {
    var n := NextBreak(s);
    forall i | 0 <= i < k ensures !IsLineBreak(s[i]) {
      assert s[..k][i] == s[i];
    }
    forall i | 0 <= i < n ensures !IsLineBreak(s[i]) {
      assert s[..n][i] == s[i];
    }
  }

  lemma {:induction false} JoinNonEmpty(parts: seq<string>)
    requires |parts| >= 1 && parts[|parts| - 1] != ""
    ensures Join(parts, "\n") != ""
    decreases |parts|
  {
    if |parts| > 1 {
      JoinNonEmpty(parts[1..]);
    }
  }

  /** The two marker phrases, matched ignoring case. */
  const ForwardedRu := "Пересылаемое сообщение"
  const ForwardedEn := "Forwarded message"

  /** The class `[-\s]` of the marker pattern. */
  predicate IsDashOrSpace(c: char) {
    c == '-' || IsSpace(c)
  }

  /** Equal ignoring case, with case folded by `Lower`. */
  predicate EqIgnoreCase(a: string, b: string) {
    LowerStr(a) == LowerStr(b)
  }

  /** Length of the leading run of `[-\s]`. */
  function DashRun(t: string): (k: nat)
    ensures k <= |t|
    ensures AllOf(t[..k], IsDashOrSpace)
    ensures k < |t| ==> !IsDashOrSpace(t[k])
  {
    var r := SkipRun(t, IsDashOrSpace);
    assert |r| > 0 ==> r[0] == t[|t| - |r|];
    |t| - |r|
  }

  /** After the leading run: the phrase, then at least two characters of `[-\s]` up to
      the end of the line. */
  predicate PhraseTail(u: string, phrase: string) {
    |u| >= |phrase| + 2 && EqIgnoreCase(u[..|phrase|], phrase) && AllOf(u[|phrase|..], IsDashOrSpace)
  }

  /** `marker_re.match(t)`, as the pattern must match: since neither phrase starts with
      a character of `[-\s]`, the leading `[-\s]{6,}` is the whole leading run. */
  predicate IsMarker(t: string) {
    var k := DashRun(t);
    k >= 6 && (PhraseTail(t[k..], ForwardedRu) || PhraseTail(t[k..], ForwardedEn))
  }

  /** The pattern read literally: some split of `t` into at least six characters of
      `[-\s]`, a phrase and a tail. */
  predicate MarkerAt(t: string, k: nat, phrase: string) {
    6 <= k <= |t| && AllOf(t[..k], IsDashOrSpace) && PhraseTail(t[k..], phrase)
  }

  ghost predicate MatchesMarker(t: string) {
    (exists k :: MarkerAt(t, k, ForwardedRu)) || (exists k :: MarkerAt(t, k, ForwardedEn))
  }

  /** The computed test agrees with the pattern read literally, in both directions. */
  lemma {:induction false} MarkerSpec(t: string)
    ensures IsMarker(t) <==> MatchesMarker(t)
  {
    var k := DashRun(t);
    if IsMarker(t) {
      if PhraseTail(t[k..], ForwardedRu) {
        assert MarkerAt(t, k, ForwardedRu);
      } else {
        assert MarkerAt(t, k, ForwardedEn);
      }
    }
    if exists j :: MarkerAt(t, j, ForwardedRu) {
      var j: nat :| MarkerAt(t, j, ForwardedRu);
      PhraseStart(t[j..], ForwardedRu);
      RunEnds(t, j);
    }
    if exists j :: MarkerAt(t, j, ForwardedEn) {
      var j: nat :| MarkerAt(t, j, ForwardedEn);
      PhraseStart(t[j..], ForwardedEn);
      RunEnds(t, j);
    }
  }

  /** Neither phrase starts with a character of `[-\s]`, in any case. */
  lemma {:induction false} PhraseStart(u: string, phrase: string)
    requires phrase == ForwardedRu || phrase == ForwardedEn
    requires PhraseTail(u, phrase)
    ensures !IsDashOrSpace(u[0])
  {
    var a := u[..|phrase|];
    assert LowerStr(a)[0] == Lower(u[0]);
    assert LowerStr(phrase)[0] == Lower(phrase[0]);
    DashOrSpaceLower(u[0]);
    assert Lower(phrase[0]) == 'п' || Lower(phrase[0]) == 'f';
  }

  lemma {:induction false} DashOrSpaceLower(c: char)
    ensures IsDashOrSpace(c) ==> Lower(c) == c
  {
  }

  /** A run of `[-\s]` followed by another character is the leading run. */
  lemma {:induction false} RunEnds(t: string, j: nat)
    requires j < |t| && AllOf(t[..j], IsDashOrSpace) && !IsDashOrSpace(t[j])
    ensures DashRun(t) == j
  {
    var k := DashRun(t);
    forall i | 0 <= i < j ensures IsDashOrSpace(t[i]) {
      assert t[..j][i] == t[i];
    }
    forall i | 0 <= i < k ensures IsDashOrSpace(t[i]) {
      assert t[..k][i] == t[i];
    }
  }

  /** `line.strip() == ""`. */
  predicate IsBlank(line: string) {
    Strip(line) == ""
  }

  /** `marker_re.match(line.strip())`. */
  predicate IsMarkerLine(line: string) {
    IsMarker(Strip(line))
  }

  /** `line.strip() != ""`. */
  predicate IsFilled(line: string) {
    !IsBlank(line)
  }

  /** Index of the first marker line, or the number of lines when there is none. */
  function FirstMarker(lines: seq<string>): (m: nat)
    ensures m <= |lines|
    ensures m < |lines| ==> IsMarkerLine(lines[m])
    ensures forall j :: 0 <= j < m ==> !IsMarkerLine(lines[j])
  {
    FirstFrom(lines, 0, IsMarkerLine)
  }

  /** Where the kept text begins, given the marker at `m`: after the marker, the header
      lines up to the first blank line, and the blank lines after them. */
  function BodyStart(lines: seq<string>, m: nat): (i: nat)
    requires m < |lines|
    ensures m < i <= |lines|
    ensures i < |lines| ==> !IsBlank(lines[i])
    ensures exists j :: m < j <= i && HeaderThenGap(lines, m, j, i) && (j < |lines| ==> IsBlank(lines[j]))
  {
    var j := FirstFrom(lines, m + 1, IsBlank);
    var i := FirstFrom(lines, j, IsFilled);
    assert HeaderThenGap(lines, m, j, i);
    i
  }

  /** Lines `m+1..j` are non-blank and lines `j..i` blank. */
  predicate HeaderThenGap(lines: seq<string>, m: nat, j: nat, i: nat)
    requires m < j <= i <= |lines|
  {
    && (forall x :: m < x < j ==> !IsBlank(lines[x]))
    && (forall x :: j <= x < i ==> IsBlank(lines[x]))
  }

  /** The header block is dropped whole: after the marker, header lines up to a blank
      line, and the blank line, the body follows. */
  lemma {:induction false} HeaderBlockDropped(marker: string, header: seq<string>, body: string)
    requires IsMarkerLine(marker) && NoneOf(marker, IsLineBreak)
    requires forall x :: 0 <= x < |header| ==> IsFilled(header[x]) && NoneOf(header[x], IsLineBreak)
    requires IsFilled(body) && NoneOf(body, IsLineBreak)
    ensures StripForwardHeaders(Join([marker] + header + [""] + [body], "\n")) == body
  {
    var lines := [marker] + header + [""] + [body];
    var h := |header|;
    BlockLines(marker, header, body, lines);
    SplitLinesJoin(lines);
    assert FirstMarker(lines) == 0 by {
      assert IsMarkerLine(lines[0]);
    }
    BodyStartSkipsHeader(lines, h);
    StripForwardHeadersCases(Join(lines, "\n"));
    assert lines[h + 2..] == [body];
  }

  /** The lines of a forwarded block: the marker, the header, a blank line, the body. */
  lemma {:induction false} BlockLines(marker: string, header: seq<string>, body: string, lines: seq<string>)
    requires NoneOf(marker, IsLineBreak)
    requires forall x :: 0 <= x < |header| ==> IsFilled(header[x]) && NoneOf(header[x], IsLineBreak)
    requires IsFilled(body) && NoneOf(body, IsLineBreak)
    requires lines == [marker] + header + [""] + [body]
    ensures |lines| == |header| + 3 && lines[0] == marker && lines[|header| + 2] == body
    ensures forall x :: 1 <= x <= |header| ==> IsFilled(lines[x])
    ensures IsBlank(lines[|header| + 1]) && IsFilled(lines[|header| + 2])
    ensures forall x :: 0 <= x < |lines| ==> NoneOf(lines[x], IsLineBreak)
    ensures lines[|lines| - 1] != ""
  {
    var h := |header|;
    Framed(marker, header, "", body, lines);
    StripProps("");
    forall x | 0 <= x < |lines| ensures NoneOf(lines[x], IsLineBreak) {
      if 1 <= x <= h {
        assert lines[x] == header[x - 1];
      }
    }
  }

  /** Where the pieces of `[a] + mid + [b] + [c]` sit. */
  lemma {:induction false} Framed<T>(a: T, mid: seq<T>, b: T, c: T, s: seq<T>)
    requires s == [a] + mid + [b] + [c]
    ensures |s| == |mid| + 3 && s[0] == a && s[|mid| + 1] == b && s[|mid| + 2] == c
    ensures forall x :: 1 <= x <= |mid| ==> s[x] == mid[x - 1]
  {
  }

  /** Past a run of filled lines and one blank line, the body starts at the next line. */
  lemma {:induction false} BodyStartSkipsHeader(lines: seq<string>, h: nat)
    requires |lines| == h + 3
    requires forall x :: 1 <= x <= h ==> IsFilled(lines[x])
    requires IsBlank(lines[h + 1]) && IsFilled(lines[h + 2])
    ensures BodyStart(lines, 0) == h + 2
  {
    var i := BodyStart(lines, 0);
    var j :| 0 < j <= i && HeaderThenGap(lines, 0, j, i) && (j < |lines| ==> IsBlank(lines[j]));
    assert j == h + 1;
  }

  /** `text.lstrip("\n")`. */
  function LStripNewlines(s: string): (r: string)
    ensures |r| <= |s| && r == s[|s| - |r|..]
    ensures |r| > 0 ==> r[0] != '\n'
  {
    SkipRun(s, c => c == '\n')
  }

  /** `_strip_forward_headers`. Without a marker line the text comes back unchanged;
      otherwise the result is the lines after the header block joined with `\n`. */
  function StripForwardHeaders(text: string): string {
    var lines := SplitLines(text);
    var m := FirstMarker(lines);
    if m == |lines| then text
    else LStripNewlines(Join(lines[BodyStart(lines, m)..], "\n"))
  }

  /** Without a marker line the text comes back unchanged; otherwise the result is
      exactly the lines after the header block joined with `\n`. */
  lemma {:induction false} StripForwardHeadersCases(text: string)
    ensures FirstMarker(SplitLines(text)) == |SplitLines(text)| ==> StripForwardHeaders(text) == text
    ensures FirstMarker(SplitLines(text)) < |SplitLines(text)| ==>
              StripForwardHeaders(text) == Join(SplitLines(text)[BodyStart(SplitLines(text), FirstMarker(SplitLines(text)))..], "\n")
  {
    var lines := SplitLines(text);
    var m := FirstMarker(lines);
    if m < |lines| {
      LStripNoop(lines, BodyStart(lines, m));
    }
  }

  /** The final `lstrip("\n")` never removes anything: the kept text starts with a
      non-blank line, which holds no boundary. */
  lemma {:induction false} LStripNoop(lines: seq<string>, i: nat)
    requires forall x :: 0 <= x < |lines| ==> NoneOf(lines[x], IsLineBreak)
    requires i <= |lines| && (i < |lines| ==> !IsBlank(lines[i]))
    ensures LStripNewlines(Join(lines[i..], "\n")) == Join(lines[i..], "\n")
  {
    var rest := lines[i..];
    if |rest| > 0 {
      assert rest[0] == lines[i];
      assert NoneOf(rest[0], IsLineBreak);
      assert rest[0] != "" by {
        assert AllOf("", IsSpace) && Strip("") == "";
      }
      JoinHead(rest, "\n");
      assert !IsLineBreak(rest[0][0]);
    }
  }

  lemma {:induction false} JoinHead(parts: seq<string>, sep: string)
    requires |parts| > 0 && parts[0] != ""
    ensures |Join(parts, sep)| > 0 && Join(parts, sep)[0] == parts[0][0]
  {
    if |parts| > 1 {
      assert Join(parts, sep) == parts[0] + (sep + Join(parts[1..], sep));
    }
  }

  /** After a marker, the kept text starts at a line that is not blank, or is empty
      when the header block runs to the end. */
  lemma {:induction false} KeptStartsFilled(text: string)
    requires FirstMarker(SplitLines(text)) < |SplitLines(text)|
    ensures var lines := SplitLines(text);
            var i := BodyStart(lines, FirstMarker(lines));
            (i < |lines| && !IsBlank(lines[i])) || (i == |lines| && StripForwardHeaders(text) == "")
  {
    var lines := SplitLines(text);
    var i := BodyStart(lines, FirstMarker(lines));
    StripForwardHeadersCases(text);
    if i == |lines| {
      assert lines[i..] == [];
    }
  }

  /** The lines from `i` on, joined, end the joined text. */
  lemma {:induction false} JoinSuffix(lines: seq<string>, i: nat)
    requires i <= |lines|
    ensures IsSuffix(Join(lines[i..], "\n"), Join(lines, "\n"))
    decreases i
  {
    if i == 0 {
      assert lines[i..] == lines;
    } else if |lines| == 1 {
      assert lines[i..] == [];
    } else {
      JoinSuffix(lines[1..], i - 1);
      JoinSuffixStep(lines, i);
    }
  }

  lemma {:induction false} JoinSuffixStep(lines: seq<string>, i: nat)
    requires 0 < i <= |lines| && |lines| >= 2
    requires IsSuffix(Join(lines[1..][i - 1..], "\n"), Join(lines[1..], "\n"))
    ensures IsSuffix(Join(lines[i..], "\n"), Join(lines, "\n"))
  {
    assert lines[1..][i - 1..] == lines[i..];
    SuffixExtend(Join(lines[i..], "\n"), Join(lines[1..], "\n"), lines[0] + "\n");
  }

  /** For a text whose only boundary is `\n` and which does not end with one, what is
      kept is the end of the text: nothing is rewritten, only the start is cut off. */
  lemma {:induction false} KeptIsSuffix(text: string)
    requires forall i :: 0 <= i < |text| ==> IsLineBreak(text[i]) ==> text[i] == '\n'
    requires |text| > 0 ==> text[|text| - 1] != '\n'
    ensures IsSuffix(StripForwardHeaders(text), text)
  {
    var lines := SplitLines(text);
    var m := FirstMarker(lines);
    StripForwardHeadersCases(text);
    if m < |lines| {
      JoinSplitLines(text);
      JoinSuffix(lines, BodyStart(lines, m));
    } else {
      assert text[|text| - |text|..] == text;
    }
  }

  /** Gmail's marker line is recognised. */
  lemma {:induction false} GmailMarker()
    ensures IsMarkerLine("---------- " + ForwardedEn + " ---------")
  {
    MarkerExample("---------- " + ForwardedEn + " ---------", "---------- ", ForwardedEn, " ---------");
  }

  /** Yandex's marker line is recognised. */
  lemma {:induction false} YandexMarker()
    ensures IsMarkerLine("-------- " + ForwardedRu + " --------")
  {
    MarkerExample("-------- " + ForwardedRu + " --------", "-------- ", ForwardedRu, " --------");
  }

  /** A stripped line made of a run of dashes and spaces, a phrase in its own case, and
      another such run is a marker line. */
  lemma {:induction false} MarkerExample(t: string, lead: string, phrase: string, tail: string)
    requires phrase == ForwardedRu || phrase == ForwardedEn
    requires t == lead + phrase + tail
    requires |lead| >= 6 && |tail| >= 2
    requires forall i :: 0 <= i < |lead| ==> lead[i] == '-' || lead[i] == ' '
    requires forall i :: 0 <= i < |tail| ==> tail[i] == '-' || tail[i] == ' '
    requires lead[0] == '-' && tail[|tail| - 1] == '-'
    ensures IsMarkerLine(t)
  {
    LeadMarker(t, lead, phrase, tail);
    assert t[0] == lead[0] && t[|t| - 1] == tail[|tail| - 1];
    StrippedFixed(t);
  }

  lemma {:induction false} LeadMarker(t: string, lead: string, phrase: string, tail: string)
    requires phrase == ForwardedRu || phrase == ForwardedEn
    requires t == lead + phrase + tail
    requires |lead| >= 6 && |tail| >= 2
    requires forall i :: 0 <= i < |lead| ==> lead[i] == '-' || lead[i] == ' '
    requires forall i :: 0 <= i < |tail| ==> tail[i] == '-' || tail[i] == ' '
    ensures IsMarker(t)
  {
    var k := |lead|;
    var u := t[k..];
    ConcatAssoc(lead, phrase, tail);
    ConcatParts(lead, phrase + tail);
    PhraseThenTail(u, phrase, tail);
    PhraseStart(u, phrase);
    RunEnds(t, k);
  }

  lemma {:induction false} PhraseThenTail(u: string, phrase: string, tail: string)
    requires u == phrase + tail && |tail| >= 2
    requires forall i :: 0 <= i < |tail| ==> tail[i] == '-' || tail[i] == ' '
    ensures PhraseTail(u, phrase)
  {
    assert u[..|phrase|] == phrase;
    assert u[|phrase|..] == tail;
  }
}

=== FILE: mail.dfy ===
/** The e-mail path of the service: reading a fetched message into sender, subject, body
    and attachments, taking the address out of the `From` header, checking it against
    the whitelist and, for a whitelisted sender only, saving the note. */
module Mail {

  import opened Wrappers
  import opened Text
  import opened Note
  import opened Config
  import opened Clock
  import opened Forward

  const AttachmentDisposition := "attachment"
  const PlainType := "text/plain"
  const HtmlType := "text/html"
  const MailSource := "email"

  /** One part met while walking a multipart message: its `Content-Disposition` kind,
      its content type, its file name, its decoded payload (`None` when there is none)
      and the text that payload decodes to in the part's charset. */
  datatype Part = Part(
    disposition: Option<string>,
    contentType: string,
    filename: Option<string>,
    payload: Option<seq<byte>>,
    decoded: string)

  /** A multipart message is walked part by part; a single-part message has one content
      type and one decoded payload. */
  datatype Body = Multipart(parts: seq<Part>) | Single(contentType: string, decoded: string)

  /** A fetched message: its `From` and `Subject` headers (`None` when absent) and body. */
  datatype Email = Email(from: Option<string>, subject: Option<string>, body: Body)

  /** What `parse_email_message` returns. */
  datatype Parsed = Parsed(sender: string, subject: Option<string>, body: string, attachments: seq<Attachment>)

  // ---------------------------------------------------------------- the reference reading

  predicate IsAttachmentPart(p: Part) {
    p.disposition == Some(AttachmentDisposition)
  }

  /** A part that can supply the body of type `ty`: not an attachment, of that type. */
  predicate Carries(p: Part, ty: string) {
    !IsAttachmentPart(p) && p.contentType == ty
  }

  /** An attachment part read as `(filename or "attachment", payload or b"")`. */
  function AttachmentOf(p: Part): (a: Attachment)
    ensures a.name != ""
    ensures Truthy(p.filename) ==> a.name == p.filename.value
    ensures p.payload.Some? ==> a.blob == p.payload.value
  {
    Attachment(if Truthy(p.filename) then p.filename.value else AttachmentDisposition, p.payload.GetOr([]))
  }

  /** The attachments of a walk, one for each attachment part, in walk order. */
  function AttachmentsOf(parts: seq<Part>): seq<Attachment>
    decreases |parts|
  {
    if |parts| == 0 then []
    else (if IsAttachmentPart(parts[0]) then [AttachmentOf(parts[0])] else []) + AttachmentsOf(parts[1..])
  }

  /** The decoded text of the first part that carries `ty`, if any. */
  function FirstOf(parts: seq<Part>, ty: string): (r: Option<string>)
    ensures r.Some? <==> exists i :: 0 <= i < |parts| && Carries(parts[i], ty)
    decreases |parts|
  {
    if |parts| == 0 then None
    else if Carries(parts[0], ty) then Some(parts[0].decoded)
    else
      var r := FirstOf(parts[1..], ty);
      assert forall i :: 0 < i < |parts| ==> parts[i] == parts[1..][i - 1];
      r
  }

  /** `text_body or html_body or ""`. */
  function BodyOf(text: Option<string>, html: Option<string>): (r: string)
    ensures Truthy(text) ==> r == text.value
    ensures !Truthy(text) && Truthy(html) ==> r == html.value
    ensures !Truthy(text) && !Truthy(html) ==> r == ""
  {
    if Truthy(text) then text.value else if Truthy(html) then html.value else ""
  }

  /** The body of a single-part message of type `ty`, when that type is `ty`. */
  function SingleBody(contentType: string, decoded: string, ty: string): Option<string> {
    if contentType == ty then Some(decoded) else None
  }

  /** `parse_email_message` on a message already split into its parts. */
  function Parse(e: Email): (r: Parsed)
    ensures r.sender == e.from.GetOr("") && r.subject == e.subject
  {
    match e.body
    case Multipart(parts) =>
      Parsed(e.from.GetOr(""), e.subject,
             BodyOf(FirstOf(parts, PlainType), FirstOf(parts, HtmlType)), AttachmentsOf(parts))
    case Single(ct, decoded) =>
      Parsed(e.from.GetOr(""), e.subject,
             BodyOf(SingleBody(ct, decoded, PlainType), SingleBody(ct, decoded, HtmlType)), [])
  }

  // ---------------------------------------------------------------- what the reading promises

  /** There is one attachment per attachment part, and the `k`-th attachment comes from
      the `k`-th attachment part of the walk. */
  lemma {:induction false} AttachmentsInOrder(parts: seq<Part>, k: nat)
    requires k < |Filter(parts, IsAttachmentPart)|
    ensures |AttachmentsOf(parts)| == |Filter(parts, IsAttachmentPart)|
    ensures AttachmentsOf(parts)[k] == AttachmentOf(Filter(parts, IsAttachmentPart)[k])
    decreases |parts|
  {
    AttachmentsCount(parts);
    var f, ft := Filter(parts, IsAttachmentPart), Filter(parts[1..], IsAttachmentPart);
    var a, at := AttachmentsOf(parts), AttachmentsOf(parts[1..]);
    FilterHead(parts, IsAttachmentPart);
    if IsAttachmentPart(parts[0]) {
      assert f == [parts[0]] + ft && a == [AttachmentOf(parts[0])] + at;
      if k > 0 {
        AttachmentsInOrder(parts[1..], k - 1);
        assert a[k] == at[k - 1] && f[k] == ft[k - 1];
      }
    } else {
      assert f == ft && a == at;
      AttachmentsInOrder(parts[1..], k);
    }
  }

  lemma {:induction false} AttachmentsCount(parts: seq<Part>)
    ensures |AttachmentsOf(parts)| == |Filter(parts, IsAttachmentPart)|
    decreases |parts|
  {
    if |parts| > 0 {
      AttachmentsCount(parts[1..]);
    }
  }

  /** The body of type `ty` is the text of the first part that carries it, whatever the
      parts after it hold. */
  lemma {:induction false} FirstOfAt(parts: seq<Part>, ty: string, k: nat)
    requires k < |parts| && Carries(parts[k], ty)
    requires forall j :: 0 <= j < k ==> !Carries(parts[j], ty)
    ensures FirstOf(parts, ty) == Some(parts[k].decoded)
    decreases k
  {
    if k > 0 {
      assert !Carries(parts[0], ty);
      FirstOfAt(parts[1..], ty, k - 1);
    }
  }

  /** A single-part message never has attachments; its body is its text when its type is
      plain text or html, and empty otherwise. */
  lemma {:induction false} SingleHasNoAttachments(from: Option<string>, subject: Option<string>, ct: string, decoded: string)
    ensures var r := Parse(Email(from, subject, Single(ct, decoded)));
            && r.attachments == []
            && (ct == PlainType || ct == HtmlType ==> r.body == decoded)
            && (ct != PlainType && ct != HtmlType ==> r.body == "")
  {
  }

  /** The html body is used only when there is no non-empty plain text body. */
  lemma {:induction false} PlainTextPreferred(parts: seq<Part>, k: nat)
    requires k < |parts| && Carries(parts[k], PlainType) && parts[k].decoded != ""
    requires forall j :: 0 <= j < k ==> !Carries(parts[j], PlainType)
    ensures forall from, subject :: Parse(Email(from, subject, Multipart(parts))).body == parts[k].decoded
  {
    FirstOfAt(parts, PlainType, k);
  }

  // ---------------------------------------------------------------- the loop as written

  lemma {:induction false} AttachmentsSnoc(parts: seq<Part>, p: Part)
    ensures AttachmentsOf(parts + [p]) == AttachmentsOf(parts) + (if IsAttachmentPart(p) then [AttachmentOf(p)] else [])
    decreases |parts|
  {
    var tail := if IsAttachmentPart(p) then [AttachmentOf(p)] else [];
    if |parts| == 0 {
      assert parts + [p] == [p];
      assert [p][1..] == [];
    } else {
      var q := parts + [p];
      assert q[0] == parts[0] && q[1..] == parts[1..] + [p];
      AttachmentsSnoc(parts[1..], p);
      var head := if IsAttachmentPart(parts[0]) then [AttachmentOf(parts[0])] else [];
      assert AttachmentsOf(q) == head + (AttachmentsOf(parts[1..]) + tail);
      assert AttachmentsOf(parts) == head + AttachmentsOf(parts[1..]);
    }
  }

  lemma {:induction false} FirstOfSnoc(parts: seq<Part>, p: Part, ty: string)
    ensures FirstOf(parts + [p], ty) == if FirstOf(parts, ty).Some? then FirstOf(parts, ty)
                                       else if Carries(p, ty) then Some(p.decoded) else None
    decreases |parts|
  {
    if |parts| == 0 {
      assert parts + [p] == [p];
      assert [p][1..] == [];
    } else {
      assert (parts + [p])[1..] == parts[1..] + [p];
      FirstOfSnoc(parts[1..], p, ty);
    }
  }

  /** The walk of `parse_email_message`: attachments appended in order, and the first plain
      text and first html part kept. */
  method WalkParts(parts: seq<Part>) returns (text: Option<string>, html: Option<string>, atts: seq<Attachment>)
    ensures text == FirstOf(parts, PlainType) && html == FirstOf(parts, HtmlType)
    ensures atts == AttachmentsOf(parts)
  {
    text, html, atts := None, None, [];
    var i := 0;
    while i < |parts|
      invariant i <= |parts|
      invariant text == FirstOf(parts[..i], PlainType) && html == FirstOf(parts[..i], HtmlType)
      invariant atts == AttachmentsOf(parts[..i])
    {
      var p := parts[i];
      assert parts[..i + 1] == parts[..i] + [p];
      AttachmentsSnoc(parts[..i], p);
      FirstOfSnoc(parts[..i], p, PlainType);
      FirstOfSnoc(parts[..i], p, HtmlType);
      if p.disposition == Some(AttachmentDisposition) {
        atts := atts + [AttachmentOf(p)];
      } else if p.contentType == PlainType && text.None? {
        text := Some(p.decoded);
      } else if p.contentType == HtmlType && html.None? {
        html := Some(p.decoded);
      }
      i := i + 1;
    }
    assert parts[..i] == parts;
  }

  /** `parse_email_message`: returns the sender or "", the subject, the body and the
      attachments. */
  method ParseEmailMessage(e: Email) returns (r: Parsed)
    ensures r == Parse(e)
  {
    var text: Option<string> := None;
    var html: Option<string> := None;
    var atts: seq<Attachment> := [];
    match e.body {
      case Multipart(parts) =>
        text, html, atts := WalkParts(parts);
      case Single(ct, decoded) =>
        if ct == PlainType {
          text := Some(decoded);
        } else if ct == HtmlType {
          html := Some(decoded);
        }
    }
    r := Parsed(e.from.GetOr(""), e.subject, BodyOf(text, html), atts);
  }

  // ---------------------------------------------------------------- the sender address

  /** The address in `From`: when the header holds both `<` and `>`, the text after the
      last `<` up to the first `>` after it, stripped; otherwise the header as it is. */
  function ExtractAddress(sender: string): (r: string)
    ensures '<' in sender && '>' in sender ==> '<' !in r && '>' !in r
    ensures !('<' in sender && '>' in sender) ==> r == sender
  {
    if '<' in sender && '>' in sender then
      SplitPieces(sender, '<');
      var tail := Last(Split(sender, '<'));
      var a := Split(tail, '>')[0];
      IndexOfBefore(tail, '>');
      assert '<' !in a by {
        forall i | 0 <= i < |a| ensures a[i] != '<' {
          assert a[i] == tail[i];
        }
      }
      StripWithout(a, '<');
      StripWithout(a, '>');
      Strip(a)
    else sender
  }

  /** With a `>` anywhere in the header, the address is the text after the last `<` up
      to the first `>` after it, or up to the end when no `>` follows, stripped. */
  lemma {:induction false} ExtractAddressAfterLast(sender: string, x: string, y: string)
    requires sender == x + "<" + y && '<' !in y && '>' in sender
    ensures ExtractAddress(sender) == Strip(y[..IndexOf(y, '>')])
  {
    assert sender[|x|] == '<';
    SplitLastAfter(sender, '<', x, y);
  }

  /** `"Display Name <addr>"` yields `addr` (without surrounding white space), whatever
      the display name holds. */
  lemma {:induction false} ExtractAddressOf(display: string, addr: string)
    requires '<' !in addr && '>' !in addr
    ensures ExtractAddress(display + "<" + addr + ">") == Strip(addr)
  {
    var s := display + "<" + addr + ">";
    assert s[|display|] == '<' && s[|s| - 1] == '>';
    SplitLastAfter(s, '<', display, addr + ">");
    var tail := Last(Split(s, '<'));
    assert IndexOf(tail, '>') == |addr| by {
      IndexOfFirst(tail, '>', |addr|);
    }
    assert tail[..|addr|] == addr;
  }

  /** An address that already is one comes back unchanged. */
  lemma {:induction false} ExtractAddressBare(addr: string)
    requires '<' !in addr
    ensures ExtractAddress(addr) == addr
  {
  }

  // ---------------------------------------------------------------- the whitelist

  /** `is_email_whitelisted`: an empty or missing sender never passes; otherwise its
      lower-case form must be in the whitelist. */
  function IsEmailWhitelisted(sender: Option<string>, whitelist: set<string>): (r: bool)
    ensures !Truthy(sender) ==> !r
  {
    Truthy(sender) && LowerStr(sender.value) in whitelist
  }

  /** Against the whitelist `load_settings` builds, an address passes exactly when it is
      not empty and equals, ignoring case, one of the listed items. */
  lemma {:induction false} WhitelistIgnoresCase(addr: string, items: seq<string>)
    ensures IsEmailWhitelisted(Some(addr), Emails(items))
            <==> addr != "" && exists e :: e in items && LowerStr(e) == LowerStr(addr)
  {
    if addr != "" && exists e :: e in items && LowerStr(e) == LowerStr(addr) {
      var e :| e in items && LowerStr(e) == LowerStr(addr);
      assert LowerStr(e) in Emails(items);
    }
  }

  // ---------------------------------------------------------------- the save call

  /** The storage `main_async` builds from the settings. */
  function MailStorage(settings: Settings): Storage {
    NewStorage(settings.storageDir, settings.attachmentsSubdir)
  }

  /** The arguments the worker saves a message with. */
  function MailMessage(addr: string, p: Parsed): (m: Message)
    ensures Atts(m) == p.attachments
    ensures m.source == MailSource && m.source != "telegram"
    ensures m.sender == addr && m.subject == p.subject
    ensures m.textBody == Some(p.body) && m.htmlBody.None?
  {
    Message(MailSource, addr, p.subject, Some(p.body), None, Some(p.attachments), None, None, None)
  }

  /** One fetched message handled by the IMAP worker: the note it saves, or `None` when
      the sender is not whitelisted. */
  function ProcessMail(settings: Settings, e: Email, w: World): (r: Option<Saved>)
    requires w.Valid()
  {
    var p := Parse(e);
    var addr := ExtractAddress(p.sender);
    if IsEmailWhitelisted(Some(addr), settings.whitelistEmails) then
      Some(SaveMarkdownMessage(MailStorage(settings), MailMessage(addr, p), w))
    else None
  }

  /** A message is saved exactly when its sender's address is whitelisted, and then the
      attachment parts are written one each, before the note. */
  lemma {:induction false} ProcessMailSaves(settings: Settings, e: Email, w: World)
    requires w.Valid()
    ensures var addr := ExtractAddress(e.from.GetOr(""));
            var r := ProcessMail(settings, e, w);
            && (r.Some? <==> IsEmailWhitelisted(Some(addr), settings.whitelistEmails))
            && (r.Some? ==> |r.value.writes| == |Parse(e).attachments| + 1)
  {
    var p := Parse(e);
    var m := MailMessage(ExtractAddress(p.sender), p);
    assert Atts(m) == p.attachments;
  }

  /** A saved e-mail note carries the e-mail tag, the text body without its forward
      banner, and an attachment section exactly when the message had attachment parts. */
  lemma {:induction false} MailNoteLaidOut(settings: Settings, e: Email, w: World)
    requires w.Valid()
    ensures var r := ProcessMail(settings, e, w);
            var p := Parse(e);
            r.Some? ==> LaidOut(r.value.lines, false, DateString(w.dateClock),
                                StripForwardHeaders(p.body), |p.attachments| > 0)
  {
    var r := ProcessMail(settings, e, w);
    if r.Some? {
      var p := Parse(e);
      var m := MailMessage(ExtractAddress(p.sender), p);
      MailSaved(settings, e, w);
      MailNoteParts(m, p, w.htmlToText);
      NoteLayout(MailStorage(settings), m, w);
    }
  }

  lemma {:induction false} MailSaved(settings: Settings, e: Email, w: World)
    requires w.Valid()
    ensures var r := ProcessMail(settings, e, w);
            var p := Parse(e);
            r.Some? ==> r.value == SaveMarkdownMessage(MailStorage(settings), MailMessage(ExtractAddress(p.sender), p), w)
  {
  }

  lemma {:induction false} MailNoteParts(m: Message, p: Parsed, h: string -> Option<string>)
    requires m == MailMessage(ExtractAddress(p.sender), p)
    ensures NoteBody(m, h) == StripForwardHeaders(p.body)
    ensures HasAnyAttachments(m) <==> |p.attachments| > 0
    ensures m.source != "telegram"
  {
    assert RawBody(m, h) == p.body;
  }

  /** A message from `Name <addr>` is saved exactly when `addr` matches, ignoring case,
      one of the items the e-mail whitelist was built from. */
  lemma {:induction false} SavedFromListed(settings: Settings, items: seq<string>, e: Email, w: World, display: string, addr: string)
    requires w.Valid() && settings.whitelistEmails == Emails(items)
    requires e.from == Some(display + "<" + addr + ">")
    requires '<' !in addr && '>' !in addr && Stripped(addr)
    ensures ProcessMail(settings, e, w).Some?
            <==> addr != "" && exists x :: x in items && LowerStr(x) == LowerStr(addr)
  {
    ExtractAddressOf(display, addr);
    StrippedFixed(addr);
    ProcessMailSaves(settings, e, w);
    WhitelistIgnoresCase(addr, items);
  }

  /** With the whitelist read from the environment, a message from `Name <addr>` is saved
      exactly when `addr` is listed in `WHITELIST_EMAILS`, in any letter case. */
  lemma {:induction false} SavedWhenListed(env: Env, subject: Option<string>, body: Body, w: World, display: string, addr: string)
    requires w.Valid() && LoadSettings(env).Success?
    requires '<' !in addr && '>' !in addr && Stripped(addr)
    ensures var items := SplitList(GetEnv(env, "WHITELIST_EMAILS"));
            ProcessMail(LoadSettings(env).value, Email(Some(display + "<" + addr + ">"), subject, body), w).Some?
            <==> addr != "" && exists e :: e in items && LowerStr(e) == LowerStr(addr)
  {
    LoadedEmails(env);
    SavedFromListed(LoadSettings(env).value, SplitList(GetEnv(env, "WHITELIST_EMAILS")),
      Email(Some(display + "<" + addr + ">"), subject, body), w, display, addr);
  }
}

=== FILE: names.dfy ===
/** The name and preview helpers of the storage layer: `_slugify` (attachment file
    names), `_sanitize_component` (human-readable note titles) and `_clean_preview`
    (a short text excerpt with markup removed). */
module Names {

  import opened Text

  predicate IsHexDigit(c: char) {
    ('0' <= c <= '9') || ('a' <= c <= 'f')
  }

  /** `uuid.uuid4().hex`: 32 lower-case hexadecimal digits. The random source itself is
      not modelled; callers pass token values. */
  type UuidHex = s: string | |s| == 32 && AllOf(s, IsHexDigit)
    witness "00000000000000000000000000000000"

  /** The alphabet of attachment file names: ASCII letters, digits, `-`, `_` and `.`. */
  predicate IsSlugChar(c: char) {
    IsAsciiLetter(c) || IsDigit(c) || c == '-' || c == '_' || c == '.'
  }

  /** Slug characters other than the hyphen, which slugify also inserts for white space. */
  predicate IsSlugWordChar(c: char) {
    IsSlugChar(c) && c != '-'
  }

  /** What `_slugify` keeps or turns into a hyphen. */
  predicate IsSlugOrSpace(c: char) {
    IsSlugChar(c) || IsSpace(c)
  }

  /** The characters the first substitution of `_slugify` and the first replacements of
      `_sanitize_component` turn into a space. */
  predicate IsTabOrBreak(c: char) {
    c == '\n' || c == '\r' || c == '\t'
  }

  const SlugMaxLen: nat := 80

  /** `str(uuid)`: the 32 digits in groups of 8-4-4-4-12 joined by hyphens. Dropping
      the hyphens gives the digits back. */
  function UuidText(h: UuidHex): (r: string)
    ensures |r| == 36
    ensures AllOf(r, IsSlugChar)
    ensures Filter(r, IsHexDigit) == h
    ensures r[8] == '-' && r[13] == '-' && r[18] == '-' && r[23] == '-'
    ensures forall i :: 0 <= i < 36 && i != 8 && i != 13 && i != 18 && i != 23 ==> IsHexDigit(r[i])
  {
    var t4 := h[20..];
    var t3 := h[16..20] + ("-" + t4);
    var t2 := h[12..16] + ("-" + t3);
    var t1 := h[8..12] + ("-" + t2);
    var r := h[..8] + ("-" + t1);
    UuidTextDigits(h, t1, t2, t3, t4, r);
    UuidTextChars(h, t1, t2, t3, t4, r);
    UuidTextGroups(h, r);
    r
  }

  lemma {:induction false} UuidTextGroups(h: UuidHex, r: string)
    requires r == h[..8] + ("-" + (h[8..12] + ("-" + (h[12..16] + ("-" + (h[16..20] + ("-" + h[20..])))))))
    ensures |r| == 36
    ensures r[8] == '-' && r[13] == '-' && r[18] == '-' && r[23] == '-'
    ensures forall i :: 0 <= i < 36 && i != 8 && i != 13 && i != 18 && i != 23 ==> IsHexDigit(r[i])
  {
    forall i | 0 <= i < 36 && i != 8 && i != 13 && i != 18 && i != 23 ensures IsHexDigit(r[i]) {
      if i < 8 { assert r[i] == h[i]; }
      else if i < 13 { assert r[i] == h[i - 1]; }
      else if i < 18 { assert r[i] == h[i - 2]; }
      else if i < 23 { assert r[i] == h[i - 3]; }
      else { assert r[i] == h[i - 4]; }
    }
  }

  lemma {:induction false} UuidTextChars(h: UuidHex, t1: string, t2: string, t3: string, t4: string, r: string)
    requires t4 == h[20..] && t3 == h[16..20] + ("-" + t4) && t2 == h[12..16] + ("-" + t3)
    requires t1 == h[8..12] + ("-" + t2) && r == h[..8] + ("-" + t1)
    ensures AllOf(r, IsSlugChar)
  {
    HexSlug(h);
    assert AllOf(t4, IsSlugChar);
    AllOfConcat("-", t4, IsSlugChar);
    AllOfConcat(h[16..20], "-" + t4, IsSlugChar);
    AllOfConcat("-", t3, IsSlugChar);
    AllOfConcat(h[12..16], "-" + t3, IsSlugChar);
    AllOfConcat("-", t2, IsSlugChar);
    AllOfConcat(h[8..12], "-" + t2, IsSlugChar);
    AllOfConcat("-", t1, IsSlugChar);
    AllOfConcat(h[..8], "-" + t1, IsSlugChar);
  }

  lemma {:induction false} HexSlug(h: string)
    requires AllOf(h, IsHexDigit)
    ensures AllOf(h, IsSlugChar)
  {
  }

  lemma {:induction false} UuidTextDigits(h: UuidHex, t1: string, t2: string, t3: string, t4: string, r: string)
    requires t4 == h[20..] && t3 == h[16..20] + ("-" + t4) && t2 == h[12..16] + ("-" + t3)
    requires t1 == h[8..12] + ("-" + t2) && r == h[..8] + ("-" + t1)
    ensures Filter(r, IsHexDigit) == h
  {
    assert Filter(t4, IsHexDigit) == t4;
    GroupStep(h, 16, 20, t4);
    GroupStep(h, 12, 16, t3);
    GroupStep(h, 8, 12, t2);
    GroupStep(h, 0, 8, t1);
    assert h[0..8] == h[..8] && h[0..] == h;
  }

  /** One more group in front: the filter gives the digits from the group's start on. */
  lemma {:induction false} GroupStep(h: UuidHex, i: nat, j: nat, t: string)
    requires i <= j <= |h| && Filter(t, IsHexDigit) == h[j..]
    ensures Filter(h[i..j] + ("-" + t), IsHexDigit) == h[i..]
  {
    assert AllOf(h[i..j], IsHexDigit) by {
      forall k | 0 <= k < j - i ensures IsHexDigit(h[i..j][k]) {
        assert h[i..j][k] == h[i + k];
      }
    }
    HexGroup(h[i..j], t);
    Adjacent(h, i, j);
  }

  /** A group of hex digits, a hyphen, and the rest: the filter keeps the group whole. */
  lemma {:induction false} HexGroup(g: string, rest: string)
    requires AllOf(g, IsHexDigit)
    ensures Filter(g + ("-" + rest), IsHexDigit) == g + Filter(rest, IsHexDigit)
  {
    FilterConcat(g, "-" + rest, IsHexDigit);
    FilterConcat("-", rest, IsHexDigit);
  }

  /** `_slugify`: tabs and line breaks become spaces, the text is stripped, white-space
      runs become one hyphen, characters outside the slug alphabet are dropped, the
      result is cut to 80 characters, and an empty result is replaced by `str(uuid4())`.

      The result is a non-empty slug of at most 80 characters. Unless it is the uuid
      fallback, its letters, digits, `_` and `.` are a prefix of those of the input, and
      all of them when the input is at most 80 characters long. An input with no slug
      character and no white space at all yields the fallback. */
  function Slugify(value: string, token: UuidHex): (r: string)
    ensures 1 <= |r| <= SlugMaxLen
    ensures AllOf(r, IsSlugChar)
    ensures r == UuidText(token) || Filter(r, IsSlugWordChar) <= Filter(value, IsSlugWordChar)
    ensures |value| <= SlugMaxLen && Filter(value, IsSlugWordChar) != [] ==>
              Filter(r, IsSlugWordChar) == Filter(value, IsSlugWordChar)
    ensures NoneOf(value, IsSlugOrSpace) ==>
              r == UuidText(token)
  {
    var cut := PyPrefix(SlugBody(value), SlugMaxLen);
    if cut == "" then
      SlugCutEmpty(value, cut);
      UuidText(token)
    else
      SlugCutChars(value, cut);
      SlugCutWords(value, cut);
      SlugCutWhole(value, cut);
      SlugCutNoContent(value, cut);
      cut
  }

  /** `_slugify` before the cut and the fallback. */
  function SlugBody(value: string): string {
    Filter(CollapseRuns(Strip(CollapseRuns(value, IsTabOrBreak, ' ')), IsSpace, '-'), IsSlugChar)
  }

  lemma {:induction false} SlugCutChars(value: string, cut: string)
    requires cut == PyPrefix(SlugBody(value), SlugMaxLen)
    ensures AllOf(cut, IsSlugChar)
  {
    SlugBodyFacts(value);
    CutFacts(SlugBody(value), cut, value);
  }

  lemma {:induction false} SlugCutWords(value: string, cut: string)
    requires cut == PyPrefix(SlugBody(value), SlugMaxLen)
    ensures Filter(cut, IsSlugWordChar) <= Filter(value, IsSlugWordChar)
  {
    SlugBodyFacts(value);
    CutFacts(SlugBody(value), cut, value);
  }

  lemma {:induction false} SlugCutWhole(value: string, cut: string)
    requires cut == PyPrefix(SlugBody(value), SlugMaxLen)
    ensures |value| <= SlugMaxLen ==> Filter(cut, IsSlugWordChar) == Filter(value, IsSlugWordChar)
  {
    SlugBodyFacts(value);
    CutFacts(SlugBody(value), cut, value);
  }

  lemma {:induction false} SlugCutEmpty(value: string, cut: string)
    requires cut == PyPrefix(SlugBody(value), SlugMaxLen)
    ensures cut == [] ==> Filter(value, IsSlugWordChar) == []
  {
    SlugBodyFacts(value);
    CutFacts(SlugBody(value), cut, value);
  }

  lemma {:induction false} SlugCutNoContent(value: string, cut: string)
    requires cut == PyPrefix(SlugBody(value), SlugMaxLen)
    ensures NoneOf(value, IsSlugOrSpace) ==> cut == []
  {
    SlugBodyFacts(value);
    CutFacts(SlugBody(value), cut, value);
  }

  lemma {:induction false} CutFacts(body: string, cut: string, value: string)
    requires cut == PyPrefix(body, SlugMaxLen)
    requires Filter(body, IsSlugWordChar) == Filter(value, IsSlugWordChar)
    requires |body| <= |value|
    requires AllOf(body, IsSlugChar)
    ensures |cut| <= SlugMaxLen
    ensures AllOf(cut, IsSlugChar)
    ensures Filter(cut, IsSlugWordChar) <= Filter(value, IsSlugWordChar)
    ensures |value| <= SlugMaxLen ==> cut == body
    ensures cut == [] ==> body == []
  {
    CutChars(body, cut);
    CutWords(body, cut);
    CutWhole(body, cut, value);
  }

  lemma {:induction false} CutWhole(body: string, cut: string, value: string)
    requires cut == PyPrefix(body, SlugMaxLen)
    requires |body| <= |value|
    ensures |value| <= SlugMaxLen ==> cut == body
    ensures cut == [] ==> body == []
  {
  }

  lemma {:induction false} CutChars(body: string, cut: string)
    requires cut == PyPrefix(body, SlugMaxLen)
    requires AllOf(body, IsSlugChar)
    ensures AllOf(cut, IsSlugChar)
  {
    assert cut == body[..|cut|];
  }

  lemma {:induction false} CutWords(body: string, cut: string)
    requires cut == PyPrefix(body, SlugMaxLen)
    ensures Filter(cut, IsSlugWordChar) <= Filter(body, IsSlugWordChar)
  {
    assert cut == body[..|cut|];
    FilterPrefix(body, |cut|, IsSlugWordChar);
  }

  lemma {:induction false} SlugBodyFacts(value: string)
    ensures Filter(SlugBody(value), IsSlugWordChar) == Filter(value, IsSlugWordChar)
    ensures |SlugBody(value)| <= |value|
    ensures AllOf(SlugBody(value), IsSlugChar)
    ensures NoneOf(value, IsSlugOrSpace) ==> SlugBody(value) == []
  {
    var v1 := CollapseRuns(value, IsTabOrBreak, ' ');
    var v2 := Strip(v1);
    var v3 := CollapseRuns(v2, IsSpace, '-');
    var v4 := Filter(v3, IsSlugChar);
    SlugWordsTabs(value, v1);
    SlugWordsStrip(v1, v2);
    SlugWordsHyphens(v2, v3);
    SlugWordsFilter(v3, v4);
    if NoneOf(value, IsSlugOrSpace) {
      SlugBodyEmpty(value, v1, v2, v3);
    }
  }

  lemma {:induction false} SlugBodyEmpty(value: string, v1: string, v2: string, v3: string)
    requires NoneOf(value, IsSlugOrSpace)
    requires v1 == CollapseRuns(value, IsTabOrBreak, ' ')
    requires v2 == Strip(v1)
    requires v3 == CollapseRuns(v2, IsSpace, '-')
    ensures Filter(v3, IsSlugChar) == []
  {
    NoSpaceUnchanged(value, v1, v2, v3);
    FilterNone(v3, IsSlugChar);
  }

  /** Text without any white space passes the first three steps of `_slugify` unchanged. */
  lemma {:induction false} NoSpaceUnchanged(value: string, v1: string, v2: string, v3: string)
    requires NoneOf(value, IsSpace)
    requires v1 == CollapseRuns(value, IsTabOrBreak, ' ')
    requires v2 == Strip(v1)
    requires v3 == CollapseRuns(v2, IsSpace, '-')
    ensures v3 == value
  {
    forall i | 0 <= i < |value| ensures !IsTabOrBreak(value[i]) {
      assert !IsSpace(value[i]);
    }
    assert v1 == value;
    assert Stripped(v1) by {
      if |v1| > 0 {
        assert !IsSpace(v1[0]) && !IsSpace(v1[|v1| - 1]);
      }
    }
    StrippedFixed(v1);
  }

  lemma {:induction false} SlugWordsTabs(value: string, v1: string)
    requires v1 == CollapseRuns(value, IsTabOrBreak, ' ')
    ensures Filter(v1, IsSlugWordChar) == Filter(value, IsSlugWordChar)
  {
    FilterCollapse(value, IsTabOrBreak, ' ', IsSlugWordChar);
  }

  lemma {:induction false} SlugWordsStrip(v1: string, v2: string)
    requires v2 == Strip(v1)
    ensures Filter(v2, IsSlugWordChar) == Filter(v1, IsSlugWordChar)
  {
    FilterStrip(v1, IsSlugWordChar);
  }

  lemma {:induction false} SlugWordsHyphens(v2: string, v3: string)
    requires v3 == CollapseRuns(v2, IsSpace, '-')
    ensures Filter(v3, IsSlugWordChar) == Filter(v2, IsSlugWordChar)
  {
    FilterCollapse(v2, IsSpace, '-', IsSlugWordChar);
  }

  lemma {:induction false} SlugWordsFilter(v3: string, v4: string)
    requires v4 == Filter(v3, IsSlugChar)
    ensures Filter(v4, IsSlugWordChar) == Filter(v3, IsSlugWordChar)
    ensures AllOf(v4, IsSlugChar)
  {
    FilterFilter(v3, IsSlugChar, IsSlugWordChar);
  }

  /** A slug is its own slug: slugifying twice changes nothing, whatever token the
      second call is given. */
  lemma {:induction false} SlugifyIdempotent(value: string, token: UuidHex, token': UuidHex)
    ensures Slugify(Slugify(value, token), token') == Slugify(value, token)
  {
    SlugifyFixes(Slugify(value, token), token');
  }

  lemma {:induction false} SlugifyFixes(s: string, token: UuidHex)
    requires 1 <= |s| <= SlugMaxLen
    requires AllOf(s, IsSlugChar)
    ensures Slugify(s, token) == s
  {
    assert NoneOf(s, IsTabOrBreak);
    var v1 := CollapseRuns(s, IsTabOrBreak, ' ');
    assert v1 == s;
    assert NoneOf(s, IsSpace);
    var v2 := Strip(v1);
    assert v2 == s;
    var v3 := CollapseRuns(v2, IsSpace, '-');
    assert v3 == s;
    assert SlugBody(s) == s;
  }

  /** `_slugify` draws a uuid exactly when nothing of the value survives the cleaning. */
  predicate SlugUsesToken(value: string) {
    PyPrefix(SlugBody(value), SlugMaxLen) == ""
  }

  /** The token decides the slug only when it is drawn: a slug that draws none is the
      same whatever token is on offer, and one that draws is that token's text. */
  lemma {:induction false} SlugifyToken(value: string, token: UuidHex, token': UuidHex)
    ensures SlugUsesToken(value) ==> Slugify(value, token) == UuidText(token)
    ensures !SlugUsesToken(value) ==> Slugify(value, token) == Slugify(value, token')
  {
  }

  /** Different names can share a slug: a copy number in brackets, as in
      `report (1).pdf`, slugs like the same name without the brackets, `report 1.pdf`;
      both become `report-1.pdf`, and neither draws a uuid. */
  lemma {:induction false} CopySuffixSlug(x: string, n: string, e: string, t: UuidHex)
    requires |x| > 0 && |n| > 0 && |x| + |n| + |e| + 3 < SlugMaxLen
    requires AllOf(x, IsSlugChar) && AllOf(n, IsSlugChar) && AllOf(e, IsSlugChar)
    ensures !SlugUsesToken(x + " (" + n + ")" + e) && !SlugUsesToken(x + " " + n + e)
    ensures Slugify(x + " (" + n + ")" + e, t) == x + "-" + n + e
    ensures Slugify(x + " " + n + e, t) == x + "-" + n + e
  {
    var y := "(" + n + ")" + e;
    var z := n + e;
    var r := x + "-" + z;
    BracketedSpaces(n, e, y);
    BracketedFilter(n, e, y);
    BracketAssoc(x, n, e);
    ConcatAssoc(x + " ", n, e);
    AllOfConcat(n, e, IsSlugChar);
    SlugNoSpace(z);
    SpacedSlug(x, y, r);
    SpacedSlug(x, z, r);
    ConcatAssoc(x + "-", n, e);
    SlugifyOf(x + " " + y, r, t);
    SlugifyOf(x + " " + z, r, t);
  }

  lemma {:induction false} BracketAssoc(x: string, n: string, e: string)
    ensures x + " (" + n + ")" + e == x + " " + ("(" + n + ")" + e)
  {
    assert " (" == " " + "(";
    ConcatAssoc(x, " ", "(");
    ConcatAssoc(x + " ", "(", n);
    ConcatAssoc(x + " ", "(" + n, ")");
    ConcatAssoc(x + " ", "(" + n + ")", e);
  }

  /** A slug body that survives the cut is the slug, and no uuid is drawn. */
  lemma {:induction false} SlugifyOf(v: string, r: string, t: UuidHex)
    requires SlugBody(v) == r && PyPrefix(r, SlugMaxLen) == r && r != ""
    ensures !SlugUsesToken(v) && Slugify(v, t) == r
  {
  }

  lemma {:induction false} SlugNoSpace(s: string)
    requires AllOf(s, IsSlugChar)
    ensures NoneOf(s, IsSpace)
  {
  }

  /** `(n)e` holds no white space. */
  lemma {:induction false} BracketedSpaces(n: string, e: string, y: string)
    requires AllOf(n, IsSlugChar) && AllOf(e, IsSlugChar)
    requires y == "(" + n + ")" + e
    ensures NoneOf(y, IsSpace) && |y| > 0
  {
    forall k | 0 <= k < |y| ensures !IsSpace(y[k]) {
      if k == 0 || k == |n| + 1 {
      } else if k <= |n| {
        assert y[k] == n[k - 1];
      } else {
        assert y[k] == e[k - |n| - 2];
      }
    }
  }

  /** The slug characters of `(n)e` are those of `n` and `e`. */
  lemma {:induction false} BracketedFilter(n: string, e: string, y: string)
    requires AllOf(n, IsSlugChar) && AllOf(e, IsSlugChar)
    requires y == "(" + n + ")" + e
    ensures Filter(y, IsSlugChar) == n + e
  {
    var tail := [')'] + e;
    var mid := n + tail;
    assert y == ['('] + mid;
    assert y[0] == '(' && y[1..] == mid;
    DropHead(y, IsSlugChar);
    assert tail[0] == ')' && tail[1..] == e;
    DropHead(tail, IsSlugChar);
    FilterConcat(n, tail, IsSlugChar);
    assert Filter(n, IsSlugChar) == n && Filter(e, IsSlugChar) == e;
  }

  lemma {:induction false} DropHead(s: string, p: char -> bool)
    requires |s| > 0 && !p(s[0])
    ensures Filter(s, p) == Filter(s[1..], p)
  {
    FilterHead(s, p);
  }

  /** The slug body of two words separated by one space. */
  lemma {:induction false} SpacedSlug(x: string, y: string, r: string)
    requires |x| > 0 && |y| > 0 && |x| + |y| < SlugMaxLen
    requires AllOf(x, IsSlugChar) && NoneOf(y, IsSpace)
    requires r == x + "-" + Filter(y, IsSlugChar)
    ensures SlugBody(x + " " + y) == r && PyPrefix(r, SlugMaxLen) == r
  {
    var v := x + " " + y;
    SpacedPlain(x, y);
    SpacedCollapse(x, y);
    SpacedFilter(x, y);
  }

  lemma {:induction false} SpacedPlain(x: string, y: string)
    requires |x| > 0 && |y| > 0
    requires AllOf(x, IsSlugChar) && NoneOf(y, IsSpace)
    ensures CollapseRuns(x + " " + y, IsTabOrBreak, ' ') == x + " " + y
    ensures Strip(x + " " + y) == x + " " + y
  {
    var v := x + " " + y;
    forall k | 0 <= k < |v| ensures !IsTabOrBreak(v[k]) {
      if k < |x| {
        assert v[k] == x[k];
      } else if k > |x| {
        assert v[k] == y[k - |x| - 1];
      }
    }
    assert v[0] == x[0] && v[|v| - 1] == y[|y| - 1];
    StrippedFixed(v);
  }

  lemma {:induction false} SpacedCollapse(x: string, y: string)
    requires |x| > 0 && |y| > 0
    requires AllOf(x, IsSlugChar) && NoneOf(y, IsSpace)
    ensures CollapseRuns(x + " " + y, IsSpace, '-') == x + "-" + y
  {
    assert NoneOf(x, IsSpace);
    CollapseGap(" ", y, IsSpace, '-');
    CollapsePrefix(x, " " + y, IsSpace, '-');
    ConcatAssoc(x, " ", y);
    ConcatAssoc(x, "-", y);
  }

  lemma {:induction false} SpacedFilter(x: string, y: string)
    requires AllOf(x, IsSlugChar)
    ensures Filter(x + "-" + y, IsSlugChar) == x + "-" + Filter(y, IsSlugChar)
  {
    AllOfConcat(x, "-", IsSlugChar);
    FilterConcat(x + "-", y, IsSlugChar);
  }

  /** The characters `_sanitize_component` removes: illegal in Windows or POSIX file names. */
  predicate IsForbidden(c: char) {
    c == '\\' || c == '/' || c == ':' || c == '*' || c == '?' || c == '"' || c == '<' || c == '>' || c == '|'
  }

  predicate IsAllowed(c: char) {
    !IsForbidden(c)
  }

  /** Content characters: neither white space nor forbidden. */
  predicate IsKept(c: char) {
    !IsSpace(c) && !IsForbidden(c)
  }

  const Untitled := "untitled"

  function SpaceOutBreaks(s: string): (r: string)
    ensures |r| == |s|
    ensures forall i :: 0 <= i < |s| ==> r[i] == (if IsTabOrBreak(s[i]) then ' ' else s[i])
  {
    seq(|s|, i requires 0 <= i < |s| => if IsTabOrBreak(s[i]) then ' ' else s[i])
  }

  lemma {:induction false} FilterSpaceOutBreaks(s: string, q: char -> bool)
    requires forall c :: q(c) ==> !IsSpace(c)
    ensures Filter(SpaceOutBreaks(s), q) == Filter(s, q)
    decreases |s|
  {
    if |s| > 0 {
      assert SpaceOutBreaks(s)[1..] == SpaceOutBreaks(s[1..]);
      FilterSpaceOutBreaks(s[1..], q);
    }
  }

  /** `_sanitize_component`: tabs and line breaks become spaces, white-space runs become
      one space, the text is stripped, forbidden characters are removed, an over-long
      value is cut to `max_len` (Python slicing) and right-stripped, and an empty result
      becomes `"untitled"`.

      The result is never empty, holds no forbidden character and no white space other
      than the plain space, and fits in `max_len` whenever `max_len` leaves room for the
      fallback. It is the fallback exactly when the cleaned value falls back (see
      `FallsBack`). Otherwise it is the cleaned value itself when that fits in
      `max_len`, and the cleaned value's first `max_len` characters less their trailing
      white space when it does not. Unless it is the
      fallback, its content characters are a prefix of the input's, and all of them when
      the input fits in `max_len`. Forbidden characters only yield the fallback. */
  function SanitizeComponent(value: string, maxLen: int): (r: string)
    ensures r != ""
    ensures AllOf(r, IsAllowed) && AllOf(r, PlainSpace)
    ensures maxLen >= |Untitled| ==> |r| <= maxLen
    ensures FallsBack(SanitizeBody(value), maxLen) ==> r == Untitled
    ensures !FallsBack(SanitizeBody(value), maxLen) ==> r <= SanitizeBody(value)
    ensures !FallsBack(SanitizeBody(value), maxLen) && |SanitizeBody(value)| <= maxLen ==> r == SanitizeBody(value)
    ensures !FallsBack(SanitizeBody(value), maxLen) && |SanitizeBody(value)| > maxLen ==> IsRStripOf(r, PyPrefix(SanitizeBody(value), maxLen))
    ensures AllOf(value, IsForbidden) ==> r == Untitled
    ensures AllOf(value, IsSpace) ==> r == Untitled
    ensures r == Untitled || Filter(r, IsKept) <= Filter(value, IsKept)
    ensures |value| <= maxLen && Filter(value, IsKept) != [] ==> Filter(r, IsKept) == Filter(value, IsKept)
  {
    var cut := CutTitle(SanitizeBody(value), maxLen);
    CutEmpty(SanitizeBody(value), maxLen);
    if cut == "" then
      UntitledFacts();
      Untitled
    else
      cut
  }

  /** Whether `_sanitize_component` falls back to `untitled` for the cleaned value `b`:
      `b` is empty, or it is cut to `max_len` and the part kept holds no content
      character, so that right-stripping leaves nothing. */
  predicate FallsBack(b: string, maxLen: int) {
    b == [] || (|b| > maxLen && NoneOf(PyPrefix(b, maxLen), IsKept))
  }

  /** The cut of a value without forbidden characters is empty exactly when it falls
      back. */
  lemma {:induction false} CutEmpty(v: string, maxLen: int)
    requires AllOf(v, IsAllowed)
    ensures CutTitle(v, maxLen) == [] <==> FallsBack(v, maxLen)
  {
    if |v| > maxLen {
      var y := PyPrefix(v, maxLen);
      RStripEmpty(y);
      forall x | 0 <= x < |y| ensures IsSpace(y[x]) <==> !IsKept(y[x]) {
        assert y[x] == v[x];
      }
    }
  }

  lemma {:induction false} RStripEmpty(y: string)
    ensures RStrip(y) == [] <==> AllOf(y, IsSpace)
  {
    var r := RStrip(y);
    if r == [] {
      assert y[|r|..] == y;
    } else {
      assert r[|r| - 1] == y[|r| - 1];
    }
  }

  lemma {:induction false} UntitledFacts()
    ensures |Untitled| == 8 && AllOf(Untitled, IsAllowed) && AllOf(Untitled, PlainSpace)
  {
  }

  /** `_sanitize_component` before the cut and the fallback: no forbidden character,
      white space in normal form, the same content characters as the value, and nothing
      at all when the value holds only forbidden characters. */
  function SanitizeBody(value: string): (r: string)
    ensures AllOf(r, IsAllowed) && AllOf(r, PlainSpace)
    ensures |r| <= |value|
    ensures Filter(r, IsKept) == Filter(value, IsKept)
    ensures AllOf(value, IsForbidden) ==> r == []
    ensures AllOf(value, IsSpace) ==> r == []
  {
    var v1 := SpaceOutBreaks(value);
    var v2 := Squash(v1);
    FilterKeeps(v2, IsAllowed, PlainSpace);
    SanitizeKept(value, v1, v2);
    SanitizeNoContent(value, v1, v2);
    SanitizeBlank(value, v1, v2);
    Filter(v2, IsAllowed)
  }

  lemma {:induction false} SanitizeBlank(value: string, v1: string, v2: string)
    requires v1 == SpaceOutBreaks(value) && v2 == Squash(v1)
    ensures AllOf(value, IsSpace) ==> v2 == []
  {
    if AllOf(value, IsSpace) {
      assert AllOf(v1, IsSpace);
      SquashBlank(v1);
    }
  }

  /** The first content character of the value is no further from the start after the
      replacements and removals. */
  lemma {:induction false} SanitizeBodyWithin(value: string, n: int)
    requires SomeWithin(value, IsKept, n)
    ensures SomeWithin(SanitizeBody(value), IsKept, n)
  {
    var v1 := SpaceOutBreaks(value);
    var k :| 0 <= k < |value| && k < n && IsKept(value[k]);
    assert v1[k] == value[k];
    CollapseWithin(v1, IsSpace, ' ', IsKept, n);
    StripWithin(CollapseRuns(v1, IsSpace, ' '), IsKept, n);
    assert Squash(v1) == Strip(CollapseRuns(v1, IsSpace, ' '));
    FilterWithin(Squash(v1), IsAllowed, IsKept, n);
  }

  /** A cleaned value with a content character among its first `max_len` never falls
      back to `untitled`: the result is a prefix of the cleaned value, with a content
      character, whose content characters are a prefix of the value's. By
      `SanitizeBodyWithin`, this holds whenever the raw value has a content character
      among its first `max_len`. */
  lemma {:induction false} SanitizeKeepsContent(value: string, maxLen: int)
    requires SomeWithin(SanitizeBody(value), IsKept, maxLen)
    ensures SanitizeComponent(value, maxLen) <= SanitizeBody(value)
    ensures Filter(SanitizeComponent(value, maxLen), IsKept) != []
    ensures Filter(SanitizeComponent(value, maxLen), IsKept) <= Filter(value, IsKept)
  {
    var v := SanitizeBody(value);
    var cut := CutTitle(v, maxLen);
    CutWithin(v, maxLen);
    assert cut != "";
    assert SanitizeComponent(value, maxLen) == cut;
    FilterWithin(cut, IsKept, IsKept, |cut|);
  }

  /** Two forbidden characters with white space between them: the one shape of a value
      without content characters whose cleaned form is not empty. */
  predicate ForbiddenGap(s: string) {
    exists i, k, j :: 0 <= i < k < j < |s| && IsForbidden(s[i]) && IsSpace(s[k]) && IsForbidden(s[j])
  }

  /** The cleaned value is empty exactly when the value has no content character and no
      white space between two forbidden characters. */
  lemma {:induction false} SanitizeBodyEmpty(value: string)
    ensures SanitizeBody(value) == [] <==> NoneOf(value, IsKept) && !ForbiddenGap(value)
  {
    if !NoneOf(value, IsKept) {
      var i :| 0 <= i < |value| && IsKept(value[i]);
      FilterHas(value, IsKept, i);
    } else {
      NoContentBody(value);
    }
  }

  /** Without content characters, the cleaned value is white space, empty exactly when
      no white space lies between two forbidden characters. */
  lemma {:induction false} NoContentBody(value: string)
    requires NoneOf(value, IsKept)
    ensures AllOf(SanitizeBody(value), IsSpace)
    ensures SanitizeBody(value) == [] <==> !ForbiddenGap(value)
  {
    var v1 := SpaceOutBreaks(value);
    var v2 := Squash(v1);
    var b := SanitizeBody(value);
    assert b == Filter(v2, IsAllowed);
    FilterEmptyNone(value, IsKept);
    FilterEmptyNone(b, IsKept);
    FilterSpaceOutBreaks(value, IsKept);
    FilterSquash(v1, IsKept);
    FilterEmptyNone(v2, IsKept);
    GapSpaced(value);
    SquashInner(v1);
    SpacedBody(v2);
  }

  /** After tabs and breaks become spaces, a value without content characters has white
      space between two other characters exactly when it has a forbidden gap. */
  lemma {:induction false} GapSpaced(value: string)
    requires NoneOf(value, IsKept)
    ensures ForbiddenGap(value) <==> InnerSpace(SpaceOutBreaks(value))
  {
    if ForbiddenGap(value) {
      GapInner(value);
    }
    if InnerSpace(SpaceOutBreaks(value)) {
      InnerGap(value);
    }
  }

  lemma {:induction false} GapInner(value: string)
    requires NoneOf(value, IsKept) && ForbiddenGap(value)
    ensures InnerSpace(SpaceOutBreaks(value))
  {
    var v1 := SpaceOutBreaks(value);
    var i, k, j :| 0 <= i < k < j < |value| && IsForbidden(value[i]) && IsSpace(value[k]) && IsForbidden(value[j]);
    BreakSpace(value, i);
    BreakSpace(value, k);
    BreakSpace(value, j);
    assert !IsSpace(v1[i]) && IsSpace(v1[k]) && !IsSpace(v1[j]);
  }

  lemma {:induction false} InnerGap(value: string)
    requires NoneOf(value, IsKept) && InnerSpace(SpaceOutBreaks(value))
    ensures ForbiddenGap(value)
  {
    var v1 := SpaceOutBreaks(value);
    var i, k, j :| 0 <= i < k < j < |v1| && !IsSpace(v1[i]) && IsSpace(v1[k]) && !IsSpace(v1[j]);
    BreakSpace(value, i);
    BreakSpace(value, k);
    BreakSpace(value, j);
    assert IsForbidden(value[i]) && IsSpace(value[k]) && IsForbidden(value[j]);
  }

  /** A character other than content is white space after the replacements exactly when
      it was before, and forbidden otherwise. */
  lemma {:induction false} BreakSpace(value: string, x: nat)
    requires x < |value| && !IsKept(value[x])
    ensures IsSpace(SpaceOutBreaks(value)[x]) <==> IsSpace(value[x])
    ensures !IsSpace(value[x]) <==> IsForbidden(value[x])
  {
  }

  /** Without content characters, removing the forbidden characters leaves nothing
      exactly when there is no space. */
  lemma {:induction false} SpacedBody(v: string)
    requires NoneOf(v, IsKept) && AllOf(v, PlainSpace)
    ensures Filter(v, IsAllowed) == [] <==> ' ' !in v
  {
    FilterEmptyNone(v, IsAllowed);
    forall x | 0 <= x < |v| ensures IsAllowed(v[x]) <==> v[x] == ' ' {
    }
  }

  /** A value without content characters sanitizes to `untitled` exactly when no white
      space lies between two forbidden characters or the remaining spaces are cut away;
      otherwise it sanitizes to spaces. */
  lemma {:induction false} SanitizeNoContentResult(value: string, maxLen: int)
    requires NoneOf(value, IsKept)
    ensures SanitizeComponent(value, maxLen) == Untitled <==> !ForbiddenGap(value) || |SanitizeBody(value)| > maxLen
    ensures SanitizeComponent(value, maxLen) != Untitled ==> AllOf(SanitizeComponent(value, maxLen), IsSpace)
  {
    var b := SanitizeBody(value);
    var r := SanitizeComponent(value, maxLen);
    NoContentBody(value);
    var y := PyPrefix(b, maxLen);
    forall x | 0 <= x < |y| ensures !IsKept(y[x]) {
      assert y[x] == b[x];
    }
    assert FallsBack(b, maxLen) <==> b == [] || |b| > maxLen;
    if !FallsBack(b, maxLen) {
      forall x | 0 <= x < |r| ensures IsSpace(r[x]) {
        assert r[x] == b[x];
      }
      assert Untitled[0] == 'u';
    }
  }

  /** `" :"` sanitizes to `untitled`: the space is stripped before the colon goes. */
  lemma {:induction false} EdgeSpaceFallsBack()
    ensures SanitizeComponent(" :", 80) == Untitled
  {
    var v := " :";
    assert v[0] == ' ' && v[1] == ':';
    assert NoneOf(v, IsKept);
    SanitizeNoContentResult(v, 80);
  }

  /** Without white space, the cleaned value is the value's content characters. */
  lemma {:induction false} SanitizeBodyNoSpace(value: string)
    requires NoneOf(value, IsSpace)
    ensures SanitizeBody(value) == Filter(value, IsKept)
  {
    assert NoneOf(value, IsTabOrBreak);
    SpaceOutNone(value);
    var f := Filter(value, IsAllowed);
    FilterKeeps(value, IsAllowed, NotSpace);
    assert AllOf(f, IsKept);
    FilterFilter(value, IsAllowed, IsKept);
  }

  /** Forbidden characters before a word that fits are removed, however many there are:
      the result is the word. */
  lemma {:induction false} ForbiddenThenWord(f: string, x: string, maxLen: int)
    requires AllOf(f, IsForbidden) && x != [] && AllOf(x, IsKept) && |x| <= maxLen
    ensures SanitizeComponent(f + x, maxLen) == x
  {
    var v := f + x;
    forall i | 0 <= i < |v| ensures !IsSpace(v[i]) {
      if i < |f| {
        assert v[i] == f[i];
      } else {
        assert v[i] == x[i - |f|];
      }
    }
    SanitizeBodyNoSpace(v);
    FilterConcat(f, x, IsKept);
    FilterNone(f, IsKept);
    assert SanitizeBody(v) == x;
  }

  /** Ten colons before `a` with `max_len` 8 sanitize to `"a"`. */
  lemma {:induction false} ColonsThenWord()
    ensures SanitizeComponent("::::::::::a", 8) == "a"
  {
    var v := "::::::::::a";
    var f := v[..10];
    ColonsForbidden(f);
    assert v == f + "a";
    ForbiddenThenWord(f, "a", 8);
  }

  lemma {:induction false} ColonsForbidden(f: string)
    requires f == "::::::::::a"[..10]
    ensures AllOf(f, IsForbidden)
  {
    forall x | 0 <= x < |f| ensures IsForbidden(f[x]) {
      assert f[x] == ':';
    }
  }
  /** `"helloworld"` with `max_len` 5 gives `"hello"`: the cut keeps all of the first
      five characters. */
  lemma {:induction false} CutKeepsPrefix()
    ensures SanitizeComponent("helloworld", 5) == "hello"
  {
    var b := SanitizeBody("helloworld");
    HelloBody();
    HelloCut(b);
    var r := SanitizeComponent("helloworld", 5);
    RStripOf("hello", r);
    RStripOf("hello", "hello");
  }

  lemma {:induction false} HelloBody()
    ensures SanitizeBody("helloworld") == "helloworld"
  {
    var v := "helloworld";
    assert AllOf(v, IsKept) by {
      forall x | 0 <= x < |v| ensures IsKept(v[x]) {
        assert 'a' <= v[x] <= 'z';
      }
    }
    SanitizeBodyNoSpace(v);
  }

  lemma {:induction false} HelloCut(b: string)
    requires b == "helloworld"
    ensures PyPrefix(b, 5) == "hello" && !FallsBack(b, 5)
    ensures IsRStripOf("hello", "hello")
  {
    assert PyPrefix(b, 5) == b[..5] == "hello";
    assert IsKept(b[0]);
  }

  /** `"a :"` gives `"a "`: a value that fits is not right-stripped after the colon goes. */
  lemma {:induction false} TrailingSpaceKept()
    ensures SanitizeComponent("a :", 80) == "a "
  {
    TrailBody();
    assert !FallsBack("a ", 80);
  }

  lemma {:induction false} TrailBody()
    ensures SanitizeBody("a :") == "a "
  {
    var v := "a :";
    assert NoneOf(v, IsTabOrBreak) by {
      assert v[0] == 'a' && v[1] == ' ' && v[2] == ':';
    }
    SpaceOutNone(v);
    TrailSquash();
    TrailFilter();
  }

  lemma {:induction false} TrailSquash()
    ensures Squash("a :") == "a :"
  {
    var v := "a :";
    assert !IsSpace(v[0]) && !IsSpace(v[2]) && v[1] == ' ';
    assert WsNormal(v);
    SquashFixedPoints(v);
  }

  lemma {:induction false} TrailFilter()
    ensures Filter("a :", IsAllowed) == "a "
  {
    assert "a :" == ['a'] + " :";
    FilterConcat(['a'], " :", IsAllowed);
    assert " :" == [' '] + ":";
    FilterConcat([' '], ":", IsAllowed);
  }




  /** Cutting to `max_len` keeps a content character found before the cut. */
  lemma {:induction false} CutWithin(v: string, maxLen: int)
    requires SomeWithin(v, IsKept, maxLen)
    ensures SomeWithin(CutTitle(v, maxLen), IsKept, maxLen)
  {
    if |v| > maxLen {
      var cut := PyPrefix(v, maxLen);
      var k :| 0 <= k < |v| && k < maxLen && IsKept(v[k]);
      assert cut[k] == v[k];
      TrimWithin(cut, IsSpace, IsKept, maxLen);
    }
  }

  lemma {:induction false} SanitizeKept(value: string, v1: string, v2: string)
    requires v1 == SpaceOutBreaks(value) && v2 == Squash(v1)
    ensures Filter(Filter(v2, IsAllowed), IsKept) == Filter(value, IsKept)
  {
    FilterSpaceOutBreaks(value, IsKept);
    FilterSquash(v1, IsKept);
    FilterFilter(v2, IsAllowed, IsKept);
  }

  lemma {:induction false} SanitizeNoContent(value: string, v1: string, v2: string)
    requires v1 == SpaceOutBreaks(value) && v2 == Squash(v1)
    ensures AllOf(value, IsForbidden) ==> Filter(v2, IsAllowed) == []
  {
    if AllOf(value, IsForbidden) {
      ForbiddenOnly(value);
      SpaceOutNone(value);
      assert v2 == value;
      FilterNone(value, IsAllowed);
    }
  }

  lemma {:induction false} ForbiddenOnly(value: string)
    requires AllOf(value, IsForbidden)
    ensures NoneOf(value, IsSpace) && NoneOf(value, IsAllowed) && NoneOf(value, IsTabOrBreak)
  {
  }

  lemma {:induction false} SpaceOutNone(s: string)
    requires NoneOf(s, IsTabOrBreak)
    ensures SpaceOutBreaks(s) == s
  {
  }

  /** The cut of `_sanitize_component`: a value longer than `max_len` is cut to
      `max_len` (Python slicing) and right-stripped. The result is a prefix of the value
      that fits, keeps its character classes, and whose content characters are a prefix
      of the value's. A value that fits is kept whole; a longer one keeps its first
      `max_len` characters less their trailing white space. */
  function CutTitle(v: string, maxLen: int): (r: string)
    ensures r <= v
    ensures maxLen >= 0 ==> |r| <= maxLen
    ensures |v| <= maxLen ==> r == v
    ensures |v| > maxLen ==> IsRStripOf(r, PyPrefix(v, maxLen))
    ensures Filter(r, IsKept) <= Filter(v, IsKept)
    ensures AllOf(v, IsAllowed) && AllOf(v, PlainSpace) ==> AllOf(r, IsAllowed) && AllOf(r, PlainSpace)
  {
    if |v| > maxLen then
      var cut := PyPrefix(v, maxLen);
      CutTitleFacts(v, cut);
      RStrip(cut)
    else v
  }

  lemma {:induction false} CutTitleFacts(v: string, cut: string)
    requires cut <= v
    ensures RStrip(cut) <= v
    ensures Filter(RStrip(cut), IsKept) <= Filter(v, IsKept)
    ensures AllOf(v, IsAllowed) && AllOf(v, PlainSpace) ==> AllOf(RStrip(cut), IsAllowed) && AllOf(RStrip(cut), PlainSpace)
    ensures IsRStripOf(RStrip(cut), cut)
  {
    RStripOf(cut, RStrip(cut));
    assert cut == v[..|cut|];
    FilterRStrip(cut, IsKept);
    FilterPrefix(v, |cut|, IsKept);
  }

  /** Removing forbidden characters after collapsing white space can leave a lone space:
      `": :"` sanitizes to `" "`, not to the fallback. */
  lemma {:induction false} SanitizeMayLeaveBlank()
    ensures SanitizeComponent(": :", 80) == " "
  {
    BlankBody();
    assert CutTitle(" ", 80) == " ";
  }

  lemma {:induction false} BlankBody()
    ensures SanitizeBody(": :") == " "
  {
    var v := ": :";
    assert NoneOf(v, IsTabOrBreak) by {
      assert v[0] == ':' && v[1] == ' ' && v[2] == ':';
    }
    SpaceOutNone(v);
    var v1 := SpaceOutBreaks(v);
    BlankSquash();
    var v2 := Squash(v1);
    assert v2 == v;
    BlankFilter();
  }

  lemma {:induction false} BlankSquash()
    ensures Squash(": :") == ": :"
  {
    var v := ": :";
    assert !IsSpace(v[0]) && !IsSpace(v[2]) && v[1] == ' ';
    assert WsNormal(v);
    SquashFixedPoints(v);
  }

  lemma {:induction false} BlankFilter()
    ensures Filter(": :", IsAllowed) == " "
  {
    assert ": :" == [':'] + " :";
    FilterConcat([':'], " :", IsAllowed);
    assert " :" == [' '] + ":";
    FilterConcat([' '], ":", IsAllowed);
  }

  /** A complete tag starts at `i`: `<`, at least one character other than `>`, then `>`
      (the pattern `<[^>]+>`). */
  predicate TagAt(s: string, i: nat)
    requires i < |s|
  {
    s[i] == '<' && 2 <= IndexOf(s[i..], '>') < |s| - i
  }

  lemma {:induction false} TagAtShift(a: string, b: string, i: nat)
    requires i < |b|
    ensures TagAt(a + b, |a| + i) == TagAt(b, i)
  {
    assert (a + b)[|a| + i..] == b[i..];
  }

  /** No complete tag starts anywhere in `s`. */
  predicate NoTags(s: string) {
    forall i :: 0 <= i < |s| ==> !TagAt(s, i)
  }

  /** The first substitution of `_clean_preview`: every tag, scanning left to right,
      becomes one space. No tag is left in the result, nothing longer comes out, and
      text without `<` is kept. */
  function StripTags(s: string): (r: string)
    ensures NoTags(r)
    ensures |r| <= |s|
    ensures '>' in r ==> '>' in s
    ensures |s| > 0 && s[0] != '<' ==> |r| > 0 && r[0] == s[0]
    ensures '<' !in s ==> r == s
    decreases |s|
  {
    if |s| == 0 then []
    else if TagAt(s, 0) then
      var rest := StripTags(s[IndexOf(s, '>') + 1..]);
      NoTagAfter(" ", rest);
      NoTagAtSpace(rest);
      " " + rest
    else
      var rest := StripTags(s[1..]);
      NoTagAfter([s[0]], rest);
      NoTagAtFirst(s, rest);
      [s[0]] + rest
  }

  /** A string starting with a space has no tag at its start. */
  lemma {:induction false} NoTagAtSpace(rest: string)
    requires NoTags(rest)
    ensures NoTags(" " + rest)
  {
    NoTagAfter(" ", rest);
    var t := " " + rest;
    assert t[0] == ' ';
  }

  /** Keeping a first character that starts no tag in `s` starts none in the result. */
  lemma {:induction false} NoTagAtFirst(s: string, rest: string)
    requires |s| > 0 && !TagAt(s, 0)
    requires NoTags(rest)
    requires '>' in rest ==> '>' in s[1..]
    requires |s| > 1 && s[1] != '<' ==> |rest| > 0 && rest[0] == s[1]
    ensures NoTags([s[0]] + rest)
  {
    NoTagAfter([s[0]], rest);
    var t := [s[0]] + rest;
    if s[0] == '<' {
      var k := IndexOf(s, '>');
      assert s[0..] == s;
      assert t[0..] == t;
      if k < |s| {
        assert k == 1 && s[1] == '>';
        assert t[1] == '>';
        assert IndexOf(t, '>') == 1;
      } else {
        assert '>' !in s[1..] by {
          assert k >= |s|;
          IndexOfBefore(s, '>');
          forall j | 0 <= j < |s| - 1 ensures s[1..][j] != '>' {
            assert s[1..][j] == s[j + 1];
          }
        }
        assert '>' !in t;
        assert IndexOf(t, '>') == |t|;
      }
    }
  }

  lemma {:induction false} NoTagAfter(a: string, b: string)
    requires |a| == 1
    requires NoTags(b)
    ensures forall i :: 1 <= i < |a + b| ==> !TagAt(a + b, i)
  {
    forall i | 1 <= i < |a + b| ensures !TagAt(a + b, i) {
      TagAtShift(a, b, i - 1);
    }
  }

  /** The element names `_clean_preview` removes when they stand alone as words. */
  const HtmlWords: set<string> := {
    "div", "span", "p", "br", "hr", "script", "style", "table", "tr", "td", "thead",
    "tbody", "tfoot", "ul", "ol", "li", "html", "body", "head", "meta", "link", "img",
    "a", "strong", "em", "b", "i", "u"
  }

  /** Length of the run of ASCII letters that starts `s`. */
  function LetterRun(s: string): (n: nat)
    ensures n <= |s|
    ensures forall i :: 0 <= i < n ==> IsAsciiLetter(s[i])
    ensures n < |s| ==> !IsAsciiLetter(s[n])
    decreases |s|
  {
    if |s| > 0 && IsAsciiLetter(s[0]) then 1 + LetterRun(s[1..]) else 0
  }

  /** `h1` … `h6` (either case of `h`) not followed by a letter. */
  predicate HeadingAt(s: string) {
    |s| >= 2 && (s[0] == 'h' || s[0] == 'H') && '1' <= s[1] <= '6' && (|s| == 2 || !IsAsciiLetter(s[2]))
  }

  /** The second substitution of `_clean_preview`: a word of ASCII letters that is an
      element name (any case), or `h1`..`h6` followed by no letter, becomes one space.
      The lookbehind means a match starts only where no ASCII letter precedes, so the
      scan only ever tests whole letter runs. */
  function DropHtmlWords(s: string): (r: string)
    ensures |r| <= |s|
    ensures NoneOf(s, IsAsciiLetter) ==> r == s
    decreases |s|
  {
    if |s| == 0 then []
    else if !IsAsciiLetter(s[0]) then [s[0]] + DropHtmlWords(s[1..])
    else
      var n := LetterRun(s);
      if LowerStr(s[..n]) in HtmlWords then " " + DropHtmlWords(s[n..])
      else if HeadingAt(s) then " " + DropHtmlWords(s[2..])
      else s[..n] + DropHtmlWords(s[n..])
  }

  /** `_clean_preview`: tags and stray element names become spaces, then white space is
      collapsed and stripped. The result is in white-space normal form and never longer
      than the text. */
  function CleanPreview(text: string): (r: string)
    ensures WsNormal(r)
    ensures |r| <= |text|
  {
    Squash(DropHtmlWords(StripTags(text)))
  }

  /** A clean preview is already in white-space normal form: collapsing again changes
      nothing. */
  lemma {:induction false} CleanPreviewIsSquashed(text: string)
    ensures Squash(CleanPreview(text)) == CleanPreview(text)
  {
    SquashFixedPoints(CleanPreview(text));
  }
}

=== FILE: note.dfy ===
/** `Storage.save_markdown_message`: one incoming message becomes a Markdown note in the
    storage directory, after its byte attachments have been written to the attachments
    directory. The builder is modelled as a pure function of the message, the two clock
    readings, the html-to-text converter and the uuid stream. It returns the note path,
    the note's lines and the file writes in the order the code performs them; the file
    system is a map from paths to contents that the writes update in that order. */
module Note {

  import opened Wrappers
  import opened Text
  import opened Names
  import opened Forward
  import opened Clock

  newtype byte = x: int | 0 <= x < 256

  /** A byte attachment `(original_name, blob)`. */
  datatype Attachment = Attachment(name: string, blob: seq<byte>)

  /** A file the caller stored already: `(display_name, saved_name)`. */
  datatype PreSaved = PreSaved(display: string, saved: string)

  /** The two keys of `extra_meta` the builder reads; a missing key is `None`. */
  datatype Meta = Meta(explicitTitle: Option<string>, titleLabel: Option<string>)

  /** The arguments of `save_markdown_message`. `sender` is accepted and never used. */
  datatype Message = Message(
    source: string,
    sender: string,
    subject: Option<string>,
    textBody: Option<string>,
    htmlBody: Option<string>,
    attachments: Option<seq<Attachment>>,
    extraMeta: Option<Meta>,
    preSavedNames: Option<seq<string>>,
    preSaved: Option<seq<PreSaved>>)

  datatype Storage = Storage(baseDir: string, attachmentsDir: string)

  /** What the builder takes from outside: the clock reading used for the file name, the
      one used for the date in the note, `html2text` (which may fail) and the values
      successive `uuid.uuid4()` calls return. */
  datatype World = World(
    nameClock: DateTime,
    dateClock: DateTime,
    htmlToText: string -> Option<string>,
    uuids: nat -> UuidHex)
  {
    predicate Valid() {
      nameClock.Valid() && dateClock.Valid()
    }
  }

  datatype Content = Binary(bytes: seq<byte>) | Markdown(text: string)

  datatype Write = Write(path: string, content: Content)

  /** The note path the builder returns, the note's lines and every write, in order. */
  datatype Saved = Saved(path: string, lines: seq<string>, writes: seq<Write>)

  type Files = map<string, Content>

  // ---------------------------------------------------------------- paths

  /** `os.path.join(a, b)` on POSIX: an absolute `b` replaces `a`; otherwise `/` is put
      between the two unless `a` is empty or already ends with one. */
  function PathJoin(a: string, b: string): string {
    if |b| > 0 && b[0] == '/' then b
    else if a == "" || a[|a| - 1] == '/' then a + b
    else a + "/" + b
  }

  /** `os.path.basename`: the text after the last `/`. */
  function BaseName(p: string): string
    decreases |p|
  {
    if |p| == 0 || p[|p| - 1] == '/' then "" else BaseName(p[..|p| - 1]) + [p[|p| - 1]]
  }

  /** Joining a name without `/` to any directory gives a path whose last component is
      that name: the file lands directly in the directory. */
  lemma {:induction false} JoinBaseName(a: string, b: string)
    requires '/' !in b
    ensures BaseName(PathJoin(a, b)) == b
  {
    var d := if a == "" || a[|a| - 1] == '/' then a else a + "/";
    assert PathJoin(a, b) == d + b;
    BaseNameAfterSlash(d, b);
  }

  lemma {:induction false} BaseNameAfterSlash(d: string, b: string)
    requires d == "" || d[|d| - 1] == '/'
    requires '/' !in b
    ensures BaseName(d + b) == b
    decreases |b|
  {
    if |b| == 0 {
      assert d + b == d;
    } else {
      var k := |b| - 1;
      assert (d + b)[..|d + b| - 1] == d + b[..k];
      assert (d + b)[|d + b| - 1] == b[k];
      BaseNameAfterSlash(d, b[..k]);
      assert b == b[..k] + [b[k]];
    }
  }

  /** `Storage.__init__`: the attachments directory is the sub-directory joined to the
      base directory. */
  function NewStorage(baseDir: string, attachmentsSubdir: string): (st: Storage)
    ensures st.baseDir == baseDir
    ensures '/' !in attachmentsSubdir ==> BaseName(st.attachmentsDir) == attachmentsSubdir
  {
    assert '/' !in attachmentsSubdir ==> BaseName(PathJoin(baseDir, attachmentsSubdir)) == attachmentsSubdir by {
      if '/' !in attachmentsSubdir {
        JoinBaseName(baseDir, attachmentsSubdir);
      }
    }
    Storage(baseDir, PathJoin(baseDir, attachmentsSubdir))
  }

  // ---------------------------------------------------------------- body and names

  /** The body before the forward banner is removed: a text body when there is one;
      otherwise the html body converted to text, or the html itself when conversion
      fails; and "" when there is neither. */
  function RawBody(m: Message, htmlToText: string -> Option<string>): (r: string)
    ensures Truthy(m.textBody) ==> r == m.textBody.value
    ensures !Truthy(m.textBody) && !Truthy(m.htmlBody) ==> r == ""
    ensures !Truthy(m.textBody) && Truthy(m.htmlBody) ==>
              r == htmlToText(m.htmlBody.value).GetOr(m.htmlBody.value)
  {
    var t := if !Truthy(m.textBody) && Truthy(m.htmlBody) then
               Some(htmlToText(m.htmlBody.value).GetOr(m.htmlBody.value))
             else m.textBody;
    t.GetOr("")
  }

  /** The body written into the note. */
  function NoteBody(m: Message, htmlToText: string -> Option<string>): string {
    StripForwardHeaders(RawBody(m, htmlToText))
  }

  const MailDefault := "Письмо"
  const TelegramDefault := "Сообщение"

  /** A usable file-name part: non-empty, free of forbidden characters, at most 100 long. */
  predicate GoodPart(t: string, maxLen: nat) {
    t != "" && AllOf(t, IsAllowed) && |t| <= maxLen
  }

  /** What the file name is computed from: the channel, the subject, the html body,
      the two `extra_meta` keys and the first attachment's name. */
  datatype NameParts = NameParts(
    telegram: bool,
    subject: Option<string>,
    htmlBody: Option<string>,
    explicitTitle: Option<string>,
    titleLabel: Option<string>,
    firstAttachment: Option<string>)

  function NamePartsOf(m: Message): NameParts {
    NameParts(m.source == "telegram", m.subject, m.htmlBody, ExplicitTitle(m), TitleLabel(m), FirstAttachmentName(m))
  }

  /** The sanitised subject, or the sanitised default when the subject is empty. */
  function SafeSubject(n: NameParts): (r: string)
    ensures GoodPart(r, 100)
  {
    SanitizeComponent(if Truthy(n.subject) then n.subject.value else MailDefault, 100)
  }

  /** `_sanitize_component(s[:30], max_len=40)`, the form every short title takes. */
  function ShortTitle(s: string): (r: string)
    ensures GoodPart(r, 40)
    ensures AllOf(PyPrefix(s, 30), IsSpace) ==> r == Untitled
  {
    SanitizeComponent(PyPrefix(s, 30), 40)
  }

  /** The text the preview is cut from: the body, else the html body, else "". */
  function PreviewSource(n: NameParts, body: string): string {
    if body != "" then body else if Truthy(n.htmlBody) then n.htmlBody.value else ""
  }

  /** The text preview: "untitled", and not the mail default, when nothing of the
      source survives cleaning. */
  function TextPreview(n: NameParts, body: string): (r: string)
    ensures GoodPart(r, 40)
    ensures CleanPreview(PreviewSource(n, body)) == "" ==> r == Untitled
  {
    ShortTitle(CleanPreview(PreviewSource(n, body)))
  }

  function ExplicitTitle(m: Message): Option<string> {
    if m.extraMeta.Some? then m.extraMeta.value.explicitTitle else None
  }

  function TitleLabel(m: Message): Option<string> {
    if m.extraMeta.Some? then m.extraMeta.value.titleLabel else None
  }

  /** A list argument that is present and non-empty. */
  predicate Listed<T>(o: Option<seq<T>>) {
    o.Some? && |o.value| > 0
  }

  /** The name of the first attachment, from the first list that has one: the display
      name (else the saved name) of the first pre-saved file, else the first pre-saved
      name, else the name of the first byte attachment. */
  function FirstAttachmentName(m: Message): Option<string> {
    if Listed(m.preSaved) then
      var p := m.preSaved.value[0];
      Some(if p.display != "" then p.display else p.saved)
    else if Listed(m.preSavedNames) then Some(m.preSavedNames.value[0])
    else if Listed(m.attachments) then Some(m.attachments.value[0].name)
    else None
  }

  function Candidate(o: Option<string>): (r: Option<string>)
    ensures r.Some? ==> GoodPart(r.value, 40)
  {
    if Truthy(o) then Some(ShortTitle(o.value)) else None
  }

  /** The title candidates of a Telegram note, highest priority first: the explicit
      title, the text preview of a non-blank body unless it reads "untitled" in any
      case, the type label, and the first attachment's name. */
  function TitleCandidates(n: NameParts, body: string, preview: string): (r: seq<Option<string>>)
    ensures |r| == 4
    ensures GoodPart(preview, 40) ==> AllGood(r)
  {
    [ Candidate(n.explicitTitle),
      if Strip(body) != "" && LowerStr(preview) != Untitled then Some(preview) else None,
      Candidate(n.titleLabel),
      Candidate(n.firstAttachment) ]
  }

  /** Every present candidate is a usable short title. */
  predicate AllGood(cs: seq<Option<string>>) {
    forall i :: 0 <= i < |cs| && cs[i].Some? ==> GoodPart(cs[i].value, 40)
  }

  lemma {:induction false} PresentIsGood(cs: seq<Option<string>>, r: string)
    requires AllGood(cs) && Some(r) in cs
    ensures GoodPart(r, 40)
  {
  }

  /** No candidate before index `i`. */
  predicate NoneBefore(cs: seq<Option<string>>, i: nat)
    requires i <= |cs|
  {
    forall j :: 0 <= j < i ==> cs[j].None?
  }

  /** The first present candidate, or the default when there is none. */
  function FirstPresent(cs: seq<Option<string>>, default: string): (r: string)
    ensures r == default || Some(r) in cs
    ensures NoneBefore(cs, |cs|) ==> r == default
    decreases |cs|
  {
    if |cs| == 0 then default
    else if cs[0].Some? then cs[0].value
    else
      var r := FirstPresent(cs[1..], default);
      assert Some(r) in cs[1..] ==> Some(r) in cs;
      assert NoneBefore(cs, |cs|) ==> NoneBefore(cs[1..], |cs| - 1) by {
        if NoneBefore(cs, |cs|) {
          forall j | 0 <= j < |cs| - 1 ensures cs[1..][j].None? {
            assert cs[1..][j] == cs[j + 1];
          }
        }
      }
      r
  }

  /** The candidate at index `k` wins when every candidate before it is absent. */
  lemma {:induction false} FirstPresentAt(cs: seq<Option<string>>, default: string, k: nat)
    requires k < |cs| && NoneBefore(cs, k) && cs[k].Some?
    ensures FirstPresent(cs, default) == cs[k].value
    decreases k
  {
    if k > 0 {
      assert cs[0].None?;
      assert NoneBefore(cs[1..], k - 1) by {
        forall j | 0 <= j < k - 1 ensures cs[1..][j].None? {
          assert cs[1..][j] == cs[j + 1];
        }
      }
      FirstPresentAt(cs[1..], default, k - 1);
    }
  }

  /** The name a Telegram note is filed under: always a usable short title. */
  function TelegramTitle(n: NameParts, body: string, preview: string): (r: string)
    requires GoodPart(preview, 40)
    ensures GoodPart(r, 40)
  {
    var cs := TitleCandidates(n, body, preview);
    var r := FirstPresent(cs, TelegramDefault);
    assert GoodPart(r, 40) by {
      if r != TelegramDefault {
        PresentIsGood(cs, r);
      } else {
        TelegramDefaultGood();
      }
    }
    r
  }

  lemma {:induction false} TelegramDefaultGood()
    ensures GoodPart(TelegramDefault, 40)
  {
  }

  /** The title chain follows its priority order: the first candidate present wins, and
      the default applies only when there is none. */
  lemma {:induction false} TelegramTitlePriority(n: NameParts, body: string, preview: string, k: nat)
    requires GoodPart(preview, 40)
    requires k < 4
    ensures var cs := TitleCandidates(n, body, preview);
            (NoneBefore(cs, k) && cs[k].Some? ==> TelegramTitle(n, body, preview) == cs[k].value)
            && (NoneBefore(cs, 4) ==> TelegramTitle(n, body, preview) == TelegramDefault)
  {
    var cs := TitleCandidates(n, body, preview);
    if NoneBefore(cs, k) && cs[k].Some? {
      FirstPresentAt(cs, TelegramDefault, k);
    }
  }

  /** Python's `s or fallback` on strings. */
  function Or(s: string, fallback: string): string {
    if s != "" then s else fallback
  }

  /** The file name of the note: `"<title> - <timestamp>.md"` for Telegram and
      `"<subject> - <preview> - <timestamp>.md"` otherwise. */
  function NoteFileName(n: NameParts, body: string, stamp: string): (r: string)
    ensures AllOf(stamp, IsAllowed) ==> AllOf(r, IsAllowed)
    ensures ' ' in r
  {
    var preview := TextPreview(n, body);
    if n.telegram then TelegramFileName(TelegramTitle(n, body, preview), stamp)
    else MailFileName(SafeSubject(n), preview, stamp)
  }

  /** `f"{file_base} - {timestamp}.md"` with `file_base = preview_for_name or "untitled"`;
      the title is never empty, so the fallback never applies. */
  function TelegramFileName(title: string, stamp: string): (r: string)
    requires GoodPart(title, 40)
    ensures r == title + " - " + stamp + ".md"
    ensures AllOf(stamp, IsAllowed) ==> AllOf(r, IsAllowed)
    ensures ' ' in r
  {
    var tail := " - " + stamp + ".md";
    TailChars(stamp, ".md");
    NameChars(title, tail, stamp);
    Or(title, Untitled) + tail
  }

  /** `f"{base_subject} - {base_preview} - {timestamp}.md"`, whose `or "Письмо"`
      fallbacks never apply because both parts are never empty. */
  function MailFileName(subject: string, preview: string, stamp: string): (r: string)
    requires GoodPart(subject, 100) && GoodPart(preview, 40)
    ensures r == subject + " - " + preview + " - " + stamp + ".md"
    ensures AllOf(stamp, IsAllowed) ==> AllOf(r, IsAllowed)
    ensures ' ' in r
  {
    var tail := " - " + preview + " - " + stamp + ".md";
    TailChars(stamp, ".md");
    TailChars(preview, " - " + stamp + ".md");
    NameChars(subject, tail, stamp);
    Or(subject, MailDefault) + " - " + Or(preview, MailDefault) + " - " + stamp + ".md"
  }

  lemma {:induction false} TailChars(a: string, b: string)
    ensures AllOf(a, IsAllowed) && AllOf(b, IsAllowed) ==> AllOf(" - " + a + b, IsAllowed)
  {
    if AllOf(a, IsAllowed) && AllOf(b, IsAllowed) {
      AllOfConcat(" - ", a, IsAllowed);
      AllOfConcat(" - " + a, b, IsAllowed);
    }
  }

  /** A name made of a usable part and a tail starting with `" - "` that holds no
      forbidden character beyond those of the timestamp. */
  lemma {:induction false} NameChars(part: string, tail: string, stamp: string)
    requires GoodPart(part, 100) && |tail| > 0 && tail[0] == ' '
    requires AllOf(stamp, IsAllowed) ==> AllOf(tail, IsAllowed)
    ensures AllOf(stamp, IsAllowed) ==> AllOf(part + tail, IsAllowed)
    ensures ' ' in part + tail
  {
    assert (part + tail)[|part|] == ' ';
    if AllOf(stamp, IsAllowed) {
      AllOfConcat(part, tail, IsAllowed);
    }
  }

  // ---------------------------------------------------------------- attachments

  predicate IsEmpty(s: string) {
    s == ""
  }

  /** The uuid index element `i` of a list uses when it draws one: `next` plus the
      number of earlier elements that drew. */
  function TokenAt<T>(s: seq<T>, draws: T -> bool, next: nat, i: nat): nat
    requires i <= |s|
  {
    next + |Filter(s[..i], draws)|
  }

  /** Every uuid drawn is a fresh one: a later element that draws uses a later index
      than an earlier one that drew. */
  lemma {:induction false} TokensFresh<T>(s: seq<T>, draws: T -> bool, next: nat, i: nat, j: nat)
    requires i < j <= |s| && draws(s[i])
    ensures TokenAt(s, draws, next, i) < TokenAt(s, draws, next, j)
  {
    assert s[..j] == s[..i] + s[i..j];
    FilterConcat(s[..i], s[i..j], draws);
    assert s[i..j] == [s[i]] + s[i + 1..j];
    FilterConcat([s[i]], s[i + 1..j], draws);
  }

  /** `saved_name or uuid.uuid4().hex`. */
  function LinkName(saved: string, token: UuidHex): string {
    if saved != "" then saved else token
  }

  /** The link names of the pre-saved files, in order; each empty name takes the next
      fresh uuid. */
  function LinkNames(saved: seq<string>, uuids: nat -> UuidHex, next: nat): (r: seq<string>)
    ensures |r| == |saved|
  {
    seq(|saved|, i requires 0 <= i < |saved| => LinkName(saved[i], uuids(TokenAt(saved, IsEmpty, next, i))))
  }

  /** A byte attachment draws a uuid when it has no name, and when its name slugifies
      to nothing. */
  predicate Draws(a: Attachment) {
    a.name == "" || SlugUsesToken(a.name)
  }

  /** `_slugify(original_name) if original_name else uuid.uuid4().hex`: a slug of at
      most 80 characters, never empty. */
  function SafeName(name: string, token: UuidHex): (r: string)
    ensures 1 <= |r| <= SlugMaxLen && AllOf(r, IsSlugChar)
  {
    if name != "" then Slugify(name, token)
    else HexSlug(token); token
  }

  /** The stored names of the byte attachments, in order. */
  function SafeNames(atts: seq<Attachment>, uuids: nat -> UuidHex, next: nat): (r: seq<string>)
    ensures |r| == |atts|
  {
    seq(|atts|, i requires 0 <= i < |atts| => SafeName(atts[i].name, uuids(TokenAt(atts, Draws, next, i))))
  }

  /** Two byte attachments with the same name that draws no uuid get the same stored
      name. */
  lemma {:induction false} SameNameSameFile(atts: seq<Attachment>, uuids: nat -> UuidHex, next: nat, i: nat, j: nat)
    requires i < |atts| && j < |atts|
    requires atts[i].name == atts[j].name && !Draws(atts[i])
    ensures SafeNames(atts, uuids, next)[i] == SafeNames(atts, uuids, next)[j]
  {
    SlugifyToken(atts[i].name, uuids(TokenAt(atts, Draws, next, i)), uuids(TokenAt(atts, Draws, next, j)));
  }

  function Atts(m: Message): seq<Attachment> {
    if m.attachments.Some? then m.attachments.value else []
  }

  /** The list the pre-saved links come from: the saved names of `pre_saved_attachments`
      when it is non-empty, else `pre_saved_attachment_names`, else nothing. */
  function PreSavedSource(m: Message): seq<string> {
    if Listed(m.preSaved) then seq(|m.preSaved.value|, i requires 0 <= i < |m.preSaved.value| => m.preSaved.value[i].saved)
    else if Listed(m.preSavedNames) then m.preSavedNames.value
    else []
  }

  predicate HasAnyAttachments(m: Message) {
    Listed(m.attachments) || Listed(m.preSavedNames) || Listed(m.preSaved)
  }

  // ---------------------------------------------------------------- the note

  const TelegramTag := "  - \"#input/telegram\""
  const MailTag := "  - \"#input/mail\""
  const AttachmentHeading := "## Вложение"

  /** `![[name]]`, an embedded link. */
  function Embed(name: string): string {
    "![[" + name + "]]"
  }

  function Embeds(names: seq<string>): (r: seq<string>)
    ensures |r| == |names|
  {
    seq(|names|, i requires 0 <= i < |names| => Embed(names[i]))
  }

  /** The front matter, the message heading, the body and an empty line. */
  function Opening(telegram: bool, date: string, body: string): (r: seq<string>)
    ensures |r| == 9
  {
    [ "---",
      "tags:",
      if telegram then TelegramTag else MailTag,
      "Зачем_изучать?:",
      "date: \"[[" + date + "]]\"",
      "---",
      "## Сообщение",
      body,
      "" ]
  }

  /** The attachment heading, one embed per link and an empty line, when there is any
      attachment at all. */
  function AttachmentSection(has: bool, links: seq<string>): (r: seq<string>)
    ensures |r| == if has then |links| + 2 else 0
  {
    if has then [AttachmentHeading] + Embeds(links) + [""] else []
  }

  /** The closing block, which ends with the review checkbox. */
  function Closing(date: string): (r: seq<string>)
    ensures |r| == 3
  {
    ["---", "## Инпуты", "- [ ] Просмотреть 🔽⏳[[" + date + "]]"]
  }

  /** The lines of the note. */
  function NoteLines(m: Message, body: string, date: string, links: seq<string>): (r: seq<string>)
    ensures |r| == if HasAnyAttachments(m) then |links| + 14 else 12
  {
    Opening(m.source == "telegram", date, body)
    + AttachmentSection(HasAnyAttachments(m), links)
    + Closing(date)
  }

  /** One write per byte attachment, to its stored name in the attachments directory. */
  function AttachmentWrites(dir: string, atts: seq<Attachment>, names: seq<string>): (r: seq<Write>)
    requires |names| == |atts|
    ensures |r| == |atts|
  {
    seq(|atts|, i requires 0 <= i < |atts| => Write(PathJoin(dir, names[i]), Binary(atts[i].blob)))
  }

  /** The links of the attachment section: the pre-saved links, then the stored names
      of the byte attachments, which draw their uuids after the pre-saved ones. */
  function Links(m: Message, uuids: nat -> UuidHex): (r: seq<string>)
    ensures |r| == |PreSavedSource(m)| + |Atts(m)|
  {
    var pre := PreSavedSource(m);
    LinkNames(pre, uuids, 0) + StoredNames(m, uuids)
  }

  function StoredNames(m: Message, uuids: nat -> UuidHex): (r: seq<string>)
    ensures |r| == |Atts(m)|
  {
    SafeNames(Atts(m), uuids, |Filter(PreSavedSource(m), IsEmpty)|)
  }

  /** The whole of `save_markdown_message`: the byte attachments are written to the
      attachments directory in input order, then the note, whose lines are joined by
      newlines, is written to its path in the base directory. */
  function SaveMarkdownMessage(st: Storage, m: Message, w: World): (r: Saved)
    requires w.Valid()
    ensures |r.writes| == |Atts(m)| + 1
    ensures r.writes[|Atts(m)|] == Write(r.path, Markdown(Join(r.lines, "\n")))
  {
    var body := NoteBody(m, w.htmlToText);
    var path := PathJoin(st.baseDir, NoteFileName(NamePartsOf(m), body, Timestamp(w.nameClock)));
    var lines := NoteLines(m, body, DateString(w.dateClock), Links(m, w.uuids));
    Saved(path, lines, AttachmentWrites(st.attachmentsDir, Atts(m), StoredNames(m, w.uuids)) + [Write(path, Markdown(Join(lines, "\n")))])
  }

  /** The parts the result is assembled from. */
  lemma {:induction false} SavedParts(st: Storage, m: Message, w: World)
    requires w.Valid()
    ensures var r := SaveMarkdownMessage(st, m, w);
            && r.lines == NoteLines(m, NoteBody(m, w.htmlToText), DateString(w.dateClock), Links(m, w.uuids))
            && r.path == PathJoin(st.baseDir, NoteFileName(NamePartsOf(m), NoteBody(m, w.htmlToText), Timestamp(w.nameClock)))
            && r.writes[..|Atts(m)|] == AttachmentWrites(st.attachmentsDir, Atts(m), StoredNames(m, w.uuids))
  {
    var r := SaveMarkdownMessage(st, m, w);
    assert r.writes[..|Atts(m)|] == AttachmentWrites(st.attachmentsDir, Atts(m), StoredNames(m, w.uuids));
  }

  // ---------------------------------------------------------------- the file system

  /** The files after the writes, performed in order; a later write to a path replaces
      what an earlier one put there. */
  function Apply(fs: Files, ws: seq<Write>): Files
    decreases |ws|
  {
    if ws == [] then fs else Apply(fs[ws[0].path := ws[0].content], ws[1..])
  }

  /** A path no write touches keeps its contents. */
  lemma {:induction false} ApplyUntouched(fs: Files, ws: seq<Write>, p: string)
    requires p in fs
    requires forall k :: 0 <= k < |ws| ==> ws[k].path != p
    ensures p in Apply(fs, ws) && Apply(fs, ws)[p] == fs[p]
    decreases |ws|
  {
    if ws != [] {
      assert ws[0].path != p;
      forall k | 0 <= k < |ws| - 1 ensures ws[1..][k].path != p {
        assert ws[1..][k] == ws[k + 1];
      }
      ApplyUntouched(fs[ws[0].path := ws[0].content], ws[1..], p);
    }
  }

  /** The last write to a path decides what the path holds afterwards. */
  lemma {:induction false} ApplyLast(fs: Files, ws: seq<Write>, j: nat)
    requires j < |ws|
    requires forall k :: j < k < |ws| ==> ws[k].path != ws[j].path
    ensures ws[j].path in Apply(fs, ws) && Apply(fs, ws)[ws[j].path] == ws[j].content
    decreases |ws|
  {
    var fs' := fs[ws[0].path := ws[0].content];
    if j == 0 {
      forall k | 0 <= k < |ws| - 1 ensures ws[1..][k].path != ws[0].path {
        assert ws[1..][k] == ws[k + 1];
      }
      ApplyUntouched(fs', ws[1..], ws[0].path);
    } else {
      forall k | j - 1 < k < |ws| - 1 ensures ws[1..][k].path != ws[1..][j - 1].path {
        assert ws[1..][k] == ws[k + 1];
      }
      ApplyLast(fs', ws[1..], j - 1);
    }
  }

  // ---------------------------------------------------------------- properties

  lemma {:induction false} StampAllowed(dt: DateTime)
    requires dt.Valid()
    ensures AllOf(Timestamp(dt), IsAllowed)
  {
    var t := Timestamp(dt);
    forall i | 0 <= i < |t| ensures IsAllowed(t[i]) {
      assert IsStampChar(t[i]);
    }
  }

  /** The note is written after every attachment, so whatever the attachments are
      called, the note path ends up holding the rendered note. */
  lemma {:induction false} NoteWrittenLast(fs: Files, st: Storage, m: Message, w: World)
    requires w.Valid()
    ensures var r := SaveMarkdownMessage(st, m, w);
            r.path in Apply(fs, r.writes) && Apply(fs, r.writes)[r.path] == Markdown(Join(r.lines, "\n"))
  {
    var r := SaveMarkdownMessage(st, m, w);
    ApplyLast(fs, r.writes, |r.writes| - 1);
  }

  /** The note lands directly in the base directory, under its file name. */
  lemma {:induction false} NoteInBaseDir(st: Storage, m: Message, w: World)
    requires w.Valid()
    ensures BaseName(SaveMarkdownMessage(st, m, w).path) ==
              NoteFileName(NamePartsOf(m), NoteBody(m, w.htmlToText), Timestamp(w.nameClock))
  {
    var name := NoteFileName(NamePartsOf(m), NoteBody(m, w.htmlToText), Timestamp(w.nameClock));
    StampAllowed(w.nameClock);
    NoSlash(name);
    JoinBaseName(st.baseDir, name);
  }

  lemma {:induction false} NoSlash(name: string)
    requires AllOf(name, IsAllowed)
    ensures '/' !in name
  {
  }

  /** Byte attachment `i` lands directly in the attachments directory, under its slug. */
  lemma {:induction false} AttachmentInDir(st: Storage, m: Message, w: World, i: nat)
    requires w.Valid() && i < |Atts(m)|
    ensures var name := StoredNames(m, w.uuids)[i];
            var p := SaveMarkdownMessage(st, m, w).writes[i].path;
            p == PathJoin(st.attachmentsDir, name) && BaseName(p) == name
  {
    AttachmentWrite(st, m, w, i);
    StoredBaseName(st.attachmentsDir, m, w.uuids, i);
  }

  /** A stored name holds neither `/` nor a space, so it is the base name of its path. */
  lemma {:induction false} StoredBaseName(dir: string, m: Message, uuids: nat -> UuidHex, i: nat)
    requires i < |Atts(m)|
    ensures var name := StoredNames(m, uuids)[i];
            BaseName(PathJoin(dir, name)) == name && ' ' !in name
  {
    var next := |Filter(PreSavedSource(m), IsEmpty)|;
    var names := StoredNames(m, uuids);
    assert names[i] == SafeName(Atts(m)[i].name, uuids(TokenAt(Atts(m), Draws, next, i)));
    SlugNoSlash(names[i]);
    JoinBaseName(dir, names[i]);
  }

  lemma {:induction false} SlugNoSlash(name: string)
    requires AllOf(name, IsSlugChar)
    ensures '/' !in name && ' ' !in name
  {
  }

  /** The fixed layout of a note: the front matter with the channel tag and the date
      link, the message heading, the body and an empty line; the attachment heading on
      line 9 exactly when the note has an attachment section, which then ends with an
      empty line; and the closing block with the review checkbox. */
  predicate LaidOut(l: seq<string>, telegram: bool, date: string, body: string, has: bool) {
    && |l| >= 12
    && l[0] == "---" && l[1] == "tags:"
    && (l[2] == TelegramTag <==> telegram)
    && (l[2] == MailTag <==> !telegram)
    && l[3] == "Зачем_изучать?:"
    && l[4] == "date: \"[[" + date + "]]\""
    && l[5] == "---" && l[6] == "## Сообщение"
    && l[7] == body && l[8] == ""
    && (l[9] == AttachmentHeading <==> has)
    && (has ==> |l| >= 14 && l[|l| - 4] == "")
    && l[|l| - 3] == "---" && l[|l| - 2] == "## Инпуты"
    && l[|l| - 1] == "- [ ] Просмотреть 🔽⏳[[" + date + "]]"
  }

  /** The layout of the lines, for any body, date and links. */
  lemma {:induction false} LinesLayout(m: Message, body: string, date: string, links: seq<string>)
    ensures LaidOut(NoteLines(m, body, date, links), m.source == "telegram", date, body, HasAnyAttachments(m))
  {
    var l := NoteLines(m, body, date, links);
    var open := Opening(m.source == "telegram", date, body);
    var sec := AttachmentSection(HasAnyAttachments(m), links);
    assert l == open + sec + Closing(date);
    assert TelegramTag != MailTag by {
      assert TelegramTag[12] != MailTag[12];
    }
    assert l[9] == (if HasAnyAttachments(m) then AttachmentHeading else "---");
    assert AttachmentHeading != "---" by {
      assert AttachmentHeading[0] != '-';
    }
    if HasAnyAttachments(m) {
      assert l[|l| - 4] == sec[|sec| - 1];
    }
  }

  /** The document layout of the saved note. Without attachments the note has 12 lines;
      with them, 14 plus one per link. */
  lemma {:induction false} NoteLayout(st: Storage, m: Message, w: World)
    requires w.Valid()
    ensures var r := SaveMarkdownMessage(st, m, w);
            var links := |PreSavedSource(m)| + |Atts(m)|;
            && |r.lines| == (if HasAnyAttachments(m) then 14 + links else 12)
            && LaidOut(r.lines, m.source == "telegram", DateString(w.dateClock), NoteBody(m, w.htmlToText), HasAnyAttachments(m))
  {
    SavedParts(st, m, w);
    LinesLayout(m, NoteBody(m, w.htmlToText), DateString(w.dateClock), Links(m, w.uuids));
  }

  /** The embed lines, for any body, date and links. */
  lemma {:induction false} LinesEmbed(m: Message, body: string, date: string, links: seq<string>, k: nat)
    requires HasAnyAttachments(m) && k < |links|
    ensures LineIs(NoteLines(m, body, date, links), 10 + k, Embed(links[k]))
  {
    var open := Opening(m.source == "telegram", date, body);
    var sec := AttachmentSection(true, links);
    assert sec[1 + k] == Embed(links[k]);
    assert NoteLines(m, body, date, links) == open + sec + Closing(date);
  }

  /** Line `k` exists and reads `s`. */
  predicate LineIs(lines: seq<string>, k: nat, s: string) {
    k < |lines| && lines[k] == s
  }

  /** Line `10 + |pre-saved| + i` of a note with byte attachments embeds the name of the
      file written for the i-th attachment, which holds that attachment's bytes. */
  lemma {:induction false} EmbedsFollowWrites(st: Storage, m: Message, w: World, i: nat)
    requires w.Valid() && i < |Atts(m)|
    ensures var r := SaveMarkdownMessage(st, m, w);
            && i < |r.writes|
            && LineIs(r.lines, 10 + |PreSavedSource(m)| + i, Embed(BaseName(r.writes[i].path)))
            && r.writes[i].content == Binary(Atts(m)[i].blob)
  {
    AttachmentWrite(st, m, w, i);
    StoredBaseName(st.attachmentsDir, m, w.uuids, i);
    StoredLink(m, w.uuids, i);
    SavedParts(st, m, w);
    LinesEmbed(m, NoteBody(m, w.htmlToText), DateString(w.dateClock), Links(m, w.uuids), |PreSavedSource(m)| + i);
  }

  /** The links list the byte attachments' stored names after the pre-saved ones. */
  lemma {:induction false} StoredLink(m: Message, uuids: nat -> UuidHex, i: nat)
    requires i < |Atts(m)|
    ensures HasAnyAttachments(m)
    ensures |PreSavedSource(m)| + i < |Links(m, uuids)|
    ensures Links(m, uuids)[|PreSavedSource(m)| + i] == StoredNames(m, uuids)[i]
  {
    var pre := LinkNames(PreSavedSource(m), uuids, 0);
    var stored := StoredNames(m, uuids);
    assert Links(m, uuids) == pre + stored;
    ConcatRight(pre, stored, i);
  }

  /** The byte attachments draw their uuids after every one the pre-saved links draw,
      so no uuid index serves two links of one note. */
  lemma {:induction false} StoredDrawsAfterPreSaved(m: Message, j: nat, i: nat)
    requires j < |PreSavedSource(m)| && PreSavedSource(m)[j] == "" && i < |Atts(m)|
    ensures TokenAt(PreSavedSource(m), IsEmpty, 0, j) < TokenAt(Atts(m), Draws, |Filter(PreSavedSource(m), IsEmpty)|, i)
  {
    var pre := PreSavedSource(m);
    TokensFresh(pre, IsEmpty, 0, j, |pre|);
    assert pre[..|pre|] == pre;
  }

  /** Line `10 + j` of a note with pre-saved files embeds the saved name of the j-th, or a
      fresh uuid when that name is empty. */
  lemma {:induction false} EmbedsOfPreSaved(st: Storage, m: Message, w: World, j: nat)
    requires w.Valid() && j < |PreSavedSource(m)|
    ensures var r := SaveMarkdownMessage(st, m, w);
            var pre := PreSavedSource(m);
            && HasAnyAttachments(m)
            && LineIs(r.lines, 10 + j, Embed(if pre[j] != "" then pre[j] else w.uuids(TokenAt(pre, IsEmpty, 0, j))))
  {
    PreSavedLink(m, w.uuids, j);
    SavedParts(st, m, w);
    LinesEmbed(m, NoteBody(m, w.htmlToText), DateString(w.dateClock), Links(m, w.uuids), j);
  }

  /** The links start with the pre-saved names, a fresh uuid standing in for an empty one. */
  lemma {:induction false} PreSavedLink(m: Message, uuids: nat -> UuidHex, j: nat)
    requires j < |PreSavedSource(m)|
    ensures HasAnyAttachments(m)
    ensures var pre := PreSavedSource(m);
            j < |Links(m, uuids)| && Links(m, uuids)[j] == LinkName(pre[j], uuids(TokenAt(pre, IsEmpty, 0, j)))
  {
    var pre := PreSavedSource(m);
    assert Links(m, uuids) == LinkNames(pre, uuids, 0) + StoredNames(m, uuids);
  }

  /** When `pre_saved_attachments` is non-empty, `pre_saved_attachment_names` is ignored
      altogether: the note, its path and the writes are the same whatever it holds. */
  lemma {:induction false} PreSavedSuppressesNames(st: Storage, m: Message, w: World, names: Option<seq<string>>)
    requires w.Valid() && Listed(m.preSaved)
    ensures SaveMarkdownMessage(st, m, w) == SaveMarkdownMessage(st, m.(preSavedNames := names), w)
  {
    var m' := m.(preSavedNames := names);
    SameParts(m, m', w.uuids);
    SameNaming(m, m', w.htmlToText);
    SameLines(m, m', NoteBody(m, w.htmlToText), DateString(w.dateClock), Links(m, w.uuids));
  }

  /** Every input of the builder but the message agrees on the two messages. */
  lemma {:induction false} SameParts(m: Message, m': Message, uuids: nat -> UuidHex)
    requires Listed(m.preSaved) && m' == m.(preSavedNames := m'.preSavedNames)
    ensures Atts(m') == Atts(m)
    ensures Links(m', uuids) == Links(m, uuids)
    ensures StoredNames(m', uuids) == StoredNames(m, uuids)
  {
    assert PreSavedSource(m') == PreSavedSource(m);
  }

  lemma {:induction false} SameNaming(m: Message, m': Message, htmlToText: string -> Option<string>)
    requires Listed(m.preSaved) && m' == m.(preSavedNames := m'.preSavedNames)
    ensures NoteBody(m', htmlToText) == NoteBody(m, htmlToText)
    ensures NamePartsOf(m') == NamePartsOf(m)
  {
  }

  lemma {:induction false} SameLines(m: Message, m': Message, body: string, date: string, links: seq<string>)
    requires Listed(m.preSaved) && m' == m.(preSavedNames := m'.preSavedNames)
    ensures NoteLines(m', body, date, links) == NoteLines(m, body, date, links)
  {
    assert HasAnyAttachments(m') && HasAnyAttachments(m);
  }

  /** The note's file name: `"<title> - <timestamp>.md"` for Telegram, where the title
      is the first present candidate of the priority chain, and
      `"<subject> - <preview> - <timestamp>.md"` for every other channel. */
  lemma {:induction false} NoteNaming(st: Storage, m: Message, w: World)
    requires w.Valid()
    ensures var n := NamePartsOf(m);
            var body := NoteBody(m, w.htmlToText);
            var stamp := Timestamp(w.nameClock);
            var name := BaseName(SaveMarkdownMessage(st, m, w).path);
            && (m.source == "telegram" ==> name == TelegramTitle(n, body, TextPreview(n, body)) + " - " + stamp + ".md")
            && (m.source != "telegram" ==> name == SafeSubject(n) + " - " + TextPreview(n, body) + " - " + stamp + ".md")
  {
    NoteInBaseDir(st, m, w);
  }

  /** Two Telegram notes with the same explicit title, saved within the same
      millisecond, get the same path, and the second replaces the first. */
  lemma {:induction false} SameMillisecondOverwrite(fs: Files, st: Storage, m1: Message, m2: Message, w1: World, w2: World)
    requires w1.Valid() && w2.Valid() && w1.nameClock.year >= 1000 && w2.nameClock.year >= 1000
    requires var a, b := w1.nameClock, w2.nameClock;
             (a.year, a.month, a.day, a.hour, a.minute, a.second, a.Millis()) ==
             (b.year, b.month, b.day, b.hour, b.minute, b.second, b.Millis())
    requires m1.source == "telegram" && m2.source == "telegram"
    requires Truthy(ExplicitTitle(m1)) && ExplicitTitle(m2) == ExplicitTitle(m1)
    ensures var r1, r2 := SaveMarkdownMessage(st, m1, w1), SaveMarkdownMessage(st, m2, w2);
            && r1.path == r2.path
            && r1.path in Apply(Apply(fs, r1.writes), r2.writes)
            && Apply(Apply(fs, r1.writes), r2.writes)[r1.path] == Markdown(Join(r2.lines, "\n"))
  {
    TimestampInjective(w1.nameClock, w2.nameClock);
    var stamp := Timestamp(w1.nameClock);
    var n1, n2 := NamePartsOf(m1), NamePartsOf(m2);
    var b1, b2 := NoteBody(m1, w1.htmlToText), NoteBody(m2, w2.htmlToText);
    TelegramTitlePriority(n1, b1, TextPreview(n1, b1), 0);
    TelegramTitlePriority(n2, b2, TextPreview(n2, b2), 0);
    SavedParts(st, m1, w1);
    SavedParts(st, m2, w2);
    assert NoteFileName(n1, b1, stamp) == NoteFileName(n2, b2, stamp);
    NoteWrittenLast(Apply(fs, SaveMarkdownMessage(st, m1, w1).writes), st, m2, w2);
  }

  /** The write of byte attachment `i`. */
  lemma {:induction false} AttachmentWrite(st: Storage, m: Message, w: World, i: nat)
    requires w.Valid() && i < |Atts(m)|
    ensures SaveMarkdownMessage(st, m, w).writes[i] ==
              Write(PathJoin(st.attachmentsDir, StoredNames(m, w.uuids)[i]), Binary(Atts(m)[i].blob))
  {
    var r := SaveMarkdownMessage(st, m, w);
    SavedParts(st, m, w);
    assert r.writes[i] == r.writes[..|Atts(m)|][i];
  }

  /** No attachment is written to the note's path: the note's file name holds a space
      and a slug never does. */
  lemma {:induction false} NoteApart(st: Storage, m: Message, w: World, j: nat)
    requires w.Valid() && j < |Atts(m)|
    ensures var r := SaveMarkdownMessage(st, m, w);
            r.writes[|Atts(m)|].path != r.writes[j].path
  {
    var r := SaveMarkdownMessage(st, m, w);
    AttachmentInDir(st, m, w, j);
    StoredBaseName(st.attachmentsDir, m, w.uuids, j);
    NoteInBaseDir(st, m, w);
    assert ' ' in BaseName(r.path);
  }

  /** After the writes `ws`, the path of write `j` holds `c`. */
  predicate HoldsAfter(fs: Files, ws: seq<Write>, j: nat, c: Content) {
    j < |ws| && ws[j].path in Apply(fs, ws) && Apply(fs, ws)[ws[j].path] == c
  }

  /** The last byte attachment's file holds that attachment's bytes once everything
      is written: only the note comes after it, and the note goes elsewhere. */
  lemma {:induction false} LastAttachmentKept(fs: Files, st: Storage, m: Message, w: World)
    requires w.Valid() && |Atts(m)| > 0
    ensures HoldsAfter(fs, SaveMarkdownMessage(st, m, w).writes, |Atts(m)| - 1, Binary(Atts(m)[|Atts(m)| - 1].blob))
  {
    var ws := SaveMarkdownMessage(st, m, w).writes;
    var j := |Atts(m)| - 1;
    AttachmentWrite(st, m, w, j);
    NoteApart(st, m, w, j);
    KeptBeforeLast(fs, ws, j);
  }

  /** A write followed only by one to another path survives. */
  lemma {:induction false} KeptBeforeLast(fs: Files, ws: seq<Write>, j: nat)
    requires j + 2 == |ws| && ws[j + 1].path != ws[j].path
    ensures HoldsAfter(fs, ws, j, ws[j].content)
  {
    ApplyLast(fs, ws, j);
  }

  /** Two byte attachments whose names give the same slug, neither drawing a uuid, are
      written to the same file, so the later one replaces the earlier: there is no
      collision avoidance. */
  lemma {:induction false} SameSlugSamePath(st: Storage, m: Message, w: World, i: nat, j: nat, t: UuidHex)
    requires w.Valid()
    requires i < j < |Atts(m)|
    requires !Draws(Atts(m)[i]) && !Draws(Atts(m)[j])
    requires Slugify(Atts(m)[i].name, t) == Slugify(Atts(m)[j].name, t)
    ensures SaveMarkdownMessage(st, m, w).writes[i].path == SaveMarkdownMessage(st, m, w).writes[j].path
  {
    var next := |Filter(PreSavedSource(m), IsEmpty)|;
    var names := StoredNames(m, w.uuids);
    var a := Atts(m);
    assert names[i] == SafeName(a[i].name, w.uuids(TokenAt(a, Draws, next, i)));
    assert names[j] == SafeName(a[j].name, w.uuids(TokenAt(a, Draws, next, j)));
    SlugifyToken(a[i].name, w.uuids(TokenAt(a, Draws, next, i)), t);
    SlugifyToken(a[j].name, w.uuids(TokenAt(a, Draws, next, j)), t);
    AttachmentWrite(st, m, w, i);
    AttachmentWrite(st, m, w, j);
  }
}

=== FILE: text.dfy ===
/** Character classes and the small string toolkit that Python's `str` methods and
    `re.sub` calls of the modelled code are built from: strip, runs collapsed into one
    character, filtering, `split`, `join`, slicing with Python's bounds and decimal digits. */
module Text {

  import opened Wrappers

  /** Python truthiness of an optional string: neither `None` nor the empty string. */
  predicate Truthy(o: Option<string>) {
    o.Some? && o.value != ""
  }

  /** `str.isspace()` and the `\s` class of `re` on `str` patterns: the ASCII blanks and
      control separators, NEL, NO-BREAK SPACE and the Unicode space separators. */
  predicate IsSpace(c: char) {
    || c == ' '
    || ('\t' <= c <= '\r')
    || ('\U{1C}' <= c <= '\U{1F}')
    || c == '\U{85}' || c == '\U{A0}' || c == '\U{1680}'
    || ('\U{2000}' <= c <= '\U{200A}')
    || c == '\U{2028}' || c == '\U{2029}' || c == '\U{202F}' || c == '\U{205F}' || c == '\U{3000}'
  }

  predicate IsAsciiLetter(c: char) {
    ('A' <= c <= 'Z') || ('a' <= c <= 'z')
  }

  predicate IsDigit(c: char) {
    '0' <= c <= '9'
  }

  /** Upper-case letters that `Lower` maps: ASCII and the basic Cyrillic block. */
  predicate IsUpper(c: char) {
    ('A' <= c <= 'Z') || ('\U{400}' <= c <= '\U{42F}')
  }

  /** `str.lower()` restricted to ASCII and basic Cyrillic (А..Я and Ѐ..Џ). */
  function Lower(c: char): (r: char)
    ensures IsUpper(c) ==> r != c && !IsUpper(r)
    ensures !IsUpper(c) ==> r == c
    ensures IsSpace(r) <==> IsSpace(c)
  {
    if 'A' <= c <= 'Z' || '\U{410}' <= c <= '\U{42F}' then (c as int + 32) as char
    else if '\U{400}' <= c <= '\U{40F}' then (c as int + 80) as char
    else c
  }

  function LowerStr(s: string): (r: string)
    ensures |r| == |s|
    ensures forall i :: 0 <= i < |s| ==> r[i] == Lower(s[i])
  {
    seq(|s|, i requires 0 <= i < |s| => Lower(s[i]))
  }

  lemma {:induction false} LowerStrIdempotent(s: string)
    ensures LowerStr(LowerStr(s)) == LowerStr(s)
  {
  }

  /** Text without upper-case letters is its own lower-case form. */
  lemma {:induction false} LowerFixed(s: string)
    requires NoneOf(s, IsUpper)
    ensures LowerStr(s) == s
  {
  }

  /** Every element of `s` satisfies `p`. */
  predicate AllOf<T>(s: seq<T>, p: T -> bool) {
    forall i :: 0 <= i < |s| ==> p(s[i])
  }

  lemma {:induction false} AllOfConcat<T>(a: seq<T>, b: seq<T>, p: T -> bool)
    requires AllOf(a, p) && AllOf(b, p)
    ensures AllOf(a + b, p)
  {
    forall i | 0 <= i < |a + b| ensures p((a + b)[i]) {
      if i >= |a| {
        assert (a + b)[i] == b[i - |a|];
      }
    }
  }

  /** No element of `s` satisfies `p`. */
  predicate NoneOf<T>(s: seq<T>, p: T -> bool) {
    forall i :: 0 <= i < |s| ==> !p(s[i])
  }

  /** No two neighbours of `s` both satisfy `p`. */
  predicate NoPair(s: string, p: char -> bool) {
    forall i :: 0 <= i < |s| - 1 ==> !(p(s[i]) && p(s[i + 1]))
  }

  /** White space, if any, is the plain space. */
  predicate PlainSpace(c: char) {
    IsSpace(c) ==> c == ' '
  }

  /** What remains of `s` after its leading run of `p`-characters. */
  function SkipRun(s: string, p: char -> bool): (r: string)
    ensures |r| <= |s| && r == s[|s| - |r|..]
    ensures AllOf(s[..|s| - |r|], p)
    ensures |r| > 0 ==> !p(r[0])
    decreases |s|
  {
    if |s| > 0 && p(s[0]) then
      var r := SkipRun(s[1..], p);
      assert s[..|s| - |r|] == [s[0]] + s[1..][..|s| - 1 - |r|];
      r
    else s
  }

  /** What remains of `s` after its trailing run of `p`-characters. */
  function TrimEnd(s: string, p: char -> bool): (r: string)
    ensures |r| <= |s| && r == s[..|r|]
    ensures AllOf(s[|r|..], p)
    ensures |r| > 0 ==> !p(r[|r| - 1])
    decreases |s|
  {
    if |s| > 0 && p(s[|s| - 1]) then
      var r := TrimEnd(s[..|s| - 1], p);
      assert s[|r|..] == s[..|s| - 1][|r|..] + [s[|s| - 1]];
      r
    else s
  }

  /** `str.lstrip()`, `str.rstrip()` and `str.strip()` with no argument. */
  function LStrip(s: string): string { SkipRun(s, IsSpace) }

  function RStrip(s: string): string { TrimEnd(s, IsSpace) }

  /** `r` is `s` with its trailing white space removed: a prefix of `s` that leaves only
      white space behind and does not itself end in white space. */
  predicate IsRStripOf(r: string, s: string) {
    r <= s && AllOf(s[|r|..], IsSpace) && (|r| > 0 ==> !IsSpace(r[|r| - 1]))
  }

  /** `rstrip()` meets that description, and nothing else does. */
  lemma {:induction false} RStripOf(s: string, r: string)
    ensures IsRStripOf(RStrip(s), s)
    ensures IsRStripOf(r, s) <==> r == RStrip(s)
  {
    var t := RStrip(s);
    if IsRStripOf(r, s) {
      RStripShorter(s, r, t);
      RStripShorter(s, t, r);
      assert r == s[..|r|] && t == s[..|t|];
    }
  }

  lemma {:induction false} RStripShorter(s: string, a: string, b: string)
    requires IsRStripOf(a, s) && IsRStripOf(b, s)
    ensures |b| <= |a|
  {
    assert |b| == 0 || !IsSpace(s[|b| - 1]) by {
      if |b| > 0 {
        assert b[|b| - 1] == s[|b| - 1];
      }
    }
    forall x | |a| <= x < |s| ensures IsSpace(s[x]) {
      assert s[x] == s[|a|..][x - |a|];
    }
  }


  /** Where `Strip(s)` begins inside `s`. */
  function StripStart(s: string): (a: nat)
    ensures a <= |s|
  {
    |s| - |LStrip(s)|
  }

  /** `Strip(s)` is the contiguous piece of `s` at `StripStart(s)`; everything cut off on
      either side is white space. */
  function Strip(s: string): string {
    RStrip(LStrip(s))
  }

  /** What `Strip` promises, stated once and called where it is needed. */
  lemma {:induction false} StripProps(s: string)
    ensures var r := Strip(s);
            && (|r| > 0 ==> !IsSpace(r[0]) && !IsSpace(r[|r| - 1]))
            && (AllOf(s, IsSpace) <==> r == "")
            && (NoneOf(s, IsSpace) ==> r == s)
            && StripStart(s) + |r| <= |s| && r == s[StripStart(s)..StripStart(s) + |r|]
            && AllOf(s[..StripStart(s)], IsSpace) && AllOf(s[StripStart(s) + |r|..], IsSpace)
  {
    StripFacts(s, Strip(s));
  }

  lemma {:induction false} StripFacts(s: string, r: string)
    requires r == RStrip(LStrip(s))
    ensures |r| > 0 ==> !IsSpace(r[0]) && !IsSpace(r[|r| - 1])
    ensures AllOf(s, IsSpace) <==> r == ""
    ensures NoneOf(s, IsSpace) ==> r == s
    ensures StripStart(s) + |r| <= |s| && r == s[StripStart(s)..StripStart(s) + |r|]
    ensures AllOf(s[..StripStart(s)], IsSpace) && AllOf(s[StripStart(s) + |r|..], IsSpace)
  {
    var l := LStrip(s);
    StripEnds(s, l, r);
    StripEmpty(s, l, r);
    StripNone(s, l, r);
    StripInfix(s, l, r);
    StripSides(s, l, r);
  }

  lemma {:induction false} StripEnds(s: string, l: string, r: string)
    requires l == LStrip(s) && r == RStrip(l)
    ensures |r| > 0 ==> !IsSpace(r[0]) && !IsSpace(r[|r| - 1])
  {
    if |r| > 0 {
      assert r[0] == l[0];
    }
  }

  lemma {:induction false} StripEmpty(s: string, l: string, r: string)
    requires l == LStrip(s) && r == RStrip(l)
    ensures AllOf(s, IsSpace) <==> r == ""
  {
    var a := |s| - |l|;
    assert |l| > 0 ==> l[0] == s[a];
    if r == "" {
      assert s == s[..a] + l;
      assert l == l[|r|..];
    }
  }

  lemma {:induction false} StripNone(s: string, l: string, r: string)
    requires l == LStrip(s) && r == RStrip(l)
    ensures NoneOf(s, IsSpace) ==> r == s
  {
    if NoneOf(s, IsSpace) {
      assert l == s;
      if |s| > 0 {
        assert s[|s| - 1] == l[|l| - 1];
      }
    }
  }

  lemma {:induction false} StripInfix(s: string, l: string, r: string)
    requires l == LStrip(s) && r == RStrip(l)
    ensures StripStart(s) + |r| <= |s| && r == s[StripStart(s)..StripStart(s) + |r|]
  {
    LStripAt(s);
    TakeOfDrop(s, l, r, StripStart(s));
  }

  lemma {:induction false} LStripAt(s: string)
    ensures LStrip(s) == s[StripStart(s)..]
  {
  }

  lemma {:induction false} TakeOfDrop<T>(s: seq<T>, l: seq<T>, r: seq<T>, a: nat)
    requires a <= |s| && l == s[a..] && r <= l
    ensures a + |r| <= |s| && r == s[a..a + |r|]
  {
  }

  lemma {:induction false} StripSides(s: string, l: string, r: string)
    requires l == LStrip(s) && r == RStrip(l)
    ensures AllOf(s[..StripStart(s)], IsSpace) && AllOf(s[StripStart(s) + |r|..], IsSpace)
  {
    var a := StripStart(s);
    assert AllOf(s[..a], IsSpace);
    assert l == s[a..] && r == l[..|r|];
    DropDrop(s, a, |r|);
  }

  lemma {:induction false} DropDrop<T>(s: seq<T>, a: nat, b: nat)
    requires a + b <= |s|
    ensures s[a..][b..] == s[a + b..]
  {
  }

  /** Neither end of `s` is white space: `Strip` leaves it as it is. */
  predicate Stripped(s: string) {
    |s| > 0 ==> !IsSpace(s[0]) && !IsSpace(s[|s| - 1])
  }

  lemma {:induction false} StrippedStrip(s: string)
    ensures Stripped(Strip(s))
  {
    StripProps(s);
  }

  lemma {:induction false} StrippedFixed(s: string)
    requires Stripped(s)
    ensures Strip(s) == s
  {
    assert LStrip(s) == s;
  }

  /** A character missing from `s` is missing from `Strip(s)`. */
  lemma {:induction false} StripWithout(s: string, c: char)
    requires c !in s
    ensures c !in Strip(s)
  {
    var r := Strip(s);
    var a := StripStart(s);
    StripProps(s);
    forall i | 0 <= i < |r| ensures r[i] != c {
      assert r[i] == s[a + i];
    }
  }

  /** Lower-casing keeps white space where it is, so it commutes with `strip`. */
  lemma {:induction false} StripLower(s: string)
    ensures Strip(LowerStr(s)) == LowerStr(Strip(s))
  {
    SkipRunLower(s);
    TrimEndLower(LStrip(s));
  }

  lemma {:induction false} SkipRunLower(s: string)
    ensures SkipRun(LowerStr(s), IsSpace) == LowerStr(SkipRun(s, IsSpace))
    decreases |s|
  {
    if |s| > 0 && IsSpace(s[0]) {
      assert LowerStr(s)[1..] == LowerStr(s[1..]);
      SkipRunLower(s[1..]);
    }
  }

  lemma {:induction false} TrimEndLower(s: string)
    ensures TrimEnd(LowerStr(s), IsSpace) == LowerStr(TrimEnd(s, IsSpace))
    decreases |s|
  {
    if |s| > 0 && IsSpace(s[|s| - 1]) {
      assert LowerStr(s)[..|s| - 1] == LowerStr(s[..|s| - 1]);
      TrimEndLower(s[..|s| - 1]);
    }
  }

  /** `re.sub(P + "+", rep, s)` for a one-character class `P`: every maximal run of
      `p`-characters becomes the single character `rep`. */
  function CollapseRuns(s: string, p: char -> bool, rep: char): (r: string)
    ensures |r| <= |s|
    ensures forall i :: 0 <= i < |r| ==> r[i] == rep || !p(r[i])
    ensures |s| > 0 && !p(s[0]) ==> |r| > 0 && r[0] == s[0]
    ensures |s| > 0 && p(s[0]) ==> |r| > 0 && r[0] == rep
    ensures NoPair(r, p)
    ensures NoneOf(s, p) ==> r == s
    decreases |s|
  {
    if |s| == 0 then []
    else if p(s[0]) then [rep] + CollapseRuns(SkipRun(s, p), p, rep)
    else [s[0]] + CollapseRuns(s[1..], p, rep)
  }

  /** The elements of `s` that satisfy `p`, in order (a list comprehension with `if`). */
  function Filter<T>(s: seq<T>, p: T -> bool): (r: seq<T>)
    ensures |r| <= |s|
    ensures AllOf(r, p)
    ensures AllOf(s, p) ==> r == s
    decreases |s|
  {
    if |s| == 0 then [] else (if p(s[0]) then [s[0]] else []) + Filter(s[1..], p)
  }

  lemma {:induction false} FilterConcat<T>(a: seq<T>, b: seq<T>, p: T -> bool)
    ensures Filter(a + b, p) == Filter(a, p) + Filter(b, p)
    decreases |a|
  {
    if |a| > 0 {
      assert (a + b)[0] == a[0];
      assert (a + b)[1..] == a[1..] + b;
      FilterConcat(a[1..], b, p);
      var h := if p(a[0]) then [a[0]] else [];
      assert Filter(a + b, p) == h + (Filter(a[1..], p) + Filter(b, p));
      assert Filter(a, p) == h + Filter(a[1..], p);
    } else {
      assert a + b == b;
    }
  }

  /** A property every element of `s` has, every element of its filter has. */
  lemma {:induction false} FilterKeeps<T>(s: seq<T>, p: T -> bool, q: T -> bool)
    requires AllOf(s, q)
    ensures AllOf(Filter(s, p), q)
    decreases |s|
  {
    if |s| > 0 {
      FilterKeeps(s[1..], p, q);
    }
  }

  /** Elements outside `p` contribute nothing to the filter. */
  lemma {:induction false} FilterHead<T>(s: seq<T>, p: T -> bool)
    requires |s| > 0
    ensures Filter(s, p) == (if p(s[0]) then [s[0]] else []) + Filter(s[1..], p)
  {
  }

  lemma {:induction false} FilterNone<T>(s: seq<T>, p: T -> bool)
    requires NoneOf(s, p)
    ensures Filter(s, p) == []
    decreases |s|
  {
    if |s| > 0 {
      FilterNone(s[1..], p);
    }
  }

  /** The filter of a prefix is a prefix of the filter. */
  lemma {:induction false} FilterPrefix<T>(s: seq<T>, n: nat, p: T -> bool)
    requires n <= |s|
    ensures Filter(s[..n], p) <= Filter(s, p)
  {
    assert s == s[..n] + s[n..];
    FilterConcat(s[..n], s[n..], p);
  }

  /** Filtering by `q` after filtering by a weaker `p` is filtering by `q` alone. */
  lemma {:induction false} FilterFilter(s: string, p: char -> bool, q: char -> bool)
    requires forall c :: q(c) ==> p(c)
    ensures Filter(Filter(s, p), q) == Filter(s, q)
    decreases |s|
  {
    if |s| > 0 {
      var rest := Filter(s[1..], p);
      FilterConcat(if p(s[0]) then [s[0]] else [], rest, q);
      FilterFilter(s[1..], p, q);
    }
  }

  /** White space only: nothing a non-space filter keeps. */
  lemma {:induction false} FilterSpaces(s: string, q: char -> bool)
    requires forall c :: q(c) ==> !IsSpace(c)
    requires AllOf(s, IsSpace)
    ensures Filter(s, q) == []
  {
    FilterNone(s, q);
  }

  /** Stripping white space loses nothing that a non-space filter keeps. */
  lemma {:induction false} FilterStrip(s: string, q: char -> bool)
    requires forall c :: q(c) ==> !IsSpace(c)
    ensures Filter(Strip(s), q) == Filter(s, q)
  {
    var l := LStrip(s);
    var x := s[..|s| - |l|];
    assert s == x + l;
    FilterConcat(x, l, q);
    FilterSpaces(x, q);
    FilterRStrip(l, q);
  }

  /** The same for trailing white space only. */
  lemma {:induction false} FilterRStrip(s: string, q: char -> bool)
    requires forall c :: q(c) ==> !IsSpace(c)
    ensures Filter(RStrip(s), q) == Filter(s, q)
  {
    var r := RStrip(s);
    assert s == r + s[|r|..];
    FilterConcat(r, s[|r|..], q);
    FilterSpaces(s[|r|..], q);
  }

  /** Collapsing `p`-runs into `rep` loses and adds nothing that `q` keeps, when `q`
      rejects `rep` and every `p`-character. */
  lemma {:induction false} FilterCollapse(s: string, p: char -> bool, rep: char, q: char -> bool)
    requires !q(rep)
    requires forall c :: p(c) ==> !q(c)
    ensures Filter(CollapseRuns(s, p, rep), q) == Filter(s, q)
    decreases |s|
  {
    if |s| > 0 {
      if p(s[0]) {
        var t := SkipRun(s, p);
        FilterCollapse(t, p, rep, q);
        FilterCollapseRun(s, t, p, rep, q);
      } else {
        FilterCollapse(s[1..], p, rep, q);
        FilterCollapseOther(s, p, rep, q);
      }
    }
  }

  /** One step of `FilterCollapse` at the start of a run. */
  lemma {:induction false} FilterCollapseRun(s: string, t: string, p: char -> bool, rep: char, q: char -> bool)
    requires !q(rep)
    requires forall c :: p(c) ==> !q(c)
    requires |s| > 0 && p(s[0]) && t == SkipRun(s, p)
    requires Filter(CollapseRuns(t, p, rep), q) == Filter(t, q)
    ensures Filter(CollapseRuns(s, p, rep), q) == Filter(s, q)
  {
    var x := s[..|s| - |t|];
    CollapseAtRun(s, p, rep);
    SkipRunSplit(s, p);
    FilterRunStep(x, t, CollapseRuns(t, p, rep), p, rep, q);
  }

  lemma {:induction false} CollapseAtRun(s: string, p: char -> bool, rep: char)
    requires |s| > 0 && p(s[0])
    ensures CollapseRuns(s, p, rep) == [rep] + CollapseRuns(SkipRun(s, p), p, rep)
  {
  }

  lemma {:induction false} SkipRunSplit(s: string, p: char -> bool)
    ensures var t := SkipRun(s, p);
            s == s[..|s| - |t|] + t && AllOf(s[..|s| - |t|], p)
  {
    var t := SkipRun(s, p);
    assert s == s[..|s| - |t|] + s[|s| - |t|..];
  }

  lemma {:induction false} FilterRunStep(x: string, t: string, ct: string, p: char -> bool, rep: char, q: char -> bool)
    requires !q(rep)
    requires forall c :: p(c) ==> !q(c)
    requires AllOf(x, p) && Filter(ct, q) == Filter(t, q)
    ensures Filter([rep] + ct, q) == Filter(x + t, q)
  {
    FilterConcat([rep], ct, q);
    assert Filter([rep], q) == [] by {
      assert [rep][1..] == [];
    }
    FilterConcat(x, t, q);
    NoneOfImplied(x, p, q);
    FilterNone(x, q);
  }

  lemma {:induction false} NoneOfImplied(x: string, p: char -> bool, q: char -> bool)
    requires AllOf(x, p)
    requires forall c :: p(c) ==> !q(c)
    ensures NoneOf(x, q)
  {
  }

  /** One step of `FilterCollapse` at a character outside `p`. */
  lemma {:induction false} FilterCollapseOther(s: string, p: char -> bool, rep: char, q: char -> bool)
    requires |s| > 0 && !p(s[0])
    requires Filter(CollapseRuns(s[1..], p, rep), q) == Filter(s[1..], q)
    ensures Filter(CollapseRuns(s, p, rep), q) == Filter(s, q)
  {
    CollapseOther(s, p, rep);
    FilterConcat([s[0]], CollapseRuns(s[1..], p, rep), q);
    ConsTail(s);
    FilterConcat([s[0]], s[1..], q);
  }

  lemma {:induction false} ConsTail<T>(s: seq<T>)
    requires |s| > 0
    ensures [s[0]] + s[1..] == s
  {
  }

  lemma {:induction false} ConcatParts<T>(a: seq<T>, b: seq<T>)
    ensures (a + b)[..|a|] == a && (a + b)[|a|..] == b
  {
  }

  lemma {:induction false} ConcatAssoc<T>(a: seq<T>, b: seq<T>, c: seq<T>)
    ensures a + b + c == a + (b + c)
  {
  }

  /** White space in normal form: no space at either end, never two in a row, and
      every white-space character is the plain space. */
  predicate WsNormal(t: string) {
    && (|t| > 0 ==> !IsSpace(t[0]) && !IsSpace(t[|t| - 1]))
    && NoPair(t, IsSpace)
    && AllOf(t, PlainSpace)
  }

  /** `re.sub(r"\s+", " ", s).strip()`. */
  function Squash(s: string): (r: string)
    ensures WsNormal(r)
    ensures |r| <= |s|
    ensures NoneOf(s, IsSpace) ==> r == s
  {
    var c := CollapseRuns(s, IsSpace, ' ');
    var r := Strip(c);
    SquashPairs(c, r);
    SquashPlain(c, r);
    r
  }

  /** Collapsing and stripping white space loses nothing a non-space filter keeps. */
  lemma {:induction false} FilterSquash(s: string, q: char -> bool)
    requires forall c :: q(c) ==> !IsSpace(c)
    ensures Filter(Squash(s), q) == Filter(s, q)
  {
    FilterCollapse(s, IsSpace, ' ', q);
    FilterStrip(CollapseRuns(s, IsSpace, ' '), q);
  }

  lemma {:induction false} SquashPairs(c: string, r: string)
    requires NoPair(c, IsSpace) && r == Strip(c)
    ensures NoPair(r, IsSpace)
  {
    var a := StripStart(c);
    InfixPairs(c, a, r, IsSpace);
  }

  /** A contiguous piece of a string without `p`-pairs has none either. */
  lemma {:induction false} InfixPairs(c: string, a: nat, r: string, p: char -> bool)
    requires a + |r| <= |c| && r == c[a..a + |r|]
    requires NoPair(c, p)
    ensures NoPair(r, p)
  {
    forall i | 0 <= i < |r| - 1 ensures !(p(r[i]) && p(r[i + 1])) {
      assert r[i] == c[a + i] && r[i + 1] == c[a + i + 1];
    }
  }

  lemma {:induction false} SquashPlain(c: string, r: string)
    requires forall i :: 0 <= i < |c| ==> c[i] == ' ' || !IsSpace(c[i])
    requires r == Strip(c)
    ensures AllOf(r, PlainSpace)
  {
    var a := StripStart(c);
    StripProps(c);
    forall i | 0 <= i < |r| ensures PlainSpace(r[i]) {
      assert r[i] == c[a + i];
    }
  }

  /** `Squash` keeps exactly the strings already in normal form. */
  lemma {:induction false} SquashFixedPoints(t: string)
    ensures WsNormal(t) <==> Squash(t) == t
  {
    if WsNormal(t) {
      CollapseNormal(t);
    }
  }

  lemma {:induction false} CollapseNormal(t: string)
    requires NoPair(t, IsSpace) && AllOf(t, PlainSpace)
    ensures CollapseRuns(t, IsSpace, ' ') == t
    decreases |t|
  {
    if |t| > 0 {
      NormalTail(t);
      CollapseNormal(t[1..]);
      CollapseFirst(t);
      assert t == [t[0]] + t[1..];
    }
  }

  lemma {:induction false} NormalTail(t: string)
    requires |t| > 0 && NoPair(t, IsSpace) && AllOf(t, PlainSpace)
    ensures NoPair(t[1..], IsSpace) && AllOf(t[1..], PlainSpace)
  {
    var u := t[1..];
    forall i | 0 <= i < |u| ensures PlainSpace(u[i]) {
      assert u[i] == t[i + 1];
    }
    forall i | 0 <= i < |u| - 1 ensures !(IsSpace(u[i]) && IsSpace(u[i + 1])) {
      assert u[i] == t[i + 1] && u[i + 1] == t[i + 2];
    }
  }

  /** In normal form the first character, space or not, is kept as it is. */
  lemma {:induction false} CollapseFirst(t: string)
    requires |t| > 0 && NoPair(t, IsSpace) && AllOf(t, PlainSpace)
    ensures CollapseRuns(t, IsSpace, ' ') == [t[0]] + CollapseRuns(t[1..], IsSpace, ' ')
  {
    if IsSpace(t[0]) {
      assert t[0] == ' ';
      assert SkipRun(t, IsSpace) == t[1..] by {
        assert |t| > 1 ==> !IsSpace(t[1]);
        assert SkipRun(t[1..], IsSpace) == t[1..];
      }
    }
  }

  /** `re.sub(r"\s+", " ", ...)` turns each white-space gap between two words into
      exactly one space. */
  lemma {:induction false} SquashGap(x: string, w: string, y: string)
    requires |x| > 0 && |w| > 0 && |y| > 0
    requires NoneOf(x, IsSpace) && AllOf(w, IsSpace) && NoneOf(y, IsSpace)
    ensures Squash(x + w + y) == x + " " + y
  {
    CollapseGap(w, y, IsSpace, ' ');
    CollapsePrefix(x, w + y, IsSpace, ' ');
    ConcatAssoc(x, w, y);
    ConcatAssoc(x, " ", y);
    StrippedBetween(x, " ", y);
    StrippedFixed(x + " " + y);
  }

  lemma {:induction false} StrippedBetween(x: string, m: string, y: string)
    requires |x| > 0 && |y| > 0 && !IsSpace(x[0]) && !IsSpace(y[|y| - 1])
    ensures Stripped(x + m + y)
  {
    var c := x + m + y;
    assert c[0] == x[0] && c[|c| - 1] == y[|y| - 1];
  }

  predicate NotSpace(c: char) {
    !IsSpace(c)
  }

  /** White space between two other characters of `s`: what survives `Squash` as a space. */
  predicate InnerSpace(s: string) {
    exists i, k, j :: 0 <= i < k < j < |s| && !IsSpace(s[i]) && IsSpace(s[k]) && !IsSpace(s[j])
  }

  /** `re.sub(r"\s+", " ", s).strip()` keeps a space exactly when `s` has white space
      between two other characters. */
  lemma {:induction false} SquashInner(s: string)
    ensures InnerSpace(s) <==> ' ' in Squash(s)
  {
    if InnerSpace(s) {
      var i, k, j :| 0 <= i < k < j < |s| && !IsSpace(s[i]) && IsSpace(s[k]) && !IsSpace(s[j]);
      SquashKeepsGap(s, i, k, j);
    } else {
      SquashNoGap(s);
    }
  }

  lemma {:induction false} SquashKeepsGap(s: string, i: nat, k: nat, j: nat)
    requires i < k < j < |s| && !IsSpace(s[i]) && IsSpace(s[k]) && !IsSpace(s[j])
    ensures ' ' in Squash(s)
  {
    var P, w, Q := GapSplit(s, i, k, j);
    var c := GapCollapse(P, w, Q);
    var x :| 0 <= x < |c| - 2 && !IsSpace(c[x]) && c[x + 1] == ' ' && !IsSpace(c[x + 2]);
    StripKeepsInner(c, x, x + 1, x + 2);
  }

  /** `s` around a gap: text ending in a non-space, the white-space run, and text
      starting with a non-space. */
  lemma {:induction false} GapSplit(s: string, i: nat, k: nat, j: nat) returns (P: string, w: string, Q: string)
    requires i < k < j < |s| && !IsSpace(s[i]) && IsSpace(s[k]) && !IsSpace(s[j])
    ensures s == P + w + Q
    ensures |P| > 0 && !IsSpace(P[|P| - 1]) && |w| > 0 && AllOf(w, IsSpace) && |Q| > 0 && !IsSpace(Q[0])
  {
    var a := LastBefore(s, NotSpace, k);
    var b := FirstFrom(s, k, NotSpace);
    assert a >= i && b <= j;
    P, w, Q := s[..a + 1], s[a + 1..b], s[b..];
    forall x | 0 <= x < |w| ensures IsSpace(w[x]) {
      assert w[x] == s[a + 1 + x];
    }
    ThreeParts(s, a + 1, b);
  }

  /** The collapse of a gap between two non-spaces holds a single space between two
      non-spaces. */
  lemma {:induction false} GapCollapse(P: string, w: string, Q: string) returns (c: string)
    requires |P| > 0 && !IsSpace(P[|P| - 1]) && |w| > 0 && AllOf(w, IsSpace) && |Q| > 0 && !IsSpace(Q[0])
    ensures c == CollapseRuns(P + w + Q, IsSpace, ' ')
    ensures exists x :: 0 <= x < |c| - 2 && !IsSpace(c[x]) && c[x + 1] == ' ' && !IsSpace(c[x + 2])
  {
    c := CollapseRuns(P + w + Q, IsSpace, ' ');
    var cp, cq := CollapseRuns(P, IsSpace, ' '), CollapseRuns(Q, IsSpace, ' ');
    ConcatAssoc(P, w, Q);
    CollapseSplit(P, w + Q, IsSpace, ' ');
    CollapseLead(w, Q, IsSpace, ' ');
    CollapseEnds(P, IsSpace, ' ');
    assert c == cp + ([' '] + cq);
    var x := |cp| - 1;
    assert c[x] == cp[x] && c[x + 1] == ' ' && c[x + 2] == cq[0];
  }

  /** A collapse of text ending in a character outside `p` ends in that character. */
  lemma {:induction false} CollapseEnds(s: string, p: char -> bool, rep: char)
    requires |s| > 0 && !p(s[|s| - 1])
    ensures |CollapseRuns(s, p, rep)| > 0
    ensures CollapseRuns(s, p, rep)[|CollapseRuns(s, p, rep)| - 1] == s[|s| - 1]
  {
    var init := s[..|s| - 1];
    var last := [s[|s| - 1]];
    assert s == init + last;
    if init == [] {
      CollapseOther(s, p, rep);
    } else if !p(init[|init| - 1]) {
      CollapseSplit(init, last, p, rep);
      CollapseOther(last, p, rep);
    } else {
      var k := LastBefore(init, (c: char) => !p(c), |init|);
      if k < 0 {
        assert AllOf(init, p);
        CollapseLead(init, last, p, rep);
        CollapseOther(last, p, rep);
      } else {
        var u, w := init[..k + 1], init[k + 1..];
        assert init == u + w;
        assert AllOf(w, p) by {
          forall x | 0 <= x < |w| ensures p(w[x]) {
            assert w[x] == init[k + 1 + x];
          }
        }
        assert s == u + (w + last);
        CollapseSplit(u, w + last, p, rep);
        CollapseLead(w, last, p, rep);
        CollapseOther(last, p, rep);
      }
    }
  }

  lemma {:induction false} SquashNoGap(s: string)
    requires !InnerSpace(s)
    ensures ' ' !in Squash(s)
  {
    var i0 := FirstFrom(s, 0, NotSpace);
    if i0 == |s| {
      SquashBlank(s);
    } else {
      var l, t, r := NoGapSplit(s, i0);
      SquashPadded(l, t, r);
    }
  }

  /** Without a gap, `s` is white space, text without white space, and white space. */
  lemma {:induction false} NoGapSplit(s: string, i0: nat) returns (l: string, t: string, r: string)
    requires !InnerSpace(s) && i0 == FirstFrom(s, 0, NotSpace) && i0 < |s|
    ensures s == l + t + r && AllOf(l, IsSpace) && NoneOf(t, IsSpace) && AllOf(r, IsSpace)
  {
    var j0 := LastBefore(s, NotSpace, |s|);
    assert j0 >= i0;
    l, t, r := s[..i0], s[i0..j0 + 1], s[j0 + 1..];
    forall x | 0 <= x < |t| ensures !IsSpace(t[x]) {
      assert t[x] == s[i0 + x];
    }
    forall x | 0 <= x < |l| ensures IsSpace(l[x]) {
      assert l[x] == s[x];
    }
    forall x | 0 <= x < |r| ensures IsSpace(r[x]) {
      assert r[x] == s[j0 + 1 + x];
    }
    ThreeParts(s, i0, j0 + 1);
  }

  /** Index of the last element before `k` that satisfies `p`, or -1 when there is none. */
  function LastBefore<T>(s: seq<T>, p: T -> bool, k: nat): (r: int)
    requires k <= |s|
    ensures -1 <= r < k
    ensures r >= 0 ==> p(s[r])
    ensures forall x :: r < x < k ==> !p(s[x])
    decreases k
  {
    if k == 0 then -1 else if p(s[k - 1]) then k - 1 else LastBefore(s, p, k - 1)
  }

  /** Text without white space keeps its padding out of the collapse: only it remains. */
  lemma {:induction false} SquashPadded(left: string, t: string, right: string)
    requires AllOf(left, IsSpace) && NoneOf(t, IsSpace) && AllOf(right, IsSpace)
    ensures Squash(left + t + right) == t
  {
    if t == "" {
      assert left + t + right == left + right;
      AllOfConcat(left, right, IsSpace);
      SquashBlank(left + right);
    } else {
      var pre, post := PaddedCollapse(left, t, right);
      assert Stripped(t) by {
        assert !IsSpace(t[0]) && !IsSpace(t[|t| - 1]);
      }
      StripUnique(pre, t, post);
    }
  }

  lemma {:induction false} PaddedCollapse(left: string, t: string, right: string) returns (pre: string, post: string)
    requires AllOf(left, IsSpace) && NoneOf(t, IsSpace) && AllOf(right, IsSpace) && t != ""
    ensures CollapseRuns(left + t + right, IsSpace, ' ') == pre + t + post
    ensures AllOf(pre, IsSpace) && AllOf(post, IsSpace)
  {
    pre := if left == "" then "" else " ";
    post := if right == "" then "" else " ";
    CollapseBlank(right, IsSpace, ' ');
    CollapsePrefix(t, right, IsSpace, ' ');
    ConcatAssoc(left, t, right);
    ConcatAssoc(pre, t, post);
    if left == "" {
      assert left + (t + right) == t + right;
    } else {
      ConcatTail(t, right);
      CollapseLead(left, t + right, IsSpace, ' ');
    }
  }

  /** A run of `p` alone collapses to at most one `rep`. */
  lemma {:induction false} CollapseBlank(w: string, p: char -> bool, rep: char)
    requires AllOf(w, p)
    ensures CollapseRuns(w, p, rep) == (if w == [] then [] else [rep])
  {
    if w != [] {
      SkipPast(w, [], p);
      assert w + [] == w;
      CollapseAtRun(w, p, rep);
    }
  }

  /** A non-empty run of `p` before a character outside `p` becomes one `rep`. */
  lemma {:induction false} CollapseLead(w: string, x: string, p: char -> bool, rep: char)
    requires |w| > 0 && AllOf(w, p) && |x| > 0 && !p(x[0])
    ensures CollapseRuns(w + x, p, rep) == [rep] + CollapseRuns(x, p, rep)
  {
    SkipPast(w, x, p);
    assert (w + x)[0] == w[0];
    CollapseAtRun(w + x, p, rep);
  }

  /** A collapse splits after a character outside `p`: no run crosses the split. */
  lemma {:induction false} CollapseSplit(a: string, b: string, p: char -> bool, rep: char)
    requires |a| > 0 && !p(a[|a| - 1])
    ensures CollapseRuns(a + b, p, rep) == CollapseRuns(a, p, rep) + CollapseRuns(b, p, rep)
    decreases |a|
  {
    if !p(a[0]) {
      if |a| == 1 {
        SplitEmpty(a[1..], b, p, rep);
      } else {
        assert a[1..][|a| - 2] == a[|a| - 1];
        CollapseSplit(a[1..], b, p, rep);
      }
      SplitStepOther(a, b, p, rep);
    } else {
      var t := SkipRun(a, p);
      SkipRunConcat(a, b, p);
      CollapseSplit(t, b, p, rep);
      SplitStepRun(a, b, t, p, rep);
    }
  }

  lemma {:induction false} SplitEmpty(e: string, b: string, p: char -> bool, rep: char)
    requires e == []
    ensures CollapseRuns(e + b, p, rep) == CollapseRuns(e, p, rep) + CollapseRuns(b, p, rep)
  {
    assert e + b == b;
    assert CollapseRuns(e, p, rep) == [];
  }

  lemma {:induction false} SplitStepOther(a: string, b: string, p: char -> bool, rep: char)
    requires |a| > 0 && !p(a[0])
    requires CollapseRuns(a[1..] + b, p, rep) == CollapseRuns(a[1..], p, rep) + CollapseRuns(b, p, rep)
    ensures CollapseRuns(a + b, p, rep) == CollapseRuns(a, p, rep) + CollapseRuns(b, p, rep)
  {
    ConcatTail(a, b);
    CollapseOther(a + b, p, rep);
    CollapseOther(a, p, rep);
    ConcatAssoc([a[0]], CollapseRuns(a[1..], p, rep), CollapseRuns(b, p, rep));
  }

  lemma {:induction false} SplitStepRun(a: string, b: string, t: string, p: char -> bool, rep: char)
    requires |a| > 0 && p(a[0]) && t == SkipRun(a, p) && SkipRun(a + b, p) == t + b
    requires CollapseRuns(t + b, p, rep) == CollapseRuns(t, p, rep) + CollapseRuns(b, p, rep)
    ensures CollapseRuns(a + b, p, rep) == CollapseRuns(a, p, rep) + CollapseRuns(b, p, rep)
  {
    ConcatTail(a, b);
    CollapseAtRun(a + b, p, rep);
    CollapseAtRun(a, p, rep);
    ConcatAssoc([rep], CollapseRuns(t, p, rep), CollapseRuns(b, p, rep));
  }

  /** A leading run that ends inside `a` is skipped the same way with anything after `a`. */
  lemma {:induction false} SkipRunConcat(a: string, b: string, p: char -> bool)
    requires |a| > 0 && !p(a[|a| - 1])
    ensures var t := SkipRun(a, p);
            && 0 < |t| < |a| + (if p(a[0]) then 0 else 1)
            && t[|t| - 1] == a[|a| - 1]
            && SkipRun(a + b, p) == t + b
    decreases |a|
  {
    ConcatTail(a, b);
    if p(a[0]) {
      assert |a| > 1;
      assert a[1..][|a| - 2] == a[|a| - 1];
      SkipRunConcat(a[1..], b, p);
    }
  }

  /** Every character outside `p` at some index of `s` still appears in the collapse. */
  lemma {:induction false} CollapseHasOther(s: string, p: char -> bool, rep: char, i: nat)
    requires i < |s| && !p(s[i]) && p(rep)
    ensures exists x :: 0 <= x < |CollapseRuns(s, p, rep)| && !p(CollapseRuns(s, p, rep)[x])
  {
    var q := (c: char) => !p(c);
    FilterCollapse(s, p, rep, q);
    FilterHas(s, q, i);
    FilterEmptyNone(CollapseRuns(s, p, rep), q);
  }

  lemma {:induction false} FilterHas<T>(s: seq<T>, q: T -> bool, i: nat)
    requires i < |s| && q(s[i])
    ensures Filter(s, q) != []
  {
    FilterConcat(s[..i], s[i..], q);
    assert s == s[..i] + s[i..];
    FilterHead(s[i..], q);
  }

  /** An empty filter means no element satisfies the predicate. */
  lemma {:induction false} FilterEmptyNone<T>(s: seq<T>, q: T -> bool)
    ensures Filter(s, q) == [] <==> NoneOf(s, q)
  {
    if NoneOf(s, q) {
      FilterNone(s, q);
    } else {
      var i :| 0 <= i < |s| && q(s[i]);
      FilterHas(s, q, i);
    }
  }

  /** A character between two non-spaces survives `strip()`. */
  lemma {:induction false} StripKeepsInner(s: string, i: nat, k: nat, j: nat)
    requires i < k < j < |s| && !IsSpace(s[i]) && !IsSpace(s[j])
    ensures s[k] in Strip(s)
  {
    var l, r := StripSplit(s);
    var t := Strip(s);
    forall x | 0 <= x < |s| ensures s[x] == ThreeAt(l, t, r, x) {
      ThreeIndex(l, t, r, x);
    }
    assert |l| <= i && j < |l| + |t|;
  }

  function ThreeAt<T>(a: seq<T>, b: seq<T>, c: seq<T>, x: nat): T
    requires x < |a| + |b| + |c|
  {
    if x < |a| then a[x] else if x < |a| + |b| then b[x - |a|] else c[x - |a| - |b|]
  }

  lemma {:induction false} ThreeIndex<T>(a: seq<T>, b: seq<T>, c: seq<T>, x: nat)
    requires x < |a| + |b| + |c|
    ensures (a + b + c)[x] == ThreeAt(a, b, c, x)
  {
  }

  /** White space alone collapses to nothing. */
  lemma {:induction false} SquashBlank(s: string)
    requires AllOf(s, IsSpace)
    ensures Squash(s) == ""
  {
    var c := CollapseRuns(s, IsSpace, ' ');
    if |s| > 0 {
      SkipPast(s, "", IsSpace);
      assert s + "" == s;
      assert c == [' '];
    }
    StripProps(c);
  }

  /** Skipping a leading run of `p` passes exactly the run `w`. */
  lemma {:induction false} SkipPast(w: string, y: string, p: char -> bool)
    requires AllOf(w, p) && (|y| > 0 ==> !p(y[0]))
    ensures SkipRun(w + y, p) == y
    decreases |w|
  {
    if |w| > 0 {
      assert (w + y)[1..] == w[1..] + y;
      SkipPast(w[1..], y, p);
    } else {
      assert w + y == y;
    }
  }

  /** Trimming a trailing run of `p` passes exactly the run `w`. */
  lemma {:induction false} TrimPast(y: string, w: string, p: char -> bool)
    requires AllOf(w, p) && (|y| > 0 ==> !p(y[|y| - 1]))
    ensures TrimEnd(y + w, p) == y
    decreases |w|
  {
    if |w| > 0 {
      var s := y + w;
      assert s[|s| - 1] == w[|w| - 1];
      assert s[..|s| - 1] == y + w[..|w| - 1];
      var u := w[..|w| - 1];
      assert AllOf(u, p) by {
        forall k | 0 <= k < |u| ensures p(u[k]) {
          assert u[k] == w[k];
        }
      }
      TrimPast(y, u, p);
    } else {
      assert y + w == y;
      if |y| > 0 {
        assert !p(y[|y| - 1]);
      }
    }
  }

  /** White space around a stripped text is exactly what `strip()` removes. */
  lemma {:induction false} StripUnique(left: string, t: string, right: string)
    requires AllOf(left, IsSpace) && AllOf(right, IsSpace) && Stripped(t)
    ensures Strip(left + t + right) == t
  {
    var s := left + t + right;
    if t == "" {
      assert s == left + right;
      AllOfConcat(left, right, IsSpace);
      StripProps(s);
    } else {
      assert s == left + (t + right);
      assert (t + right)[0] == t[0];
      SkipPast(left, t + right, IsSpace);
      TrimPast(t, right, IsSpace);
    }
  }

  /** Padding a text with white space does not change what `strip()` gives. */
  lemma {:induction false} StripPadded(left: string, v: string, right: string)
    requires AllOf(left, IsSpace) && AllOf(right, IsSpace)
    ensures Strip(left + v + right) == Strip(v)
  {
    var l, r := StripSplit(v);
    PaddedParts(left, l, Strip(v), r, right);
  }

  /** `s` is its stripped text between two runs of white space. */
  lemma {:induction false} StripSplit(s: string) returns (l: string, r: string)
    ensures s == l + Strip(s) + r && Stripped(Strip(s))
    ensures AllOf(l, IsSpace) && AllOf(r, IsSpace)
  {
    var t := Strip(s);
    var a := StripStart(s);
    StripEnds(s, LStrip(s), t);
    StripInfix(s, LStrip(s), t);
    StripSides(s, LStrip(s), t);
    l, r := s[..a], s[a + |t|..];
    ThreeParts(s, a, a + |t|);
  }

  lemma {:induction false} ThreeParts<T>(s: seq<T>, a: nat, b: nat)
    requires a <= b <= |s|
    ensures s == s[..a] + s[a..b] + s[b..]
  {
  }

  lemma {:induction false} PaddedParts(left: string, l: string, t: string, r: string, right: string)
    requires AllOf(left, IsSpace) && AllOf(l, IsSpace) && AllOf(r, IsSpace) && AllOf(right, IsSpace)
    requires Stripped(t)
    ensures Strip(left + (l + t + r) + right) == t
  {
    AllOfConcat(left, l, IsSpace);
    AllOfConcat(r, right, IsSpace);
    assert left + (l + t + r) + right == (left + l) + t + (r + right);
    StripUnique(left + l, t, r + right);
  }

  /** Text without `p` passes through a collapse unchanged, whatever follows it. */
  lemma {:induction false} CollapsePrefix(x: string, t: string, p: char -> bool, rep: char)
    requires NoneOf(x, p)
    ensures CollapseRuns(x + t, p, rep) == x + CollapseRuns(t, p, rep)
    decreases |x|
  {
    if |x| > 0 {
      NoneOfTail(x, p);
      CollapsePrefix(x[1..], t, p, rep);
      CollapseStep(x, t, p, rep);
    } else {
      assert x + t == t;
    }
  }

  lemma {:induction false} CollapseStep(x: string, t: string, p: char -> bool, rep: char)
    requires |x| > 0 && !p(x[0])
    requires CollapseRuns(x[1..] + t, p, rep) == x[1..] + CollapseRuns(t, p, rep)
    ensures CollapseRuns(x + t, p, rep) == x + CollapseRuns(t, p, rep)
  {
    var c := CollapseRuns(t, p, rep);
    ConcatTail(x, t);
    CollapseOther(x + t, p, rep);
    ConsConcat(x, c);
  }

  lemma {:induction false} ConcatTail<T>(x: seq<T>, t: seq<T>)
    requires |x| > 0
    ensures (x + t)[0] == x[0] && (x + t)[1..] == x[1..] + t
  {
  }

  lemma {:induction false} ConsConcat<T>(x: seq<T>, c: seq<T>)
    requires |x| > 0
    ensures [x[0]] + (x[1..] + c) == x + c
  {
    ConsTail(x);
  }

  lemma {:induction false} NoneOfTail<T>(x: seq<T>, p: T -> bool)
    requires |x| > 0 && NoneOf(x, p)
    ensures !p(x[0]) && NoneOf(x[1..], p)
  {
    forall i | 0 <= i < |x| - 1 ensures !p(x[1..][i]) {
      assert x[1..][i] == x[i + 1];
    }
  }

  /** A leading character outside `p` is kept as it is. */
  lemma {:induction false} CollapseOther(s: string, p: char -> bool, rep: char)
    requires |s| > 0 && !p(s[0])
    ensures CollapseRuns(s, p, rep) == [s[0]] + CollapseRuns(s[1..], p, rep)
  {
  }

  /** A non-empty run of `p` before a character outside `p` becomes one `rep`. */
  lemma {:induction false} CollapseGap(w: string, y: string, p: char -> bool, rep: char)
    requires |w| > 0 && AllOf(w, p) && |y| > 0 && NoneOf(y, p)
    ensures CollapseRuns(w + y, p, rep) == [rep] + y
  {
    assert (w + y)[0] == w[0];
    SkipPast(w, y, p);
  }

  /** Some element among the first `n` of `s` satisfies `p`. */
  predicate SomeWithin<T>(s: seq<T>, p: T -> bool, n: int) {
    exists k :: 0 <= k < |s| && k < n && p(s[k])
  }

  /** Collapsing runs of `p` moves no other character to the right. */
  lemma {:induction false} CollapseWithin(s: string, p: char -> bool, rep: char, q: char -> bool, n: int)
    requires forall c :: q(c) ==> !p(c)
    requires SomeWithin(s, q, n)
    ensures SomeWithin(CollapseRuns(s, p, rep), q, n)
    decreases |s|
  {
    var k :| 0 <= k < |s| && k < n && q(s[k]);
    if p(s[0]) {
      var t := SkipRun(s, p);
      SkipWithin(s, p, q, n);
      assert |t| < |s|;
      CollapseWithin(t, p, rep, q, n - 1);
      ConsWithin(rep, CollapseRuns(t, p, rep), q, n);
    } else if q(s[0]) {
      assert CollapseRuns(s, p, rep)[0] == s[0];
    } else {
      assert s[1..][k - 1] == s[k];
      CollapseWithin(s[1..], p, rep, q, n - 1);
      CollapseOther(s, p, rep);
      ConsWithin(s[0], CollapseRuns(s[1..], p, rep), q, n);
    }
  }

  /** One element in front moves the witness one place. */
  lemma {:induction false} ConsWithin<T>(x: T, t: seq<T>, q: T -> bool, n: int)
    requires SomeWithin(t, q, n - 1)
    ensures SomeWithin([x] + t, q, n)
  {
    var k :| 0 <= k < |t| && k < n - 1 && q(t[k]);
    assert ([x] + t)[k + 1] == t[k];
  }

  /** Skipping a leading run of `p` moves the others to the left, by at least one when
      the run is not empty. */
  lemma {:induction false} SkipWithin(s: string, p: char -> bool, q: char -> bool, n: int)
    requires forall c :: q(c) ==> !p(c)
    requires SomeWithin(s, q, n)
    ensures var t := SkipRun(s, p);
            && SomeWithin(t, q, if |s| > 0 && p(s[0]) then n - 1 else n)
            && (|s| > 0 && p(s[0]) ==> |t| < |s|)
  {
    var k :| 0 <= k < |s| && k < n && q(s[k]);
    var t := SkipRun(s, p);
    var a := |s| - |t|;
    assert t == s[a..];
    forall i | 0 <= i < a ensures !q(s[i]) {
      assert s[..a][i] == s[i];
    }
    assert t[k - a] == s[k];
    if |s| > 0 && p(s[0]) {
      assert SkipRun(s, p) == SkipRun(s[1..], p);
    }
  }

  /** Trimming a trailing run of `p` loses no other character. */
  lemma {:induction false} TrimWithin(s: string, p: char -> bool, q: char -> bool, n: int)
    requires forall c :: q(c) ==> !p(c)
    requires SomeWithin(s, q, n)
    ensures SomeWithin(TrimEnd(s, p), q, n)
  {
    var k :| 0 <= k < |s| && k < n && q(s[k]);
    var r := TrimEnd(s, p);
    forall i | |r| <= i < |s| ensures !q(s[i]) {
      assert s[|r|..][i - |r|] == s[i];
    }
    assert r[k] == s[k];
  }

  /** Stripping white space moves no other character to the right. */
  lemma {:induction false} StripWithin(s: string, q: char -> bool, n: int)
    requires forall c :: q(c) ==> !IsSpace(c)
    requires SomeWithin(s, q, n)
    ensures SomeWithin(Strip(s), q, n)
  {
    SkipWithin(s, IsSpace, q, n);
    TrimWithin(LStrip(s), IsSpace, q, n);
  }

  /** Filtering moves no kept character to the right. */
  lemma {:induction false} FilterWithin<T>(s: seq<T>, keep: T -> bool, q: T -> bool, n: int)
    requires forall x :: q(x) ==> keep(x)
    requires SomeWithin(s, q, n)
    ensures SomeWithin(Filter(s, keep), q, n)
    decreases |s|
  {
    var k :| 0 <= k < |s| && k < n && q(s[k]);
    var r := Filter(s, keep);
    FilterHead(s, keep);
    if q(s[0]) {
      assert r[0] == s[0];
    } else {
      assert s[1..][k - 1] == s[k];
      FilterWithin(s[1..], keep, q, n - 1);
      var rt := Filter(s[1..], keep);
      var k' :| 0 <= k' < |rt| && k' < n - 1 && q(rt[k']);
      if keep(s[0]) {
        assert r == [s[0]] + rt && r[k' + 1] == rt[k'];
      } else {
        assert r == rt;
      }
    }
  }

  /** Index of the first element at or after `i` that satisfies `p`, or `|s|` when there
      is none: a `for` loop with `break`, or a `while` loop over the elements that do
      not satisfy `p`. */
  function FirstFrom<T>(s: seq<T>, i: nat, p: T -> bool): (j: nat)
    requires i <= |s|
    ensures i <= j <= |s|
    ensures forall x :: i <= x < j ==> !p(s[x])
    ensures j < |s| ==> p(s[j])
    decreases |s| - i
  {
    if i == |s| || p(s[i]) then i else FirstFrom(s, i + 1, p)
  }

  /** Python's `s[:n]`, including a negative `n` counting from the end. */
  function PyPrefix<T>(s: seq<T>, n: int): (r: seq<T>)
    ensures r <= s
    ensures n >= 0 ==> |r| == (if n < |s| then n else |s|)
    ensures n < 0 ==> |r| == (if -n < |s| then |s| + n else 0)
  {
    if n >= 0 then (if n < |s| then s[..n] else s)
    else if -n < |s| then s[..|s| + n]
    else []
  }

  /** `t` ends `s`. */
  predicate IsSuffix<T(==)>(t: seq<T>, s: seq<T>) {
    |t| <= |s| && t == s[|s| - |t|..]
  }

  lemma {:induction false} SuffixExtend<T>(t: seq<T>, u: seq<T>, x: seq<T>)
    requires IsSuffix(t, u)
    ensures IsSuffix(t, x + u)
  {
    assert (x + u)[|x + u| - |t|..] == u[|u| - |t|..];
  }

  /** Index of the first `c` in `s`, or `|s|` when there is none. */
  function IndexOf(s: string, c: char): (k: nat)
    ensures k <= |s|
    ensures k < |s| ==> s[k] == c
    decreases |s|
  {
    if |s| == 0 then 0 else if s[0] == c then 0 else 1 + IndexOf(s[1..], c)
  }

  /** Nothing before `IndexOf(s, c)` is `c`. */
  lemma {:induction false} IndexOfBefore(s: string, c: char)
    ensures forall j :: 0 <= j < IndexOf(s, c) ==> s[j] != c
    decreases |s|
  {
    if |s| > 0 && s[0] != c {
      IndexOfBefore(s[1..], c);
      forall j | 0 < j < IndexOf(s, c) ensures s[j] != c {
        assert s[j] == s[1..][j - 1];
      }
    }
  }

  /** `s.split(sep)` with a one-character separator: never empty, pieces free of `sep`. */
  function Split(s: string, sep: char): (r: seq<string>)
    ensures |r| >= 1
    ensures r[0] == s[..IndexOf(s, sep)]
    decreases |s|
  {
    var k := IndexOf(s, sep);
    if k == |s| then [s] else [s[..k]] + Split(s[k + 1..], sep)
  }

  /** No piece of a split holds the separator. */
  lemma {:induction false} SplitPieces(s: string, sep: char)
    ensures forall i :: 0 <= i < |Split(s, sep)| ==> sep !in Split(s, sep)[i]
    decreases |s|
  {
    var k := IndexOf(s, sep);
    IndexOfBefore(s, sep);
    if k < |s| {
      var tail := Split(s[k + 1..], sep);
      SplitPieces(s[k + 1..], sep);
      assert Split(s, sep) == [s[..k]] + tail;
      forall i | 0 < i < |Split(s, sep)| ensures sep !in Split(s, sep)[i] {
        assert Split(s, sep)[i] == tail[i - 1];
      }
    }
  }

  /** One step of `split`: the first piece, then the split of what follows the first
      separator. */
  lemma {:induction false} SplitStep(s: string, sep: char, k: nat)
    requires k == IndexOf(s, sep) && k < |s|
    ensures Split(s, sep) == [s[..k]] + Split(s[k + 1..], sep)
  {
  }

  /** A text without the separator is a single piece. */
  lemma {:induction false} SplitWithout(s: string, sep: char)
    requires sep !in s
    ensures Split(s, sep) == [s]
  {
    assert IndexOf(s, sep) == |s|;
  }

  function Last<T>(s: seq<T>): T
    requires |s| > 0
  {
    s[|s| - 1]
  }

  lemma {:induction false} LastConcat<T>(a: seq<T>, b: seq<T>)
    requires |b| > 0
    ensures Last(a + b) == Last(b)
  {
  }

  lemma {:induction false} DropAfter<T>(x: seq<T>, sep: T, y: seq<T>, k: nat)
    requires k < |x|
    ensures (x + [sep] + y)[k + 1..] == x[k + 1..] + [sep] + y
  {
  }

  /** The last piece of `s.split(sep)` is what follows the last separator. */
  lemma {:induction false} SplitLastAfter(s: string, sep: char, x: string, y: string)
    requires s == x + [sep] + y && sep !in y
    ensures Last(Split(s, sep)) == y
    decreases |s|
  {
    var k := IndexOf(s, sep);
    assert s[|x|] == sep;
    IndexOfBefore(s, sep);
    assert k <= |x|;
    var rest := s[k + 1..];
    SplitStep(s, sep, k);
    LastConcat([s[..k]], Split(rest, sep));
    if k == |x| {
      assert rest == y;
      SplitWithout(y, sep);
    } else {
      DropAfter(x, sep, y, k);
      SplitLastAfter(rest, sep, x[k + 1..], y);
    }
  }

  /** `sep.join(parts)`. */
  function Join(parts: seq<string>, sep: string): string
    decreases |parts|
  {
    if |parts| == 0 then ""
    else if |parts| == 1 then parts[0]
    else parts[0] + sep + Join(parts[1..], sep)
  }

  /** Joining the pieces of a split with the separator gives the original text back. */
  lemma {:induction false} JoinSplit(s: string, sep: char)
    ensures Join(Split(s, sep), [sep]) == s
    decreases |s|
  {
    var k := IndexOf(s, sep);
    if k < |s| {
      var rest := s[k + 1..];
      var tail := Split(rest, sep);
      JoinSplit(rest, sep);
      assert Split(s, sep) == [s[..k]] + tail;
      JoinCons(s[..k], tail, [sep]);
      CutAt(s, k);
    }
  }

  lemma {:induction false} Adjacent<T>(s: seq<T>, i: nat, j: nat)
    requires i <= j <= |s|
    ensures s[i..j] + s[j..] == s[i..]
  {
  }

  lemma {:induction false} ConcatRight<T>(a: seq<T>, b: seq<T>, i: nat)
    requires i < |b|
    ensures |a| + i < |a + b| && (a + b)[|a| + i] == b[i]
  {
  }

  lemma {:induction false} HeadTail<T>(s: seq<T>)
    requires |s| > 0
    ensures s == [s[0]] + s[1..]
  {
  }

  lemma {:induction false} CutAt<T>(s: seq<T>, k: nat)
    requires k < |s|
    ensures s == s[..k] + [s[k]] + s[k + 1..]
  {
  }

  lemma {:induction false} JoinCons(a: string, tail: seq<string>, sep: string)
    requires |tail| >= 1
    ensures Join([a] + tail, sep) == a + sep + Join(tail, sep)
  {
    assert ([a] + tail)[1..] == tail;
  }

  /** Splitting a join of separator-free pieces gives the pieces back. */
  lemma {:induction false} SplitJoin(parts: seq<string>, sep: char)
    requires |parts| >= 1
    requires forall i :: 0 <= i < |parts| ==> sep !in parts[i]
    ensures Split(Join(parts, [sep]), sep) == parts
    decreases |parts|
  {
    var s := Join(parts, [sep]);
    if |parts| == 1 {
      assert IndexOf(s, sep) == |s|;
    } else {
      var rest := Join(parts[1..], [sep]);
      assert s == parts[0] + [sep] + rest;
      assert IndexOf(s, sep) == |parts[0]| by {
        assert s[|parts[0]|] == sep;
        forall j | 0 <= j < |parts[0]| ensures s[j] != sep {
          assert s[j] == parts[0][j];
        }
        IndexOfFirst(s, sep, |parts[0]|);
      }
      assert s[..|parts[0]|] == parts[0];
      assert s[|parts[0]| + 1..] == rest;
      SplitJoin(parts[1..], sep);
    }
  }

  /** Every character of `s` other than the separator lies in one of the pieces: in
      piece `g` at index `j`. */
  lemma {:induction false} SplitCovers(s: string, sep: char, i: nat) returns (g: string, j: nat)
    requires i < |s| && s[i] != sep
    ensures g in Split(s, sep) && j < |g| && g[j] == s[i]
    decreases |s|
  {
    var k := IndexOf(s, sep);
    if i < k {
      g, j := s[..k], i;
    } else {
      var rest := s[k + 1..];
      assert rest[i - k - 1] == s[i];
      g, j := SplitCovers(rest, sep, i - k - 1);
    }
  }

  lemma {:induction false} IndexOfFirst(s: string, c: char, k: nat)
    requires k < |s| && s[k] == c
    requires forall j :: 0 <= j < k ==> s[j] != c
    ensures IndexOf(s, c) == k
    decreases k
  {
    if k > 0 {
      IndexOfFirst(s[1..], c, k - 1);
    }
  }

  function DigitChar(d: nat): (c: char)
    requires d < 10
    ensures IsDigit(c)
  {
    ('0' as int + d) as char
  }

  /** The decimal rendering of a natural number (`str(n)`), without leading zeros. */
  function Dec(n: nat): (r: string)
    ensures |r| >= 1
    ensures forall i :: 0 <= i < |r| ==> IsDigit(r[i])
    decreases n
  {
    if n < 10 then [DigitChar(n)] else Dec(n / 10) + [DigitChar(n % 10)]
  }

  predicate AllDigits(s: string) {
    forall i :: 0 <= i < |s| ==> IsDigit(s[i])
  }

  /** The number a string of decimal digits denotes. */
  function DigitsValue(s: string): nat
    requires AllDigits(s)
    decreases |s|
  {
    if |s| == 0 then 0 else DigitsValue(s[..|s| - 1]) * 10 + (s[|s| - 1] as int - '0' as int)
  }

  function Pow10(k: nat): (r: nat)
    ensures r >= 1
  {
    if k == 0 then 1 else 10 * Pow10(k - 1)
  }

  /** Reading back a rendered number gives the number. */
  lemma {:induction false} DecRoundTrip(n: nat)
    ensures DigitsValue(Dec(n)) == n
    decreases n
  {
    if n >= 10 {
      DecRoundTrip(n / 10);
      var d := Dec(n);
      assert d[..|d| - 1] == Dec(n / 10);
    }
  }

  /** The value of a concatenation of digit strings. */
  lemma {:induction false} DigitsValueConcat(a: string, b: string)
    requires AllDigits(a) && AllDigits(b)
    ensures AllDigits(a + b)
    ensures DigitsValue(a + b) == DigitsValue(a) * Pow10(|b|) + DigitsValue(b)
    decreases |b|
  {
    if |b| > 0 {
      var ab := a + b;
      var b' := b[..|b| - 1];
      var d := b[|b| - 1] as int - '0' as int;
      assert ab[..|ab| - 1] == a + b';
      assert ab[|ab| - 1] == b[|b| - 1];
      DigitsValueConcat(a, b');
      assert DigitsValue(ab) == DigitsValue(a + b') * 10 + d;
      assert DigitsValue(b) == DigitsValue(b') * 10 + d;
      assert Pow10(|b|) == Pow10(|b'|) * 10;
      Regroup(DigitsValue(a), Pow10(|b'|), DigitsValue(b'), d);
    } else {
      assert a + b == a;
    }
  }

  lemma {:induction false} Regroup(x: int, p: int, y: int, d: int)
    ensures (x * p + y) * 10 + d == x * (p * 10) + (y * 10 + d)
  {
  }

  lemma {:induction false} DigitsValueZeros(z: string)
    requires forall i :: 0 <= i < |z| ==> z[i] == '0'
    ensures AllDigits(z) && DigitsValue(z) == 0
    decreases |z|
  {
    if |z| > 0 {
      DigitsValueZeros(z[..|z| - 1]);
    }
  }

  /** The number of digits of `n` is `w` exactly when `10^(w-1) <= n < 10^w`. */
  lemma {:induction false} DecLength(n: nat, w: nat)
    requires 1 <= w
    requires (w == 1 || Pow10(w - 1) <= n) && n < Pow10(w)
    ensures |Dec(n)| == w
    decreases w
  {
    if w > 1 {
      DecLength(n / 10, w - 1);
    }
  }

  function Zeros(k: nat): (r: string)
    ensures |r| == k && forall i :: 0 <= i < k ==> r[i] == '0'
  {
    seq(k, i => '0')
  }

  /** `f"{n:0{width}d}"`: the decimal rendering left-padded with zeros to `width`. */
  function PadZero(n: nat, width: nat): (r: string)
    ensures AllDigits(r)
    ensures n < Pow10(width) && width >= 1 ==> |r| == width
    ensures DigitsValue(r) == n
  {
    var d := Dec(n);
    var z := if |d| < width then Zeros(width - |d|) else "";
    DigitsValueZeros(z);
    DigitsValueConcat(z, d);
    DecRoundTrip(n);
    assert n < Pow10(width) && width >= 1 ==> |d| <= width by {
      if n < Pow10(width) && width >= 1 {
        DecWidth(n, width);
      }
    }
    z + d
  }

  lemma {:induction false} DecWidth(n: nat, w: nat)
    requires w >= 1 && n < Pow10(w)
    ensures |Dec(n)| <= w
    decreases w
  {
    if n >= 10 {
      assert w > 1;
      DecWidth(n / 10, w - 1);
    }
  }
}

=== FILE: wrappers.dfy ===
/** Optional values, standing in for Python's `None`-or-value arguments and results. */
module Wrappers {

  datatype Option<+T> = None | Some(value: T) {

    /** Returns the wrapped value, or `default` when there is none. */
    function GetOr(default: T): T {
      match this
      case Some(v) => v
      case None => default
    }
  }

  /** A failure carrying a human-readable reason, or a value. */
  datatype Result<+T> = Failure(reason: string) | Success(value: T)
}
